=== FILE: README.md ===
# arkin core, modelled in Dafny

This project models the sequential core of the arkin runtime library
(`src/arkin_core.c` and `include/arkin_core.h`) and proves properties of
the model:

- **Page rounding** (`align_to_page_size`), with the U64 wrap of the
  source written out (module `Paging`).
- **The OS allocation header**: the three counters `ar_os_mem_reserve`,
  `ar_os_mem_commit` and `ar_os_mem_decommit` keep in front of every
  reservation (module `OsMemory`).
- **Linear arenas**: create, push, pop, reset, used, the `push_arr` and
  `push_type` macros, and `ArTemp` checkpoints (module `Arenas`). An arena
  value carries the OS header of its reservation, because every push and
  pop talks to it.
- **Per-thread scratch arenas**: selection of a non-conflicting scratch
  arena, `ar_scratch_get` and `ar_scratch_release` (module `Scratch`).
- **ASCII character classes and case mapping** (module `Chars`).
- **String functions**: match, sub, sub_len, find, find_char, chop,
  trim, push_copy (module `Strings`), and split and split_char
  (module `Split`).
- **The string list**: push, push_front, pop, pop_front and join
  (module `StrLists`).
- **The byte hash `ar_fvn1a_hash`** (module `Fnv`).
- **The chained hash map**: init, insert, set, remove, has and get, with
  the LIFO free list of removed nodes (module `HashMaps`).

Modelling conventions:

- Every U64, U32 and U8 quantity is an unbounded integer restricted to its
  range. Each wrap-around or truncation of the C code is written out
  (`Add64`, `Sub64`, `Mul64`, `Trunc32` in module `Machine`).
- The page size is a parameter `page`. It is a power of two below 2^32,
  which is what `sysconf` returns, and at least 64 bytes.
- Strings are `seq<char>`. A function that can read past the end of its
  string in C takes a `tail`: the memory that follows the string.
- The thread's current context is an explicit `Option<ThreadCtx>`.
- Arena identities (addresses) are opaque values.
- The hash and equality callbacks of the map descriptor are function
  parameters.

Two behaviours of the code differ from what its own shape suggests was
meant, and the model follows the code:

- A checkpoint exists to restore the arena's position, but it saves the
  position in a 32-bit field, so rollback is exact only below 4 GiB.
- Scratch selection takes an array of conflicting arenas with a count,
  but it compares each candidate only with the first entry.

The defects the proofs exhibit are listed under "## Findings". For each
one, the as-written definition stays the model of the source. The
corrected definition is defined and proved next to it.

## Model

| member | source | states |
|---|---|---|
| Paging.AlignToPage | src/arkin_core.c:50-53 | for every value up to the last page below 2^64 the result is the least page multiple at or above the value; above that the U64 sum wraps to 0 |
| Paging.AlignPad | src/arkin_core.c:52 | the padding is less than one page and completes the value to a page multiple; it stays in range exactly when the value is alignable |
| Paging.PadIsNegatedRemainder | src/arkin_core.c:52 | the U64 wrap of `page - value` does not change the padding, because the page size divides 2^64 |
| Paging.AlignMonotone | src/arkin_core.c:50-53 | rounding up preserves order while nothing wraps |
| Paging.AlignOfMultiple | src/arkin_core.c:50-53 | a page multiple is its own rounding |
| Paging.AlignZero | src/arkin_core.c:50-53 | zero rounds to zero |
| Paging.AlignAtLeastPage | src/arkin_core.c:50-53 | a nonzero value rounds to at least one page |
| OsMemory.Reserve | src/arkin_core.c:672-684 | the recorded size is the request plus the 24-byte header rounded up to a page; one page is committed; the requested total is the header's 24 bytes; the header invariant holds |
| OsMemory.AlignFirstPage | src/arkin_core.c:681 | the header's 24 bytes round up to exactly one page |
| OsMemory.Commit | src/arkin_core.c:686-694 | the argument is added to the requested total; the committed size becomes the larger of the old one and the rounded request, so it never shrinks; the recorded size is untouched |
| OsMemory.CommitKeepsHeader | include/arkin_core.h:172-176 | a commit that does not wrap adds exactly its argument and keeps the header invariant |
| OsMemory.Decommit | src/arkin_core.c:696-713 | the requested total drops by the clamped argument and is floored at 24; the committed size becomes the smaller of the old one and the rounded request, so it never grows |
| OsMemory.DecommitKeepsHeader | include/arkin_core.h:178-184 | decommit keeps the header invariant and always leaves at least one page committed |
| OsMemory.DecommitUndoesCommit | src/arkin_core.c:686-713 | decommitting what was just committed restores the header exactly |
| OsMemory.HeaderKeepsFirstPage | include/arkin_core.h:178-180 | under the header invariant at least one page, and at least the requested total, is committed |
| Arenas.Create | src/arkin_core.c:62-73 | a new arena is empty, has the requested capacity and one page committed; the header has been asked for the record plus one page; both arena invariants hold |
| Arenas.CreateDefault | src/arkin_core.c:75-77 | the default capacity is 4 GiB and the new arena is empty and valid |
| Arenas.PushNoZero | src/arkin_core.c:90-102 | the block starts at the old position; the position advances by exactly `size` modulo 2^64; the commit boundary only grows; when it grows, the OS commit is handed the new absolute boundary |
| Arenas.Push | src/arkin_core.c:84-88 | a cleared push does the same bookkeeping as the uncleared one |
| Arenas.PushArr | include/arkin_core.h:133 | pushing `n` elements advances the position by the U64 product of element size and count |
| Arenas.PushType | include/arkin_core.h:134 | pushing one value is pushing an array of one element |
| Arenas.Pop | src/arkin_core.c:104-116 | an oversized request is clamped, so the position never underflows; the boundary only shrinks; when it shrinks, the OS decommit is handed the difference |
| Arenas.Reset | src/arkin_core.c:118-120 | the position becomes 0 while the committed pages and the header stay as they were |
| Arenas.Used | src/arkin_core.c:122-124 | the bytes in use are those handed out and not popped (see Arenas.UsedTracksOperations) |
| Arenas.UsedTracksOperations | src/arkin_core.c:62-124 | a new or reset arena uses 0 bytes; a push that does not wrap adds its size; a pop subtracts its size or empties the arena; a valid arena never uses more than it has committed |
| Arenas.PushAllPosition | src/arkin_core.c:93 | a run of pushes moves the position by the total of the sizes modulo 2^64 |
| Arenas.PushKeepsValid | src/arkin_core.c:90-102 | a push that does not wrap advances by exactly `size` and keeps the position within a nonzero page-multiple boundary |
| Arenas.PushKeepsBacked | src/arkin_core.c:96-99 | a push that does not wrap keeps the OS header's request ahead of the arena's boundary |
| Arenas.PopKeepsValid | src/arkin_core.c:104-116 | pop keeps the position within a nonzero page-multiple boundary |
| Arenas.PopKeepsBacked | src/arkin_core.c:111-115 | pop keeps the OS header's request ahead of the arena's boundary |
| Arenas.BackedCoversUsed | src/arkin_core.c:62-116 | every byte up to the position, header and record included, lies inside pages the OS has committed |
| Arenas.RunKeepsInvariants | src/arkin_core.c:62-120 | across any sequence of pushes, pops and resets that does not wrap, both arena invariants hold |
| Arenas.StepKeepsInvariants | src/arkin_core.c:84-120 | one push, pop or reset keeps both arena invariants |
| Arenas.TempBegin | src/arkin_core.c:126-131 | the checkpoint names its arena and keeps the position's low 32 bits, which is the whole position below 4 GiB |
| Arenas.TempEnd | src/arkin_core.c:133-140 | the arena returns to the saved position when it is at or above it, and to 0 otherwise; the checkpoint is cleared |
| Arenas.TempEndKeepsInvariants | src/arkin_core.c:133-140 | ending a checkpoint keeps both arena invariants |
| Arenas.CheckpointRestores | include/arkin_core.h:137-140 | below 4 GiB, ending a checkpoint after pushes and pops that stayed above it restores the usage measured at its start |
| Arenas.CheckpointTruncates | include/arkin_core.h:139 | a checkpoint taken at or beyond 4 GiB truncates the position to its low 32 bits, below the usage at its start |
| Arenas.WideTempBegin | src/arkin_core.c:126-131 | a checkpoint with a 64-bit saved position keeps the whole position |
| Arenas.WideTempEnd | src/arkin_core.c:133-140 | with a 64-bit saved position, ending returns to it or to 0 and clears the checkpoint |
| Arenas.WideCheckpointRestores | src/arkin_core.c:126-140 | with a 64-bit saved position, rollback restores the usage at every position |
| Arenas.AlignPastBoundary | src/arkin_core.c:95 | one byte past a page multiple rounds up to the next page multiple |
| Arenas.CommitDrift | src/arkin_core.c:97 | a push across a page boundary followed by the matching pop leaves the arena as it was, yet grows the header's requested total by the arena's whole committed size |
| Arenas.RepeatedCommitDrift | src/arkin_core.c:97 | `n` such cycles grow the requested total by `n` times the committed size while the arena stays the same |
| Arenas.RepeatedCommitDriftStep | src/arkin_core.c:97 | one cycle followed by `n - 1` cycles drifts by `n` times the committed size |
| Arenas.RepeatedDriftCommitsMore | src/arkin_core.c:686-694 | after `n` cycles the OS keeps at least the drifted total committed |
| Arenas.PushNoZeroIncrement | src/arkin_core.c:90-102 | the corrected push has the same offset and position as the source and hands the OS only the pages it adds |
| Arenas.IncrementPushKeepsExact | src/arkin_core.c:90-102 | with the corrected push, the header's request stays exactly the header, the record and the arena's committed pages |
| Arenas.PopKeepsExact | src/arkin_core.c:104-116 | pop keeps the header's request exact, because it decommits exactly the pages it gives up |
| Arenas.CorrectedCycleIsNeutral | src/arkin_core.c:90-116 | with the corrected push, the boundary-crossing push and pop return the arena and its header unchanged |
| Scratch.FirstOther | src/arkin_core.c:198-204 | the inner loop finds a scratch arena exactly when one differs from the conflicting entry, and returns the first such arena |
| Scratch.NonConflicting | src/arkin_core.c:188-208 | with no context there is no arena; with no conflicting arenas the first scratch arena is chosen; any arena returned is a scratch arena |
| Scratch.Scan | src/arkin_core.c:197-207 | the outer loop returns a scratch arena that differs from some remaining conflicting entry, and nothing exactly when every scratch arena equals every remaining entry |
| Scratch.DistinctScratchAvoidsFirst | src/arkin_core.c:197-204 | with two distinct scratch arenas the result is the first scratch arena that is not `conflicting[0]`, decided on that entry alone |
| Scratch.SecondConflictIgnored | src/arkin_core.c:197-204 | asked to avoid both scratch arenas, the selection returns the second one |
| Scratch.NonConflictingIntended | src/arkin_core.c:188-208 | the corrected selection returns a scratch arena in no conflicting entry, and nothing exactly when every scratch arena conflicts |
| Scratch.FirstFree | src/arkin_core.c:198-204 | the first scratch arena from `j` on that is in no conflicting entry, and nothing exactly when there is none |
| Scratch.IntendedAgreesOnOneConflict | src/arkin_core.c:188-208 | with at most one conflicting arena and distinct scratch arenas, the source's selection equals the corrected one |
| Scratch.IntendedNeverAliases | src/arkin_core.c:188-208 | the corrected selection never returns any conflicting arena |
| Scratch.ScratchGet | src/arkin_core.c:210-216 | the checkpoint is on the selected arena at its position's low 32 bits, or empty when nothing is selected |
| Scratch.ScratchRelease | include/arkin_core.h:146 | releasing ends the checkpoint on its arena, clears it, and leaves every other arena unchanged |
| Scratch.ScratchRoundTrip | include/arkin_core.h:145-146 | when the selected scratch arena sits below 4 GiB and is used in a nested way, releasing it restores its usage and leaves every other arena as the caller left it, whatever their positions |
| Scratch.CtxCreate | src/arkin_core.c:154-167 | the context names the two new default arenas in order and sits at offset 0 of the first one, which has advanced by the context's 16 bytes; both arenas are valid |
| Scratch.ContextSurvivesRelease | src/arkin_core.c:161 | a scratch checkpoint on the first arena below 4 GiB never rolls back over the context record |
| Chars.ToLower | src/arkin_core.c:248-253 | upper-case letters become lower-case letters and every other character is unchanged |
| Chars.ToUpper | src/arkin_core.c:255-260 | lower-case letters become upper-case letters and every other character is unchanged |
| Chars.CaseRoundTrip | src/arkin_core.c:248-260 | the two case maps undo each other on the letters they move, and each is idempotent |
| Chars.ToLowerClasses | src/arkin_core.c:223-253 | a character is a letter exactly when its lower-case form is lower case; lower-casing changes exactly the upper-case letters and keeps digits and whitespace |
| Chars.FoldEqual | src/arkin_core.c:248-253 | two characters lower-case alike exactly when they are equal or the two cases of one letter |
| Chars.FoldNul | src/arkin_core.c:248-253 | only NUL lower-cases to NUL |
| Chars.ClassesDisjoint | src/arkin_core.c:223-246 | digits, lower case, upper case and whitespace are pairwise disjoint |
| Chars.CaseExamples | tests/strings.c:7-11 | the case-mapping expectations of the character test |
| Chars.IsNumeric | src/arkin_core.c:223-225 | a character is a digit exactly when its code is 48 to 57 |
| Chars.IsAlpha | src/arkin_core.c:227-229 | a character is a letter exactly when the lower-case and upper-case maps send it to different characters |
| Chars.IsLower | src/arkin_core.c:231-233 | a character is lower case exactly when its code is 97 to 122 |
| Chars.IsUpper | src/arkin_core.c:235-237 | a character is upper case exactly when its code is 65 to 90 |
| Chars.IsWhitespace | src/arkin_core.c:239-246 | a character is whitespace exactly when it is the space or a control character from tab (9) to carriage return (13) |
| Chars.ClassesEnumerated | src/arkin_core.c:223-237 | the digits are exactly "0" to "9", and the lower-case and upper-case letters exactly the 26 letters of the alphabet |
| Strings.CompareFrom | src/arkin_core.c:336-348 | the comparison loop succeeds exactly when every position in the range agrees after case folding |
| Strings.Match | src/arkin_core.c:332-351 | without SLOPPY_LENGTH, a match is equality up to the requested case folding; with it, the shorter string matches the prefix of the longer |
| Strings.MatchExactIsEquality | src/arkin_core.c:332-351 | an exact match is string equality |
| Strings.MatchSymmetric | src/arkin_core.c:332-351 | matching does not depend on the order of the arguments |
| Strings.SloppyMatchIsPrefix | src/arkin_core.c:333-348 | a sloppy-length match holds exactly when one string is a prefix of the other |
| Strings.MatchExamples | tests/strings.c:16-66 | the expectations of the match test case |
| Strings.Sub | src/arkin_core.c:353-368 | in-range bounds in either order give the window between them; an out-of-range bound moves the start to the last character |
| Strings.SubSymmetric | src/arkin_core.c:354-358 | the order of the two bounds does not matter |
| Strings.SubOverrunsEnd | src/arkin_core.c:363-365 | an end past the string yields a window that reaches past its last character |
| Strings.SubIntended | src/arkin_core.c:360-365 | the corrected clamp always yields a window inside the string, equal to the source's for in-range bounds and cut at the end otherwise |
| Strings.SubIntendedAgrees | src/arkin_core.c:353-368 | for bounds inside the string the source and the corrected clamp agree |
| Strings.SubLen | src/arkin_core.c:370-372 | a nonempty window inside the string is exactly `len` characters from `start` |
| Strings.SubLenOfZero | src/arkin_core.c:371 | a zero length underflows `start + len - 1`: a two-character window, or from start 0 a window longer than the string |
| Strings.SubLenIntended | src/arkin_core.c:370-372 | the corrected window lies inside the string, is exact when it fits, and is empty for a zero length |
| Strings.SubLenIntendedAgrees | src/arkin_core.c:370-372 | for a nonempty window inside the string the source and the corrected window agree |
| Strings.SubExamples | tests/strings.c:68-96 | the expectations of the sub-string test case on "foobar" |
| Strings.Read | src/arkin_core.c:367 | a window of the string is read with its length, from the string when it lies inside it |
| Strings.Scan | src/arkin_core.c:376-389 | the scan index never passes the haystack's length |
| Strings.ScanSkipsMisses | src/arkin_core.c:376-389 | the scan stops at the first hit (the last with LAST), and at the length when there is none |
| Strings.MatchTable | src/arkin_core.c:383-384 | one answer per haystack index |
| Strings.MatchTableAt | src/arkin_core.c:383-384 | the answer at each index is the match of the needle-long window there |
| Strings.Find | src/arkin_core.c:374-390 | the result is a haystack index or the haystack's length |
| Strings.MatchAtIffOccurs | src/arkin_core.c:383-384 | for a NUL-terminated haystack and a NUL-free needle, the window match at an index holds exactly when the needle occurs there |
| Strings.FindFirstOccurrence | src/arkin_core.c:374-390 | for a NUL-terminated haystack and a NUL-free needle, without LAST, find returns the first occurrence of the needle, or the length when there is none |
| Strings.FindLastOccurrence | src/arkin_core.c:374-390 | for a NUL-terminated haystack and a NUL-free needle, with LAST, find returns the last occurrence of the needle, or the length when there is none |
| Strings.FindPastEnd | src/arkin_core.c:374-390 | on "ab" followed in memory by "c", find reports "bc" at index 1, where it does not occur |
| Strings.FindIntended | src/arkin_core.c:374-390 | the corrected find returns the first (with LAST, the last) index where the whole needle lies inside the haystack, or the length, whatever follows in memory |
| Strings.FindIntendedNotPastEnd | src/arkin_core.c:374-390 | on "ab" the corrected find reports no "bc" |
| Strings.FindIntendedAgrees | src/arkin_core.c:374-390 | for a NUL-terminated haystack and a NUL-free needle, the source's find equals the corrected one, with or without LAST |
| Strings.CharTable | src/arkin_core.c:401-408 | the answer at each index is whether the character there equals the needle after case folding |
| Strings.FindChar | src/arkin_core.c:392-414 | the result is the first (with LAST, the last) index holding the character up to case folding, or the length when there is none |
| Strings.FindCharIsFind | src/arkin_core.c:392-414 | finding a character is finding the one-character string |
| Strings.FindFirstExample | tests/strings.c:110-113 | find of "foo" in "foobarqux quxbarfoo" answers 0, whatever follows the terminating NUL |
| Strings.FindLastExample | tests/strings.c:115-116 | find of "foo" with LAST answers 16, the start of the last "foo" |
| Strings.FindIgnoringCaseExample | tests/strings.c:118-119 | find of "QUX" with LAST and CASE_INSENSITIVE answers 10, the start of the last "qux" |
| Strings.FindDelimiterExample | tests/strings.c:136-140 | find of ", " in "foo, bar, qux" answers 3 |
| Strings.FindCharFirstExample | tests/strings.c:123-124 | find_char of the space answers 9 |
| Strings.FindCharLastExamples | tests/strings.c:126-133 | find_char with LAST answers 13 for 'b', 10 for 'Q' ignoring case, and the length for the absent '1' |
| Strings.ChopStart | tests/strings.c:99-100 | the string without its first `n` characters |
| Strings.ChopEnd | tests/strings.c:102-103 | the string without its last `n` characters |
| Strings.ChopsSplit | tests/strings.c:99-103 | the two chops at complementary counts put back together give the string |
| Strings.ChopExamples | tests/strings.c:99-103 | the expectations of the chop test case on "foobar" |
| Strings.LeadingFrom | src/arkin_core.c:422-426 | the count of leading whitespace characters |
| Strings.TrailingFrom | src/arkin_core.c:428-432 | the count of trailing whitespace characters |
| Strings.TrimFront | src/arkin_core.c:422-426 | a suffix of the string, with only whitespace removed, starting with a non-whitespace character or empty |
| Strings.TrimBack | src/arkin_core.c:428-432 | a prefix of the string, with only whitespace removed, ending with a non-whitespace character or empty |
| Strings.Trim | src/arkin_core.c:416-420 | the part of the string between its leading and trailing whitespace, empty exactly when the string is all whitespace |
| Strings.TrimBothSides | src/arkin_core.c:416-420 | trimming is trimming the back of the front-trimmed string |
| Strings.TrimOfTrimmed | src/arkin_core.c:416-420 | a string without whitespace at either end is its own trim |
| Strings.TrimIdempotent | src/arkin_core.c:416-420 | trimming twice is trimming once |
| Strings.TrimExample | tests/strings.c:240-244 | the trim test case |
| Strings.TrimFrontAt | src/arkin_core.c:422-426 | the front trim cuts exactly the leading whitespace run, up to the first other character |
| Strings.TrimBackAt | src/arkin_core.c:428-432 | the back trim cuts exactly the trailing whitespace run, after the last other character |
| Strings.TrimFrontExample | tests/strings.c:246-249 | the trim_front test case |
| Strings.TrimBackExample | tests/strings.c:251-254 | the trim_back test case |
| Strings.PushCopy | src/arkin_core.c:326-330 | the copy holds the same characters in a block pushed at the arena's old position |
| Strings.PushCopyIsPush | src/arkin_core.c:326-330 | the copy's block is exactly the block of a push of the string's length, and when the string fits, the arena invariant and the OS header backing hold afterwards with the position advanced by the length |
| Split.SplitLoop | src/arkin_core.c:437-444 | every piece starts inside the string, and there are no more pieces than characters after the start |
| Split.Finder | src/arkin_core.c:439 | the search for the next delimiter from any index yields an index within the string or its end |
| Split.SplitStr | src/arkin_core.c:434-447 | every piece starts inside the string, and there are at most as many pieces as characters |
| Split.CharFinder | src/arkin_core.c:454 | the search for the next delimiter character yields an index within the string or its end |
| Split.SplitChar | src/arkin_core.c:449-462 | every piece starts inside the string, and there are at most as many pieces as characters |
| Split.SplitLoopAgrees | src/arkin_core.c:434-462 | the loop depends only on where the next delimiter is found |
| Split.SplitCharIsSplit | src/arkin_core.c:449-462 | splitting on a character is splitting on the one-character string |
| Split.NextOccurrenceIsFirst | src/arkin_core.c:439 | the reference search returns the first occurrence at or after the index, or the end |
| Split.NextOccurrenceUnique | src/arkin_core.c:439 | an index with no occurrence between the start and it, holding an occurrence or being the end, is the one the reference search returns |
| Split.FieldsDelimiterFree | src/arkin_core.c:434-447 | no reference field contains the delimiter |
| Split.FieldsRejoin | src/arkin_core.c:434-447 | joining the exact-match fields with the delimiter gives back the string, up to one trailing delimiter |
| Split.NextIsNextOccurrence | src/arkin_core.c:439 | for a NUL-terminated string, a NUL-free delimiter and no LAST, finding in the rest of the string lands on the next occurrence of the delimiter |
| Split.FinderFindsOccurrences | src/arkin_core.c:439 | for a NUL-terminated string, a NUL-free delimiter and no LAST, the source's search is the reference search at every index |
| Split.FinderLandsAt | src/arkin_core.c:439 | for a NUL-terminated string, a NUL-free delimiter and no LAST, the source's search from a start lands on any index that is the first occurrence from there, or on the end when there is none |
| Split.MissAtHead | src/arkin_core.c:374-390 | a delimiter whose first character does not match the string's character at an index does not occur at that index |
| Split.CutsAt | src/arkin_core.c:437-444 | every cut is the text from an index of the string up to where the search lands from it |
| Split.CutsAgree | src/arkin_core.c:437-444 | the cuts depend only on where the search lands inside the string |
| Split.CutsAreFields | src/arkin_core.c:434-447 | the pieces cut at the found delimiters are the reference fields |
| Split.LoopReadsCuts | src/arkin_core.c:437-444 | when no field is empty, the windows the loop produces read exactly the cut pieces |
| Split.SplitReadsFields | src/arkin_core.c:434-447 | for a NUL-terminated string, a NUL-free delimiter and no LAST, when no field is empty, split yields exactly the delimiter-free fields in order |
| Split.CharFinderFindsOccurrences | src/arkin_core.c:454 | without LAST, the character search is the reference search at every index |
| Split.SplitCharReadsFields | src/arkin_core.c:449-462 | without LAST, when no field is empty, split_char yields exactly the fields in order |
| Split.EmptyCutPiece | src/arkin_core.c:441 | a delimiter right at a piece's start makes `next - 1` fall below `start`, and the piece becomes a two-character window starting one character back |
| Split.EmptyFieldExample | src/arkin_core.c:434-447 | "a,,b" split at "," has the fields "a", "" and "b" |
| Split.CommaFinderExample | src/arkin_core.c:439 | the source's delimiter search on "a,,b" |
| Split.EmptyPieceExample | src/arkin_core.c:441 | the source's second piece of "a,,b" is the window ",," rather than the empty field |
| Split.SpaceFinderExample | tests/strings.c:178-181 | the character search for the space in "foo, bar, qux" lands on 4 and 9, and then on the end |
| Split.SplitCharExample | tests/strings.c:178-189 | split_char of "foo, bar, qux" at the space gives exactly three pieces, "foo,", "bar," and "qux" |
| Split.CommaSpaceFirstLanding | tests/strings.c:149-151 | the search for ", " in "foo, bar, qux" from 0 lands on 3 |
| Split.CommaSpaceSecondLanding | tests/strings.c:149-151 | from 5 it lands on 8 |
| Split.CommaSpaceLastLanding | tests/strings.c:149-151 | from 10 it finds no delimiter and lands on the end, 13 |
| Split.SplitCommaSpaceExample | tests/strings.c:148-161 | split of "foo, bar, qux" at ", " gives exactly three pieces, "foo", "bar" and "qux" |
| Split.SplitWordAt | tests/strings.c:164-166 | an upper-case "SPLIT" is an occurrence of "split" when case is ignored |
| Split.SplitWordAfterThree | tests/strings.c:164-166 | after three lower-case letters other than 's' and then "SPLIT", the search for "split" ignoring case lands on the "SPLIT" |
| Split.SplitWordFirstLanding | tests/strings.c:164-166 | the search for "split" ignoring case in "fooSPLITbarSPLITqux" from 0 lands on 3 |
| Split.SplitWordSecondLanding | tests/strings.c:164-166 | from 8 it lands on 11 |
| Split.SplitWordLastLanding | tests/strings.c:164-166 | from 16 it finds no delimiter and lands on the end, 19 |
| Split.SplitIgnoringCasePieces | tests/strings.c:164-166 | split of "fooSPLITbarSPLITqux" at "split" ignoring case returns the windows at 0, 8 and 16, each three long |
| Split.SplitIgnoringCaseExample | tests/strings.c:163-176 | split of "fooSPLITbarSPLITqux" at "split" ignoring case gives exactly three pieces, "foo", "bar" and "qux" |
| Split.SplitLoopIntended | src/arkin_core.c:437-444 | the corrected loop's windows all lie inside the string |
| Split.IntendedFinder | src/arkin_core.c:439 | the corrected search from any index yields an index within the string or its end |
| Split.SplitIntended | src/arkin_core.c:434-447 | the corrected split's windows all lie inside the string |
| Split.IntendedFinderFindsOccurrences | src/arkin_core.c:439 | without LAST, the corrected search is the reference search at every index, whatever follows the string |
| Split.LoopIntendedReadsCuts | src/arkin_core.c:437-444 | the corrected loop's windows read exactly the cut pieces, empty ones included |
| Split.SplitIntendedReadsFields | src/arkin_core.c:434-447 | without LAST, the corrected split yields exactly the fields in order, empty fields included, whatever follows the string |
| Split.IntendedAgreesWithoutEmptyCuts | src/arkin_core.c:437-444 | without empty fields the source and the corrected loop agree |
| StrLists.ListPush | src/arkin_core.c:264-269 | the string becomes the last element after the earlier ones in order, and one node is pushed on the arena |
| StrLists.ListPushFront | src/arkin_core.c:271-276 | the string becomes the first element before the earlier ones in order, and one node is pushed on the arena |
| StrLists.ListPop | src/arkin_core.c:278-280 | the last string is dropped and the others keep their order |
| StrLists.ListPopFront | src/arkin_core.c:282-284 | the first string is dropped and the others keep their order |
| StrLists.PushPopRoundTrip | src/arkin_core.c:264-284 | popping undoes pushing, at either end |
| StrLists.JoinAfterPush | src/arkin_core.c:264-302 | joining after a push appends the string to the join |
| StrLists.JoinAfterPushFront | src/arkin_core.c:271-302 | joining after a push to the front puts the string before the join |
| StrLists.ConcatLength | src/arkin_core.c:288-290 | the join is as long as the sum of the lengths |
| StrLists.JoinPlacesItems | src/arkin_core.c:294-299 | string `k` sits in the join right after the strings before it |
| StrLists.Join | src/arkin_core.c:286-302 | join returns the strings concatenated in list order, with the summed length, in a block pushed uncleared on the arena |
| StrLists.ListExample | tests/strings.c:199-232 | the list test cases: first and last after two pushes, and the join "loremfoobarqux" |
| StrLists.PushFrontExample | tests/strings.c:211-220 | two pushes to the front leave the later string first |
| Fnv.XorLow | src/arkin_core.c:476 | xoring a byte into the accumulator changes only its low eight bits |
| Fnv.Fnv1aHash | src/arkin_core.c:472-480 | for inputs shorter than 2^32 bytes the loop computes the byte-by-byte hash |
| Fnv.CounterNext | src/arkin_core.c:475 | the U32 counter wraps to 0 after 2^32 - 1 |
| Fnv.CounterAfterWraps | src/arkin_core.c:475 | after n rounds the U32 counter holds n modulo 2^32 |
| Fnv.ShortCounterNeverExits | src/arkin_core.c:475 | for a length of 2^32 or more the loop guard holds after any number of rounds, and the counter returns to the same value every 2^32 rounds |
| Fnv.Fnv1aHashWide | src/arkin_core.c:472-480 | with a U64 counter the loop computes the hash for every length |
| Fnv.XorLowLow32 | src/arkin_core.c:476 | the xor commutes with keeping 32 bits |
| Fnv.MulLow32 | src/arkin_core.c:477 | multiplying in U64 and keeping 32 bits is multiplying modulo 2^32 |
| Fnv.StepLow32 | src/arkin_core.c:476-477 | one step seen through the low 32 bits is one 32-bit FNV-1a step |
| Fnv.HashFromLow32 | src/arkin_core.c:472-480 | continuing the hash commutes with keeping its low 32 bits |
| Fnv.Low32IsFnv1a32 | src/arkin_core.c:472-480 | the low 32 bits of the source's hash are the standard 32-bit FNV-1a hash |
| Fnv.HashOfThree | src/arkin_core.c:475-478 | a three-byte input takes three steps |
| Fnv.FooSteps | src/arkin_core.c:473-478 | the accumulator after each byte of "foo" |
| Fnv.FooHash | tests/hash_map.c:5-9 | the hash of the test key "foo"; its low 32 bits are 0xa9f37ed7 and it falls in bucket 7 of 16 |
| Fnv.BarSteps | src/arkin_core.c:473-478 | the accumulator after each byte of "bar" |
| Fnv.BarHash | tests/hash_map.c:5-9 | the hash of the test key "bar", which falls in bucket 10 of 16 |
| HashMaps.Init | src/arkin_core.c:505-515 | a new map has one empty bucket per unit of capacity, no free nodes, and the given null value |
| HashMaps.InitArenaPosition | src/arkin_core.c:505-511 | init pushes the map record, 16 bytes per bucket and the null value; the arena moves by their sum |
| HashMaps.BucketOf | src/arkin_core.c:536-540 | the bucket index is always below the capacity, and is the hash modulo the capacity for capacities up to 2^32 |
| HashMaps.FindIn | src/arkin_core.c:589-594 | the first node of the chain with an equal key, or the chain length when there is none |
| HashMaps.GetNode | src/arkin_core.c:517-534 | the most recently freed node is reused without touching the arena; otherwise a fresh node is pushed at the arena's position |
| HashMaps.Has | src/arkin_core.c:586-596 | true exactly when some node of the key's bucket holds an equal key |
| HashMaps.Get | src/arkin_core.c:598-609 | a key that is not present reads as the null value |
| HashMaps.Insert | src/arkin_core.c:542-553 | insert succeeds exactly when the key's bucket is empty, and then the bucket is the one new node; otherwise nothing changes; other buckets are untouched |
| HashMaps.Set | src/arkin_core.c:555-569 | set answers true exactly when the key was absent; other buckets are untouched |
| HashMaps.Remove | src/arkin_core.c:571-584 | remove answers true exactly when the key was present, and then one node is pushed on the free list; otherwise nothing changes; other buckets are untouched |
| HashMaps.FindInSetValue | src/arkin_core.c:559-562 | overwriting a value does not change where any key is found |
| HashMaps.FindInAppend | src/arkin_core.c:566 | a node appended to a chain is found only when no earlier node matches |
| HashMaps.FindInUnlink | src/arkin_core.c:577 | unlinking a node keeps every other key's first match, shifted down past it |
| HashMaps.InsertThenGet | src/arkin_core.c:542-553 | after an insert into an empty bucket the key is present with the inserted value |
| HashMaps.InsertKeepsOthers | src/arkin_core.c:542-553 | an insert changes no answer about an unequal key |
| HashMaps.SetThenGet | src/arkin_core.c:555-569 | after a set the key is present with the value set, whether new or overwritten |
| HashMaps.SetKeepsOthers | src/arkin_core.c:555-569 | a set changes no answer about an unequal key |
| HashMaps.RemoveThenAbsent | src/arkin_core.c:571-584 | after a remove the key is absent and reads as the null value |
| HashMaps.RemoveKeepsOthers | src/arkin_core.c:571-584 | a remove changes no answer about an unequal key |
| HashMaps.RemoveTwice | src/arkin_core.c:571-584 | remove answers true exactly for a present key, and a second remove answers false |
| HashMaps.InsertKeepsWf | src/arkin_core.c:542-553 | insert keeps every bucket free of equal keys |
| HashMaps.SetKeepsWf | src/arkin_core.c:555-569 | set keeps every bucket free of equal keys |
| HashMaps.RemoveKeepsWf | src/arkin_core.c:571-584 | remove keeps every bucket free of equal keys |
| HashMaps.RemovedNodeReusedFirst | src/arkin_core.c:518-523 | the node a remove frees is the one the next insert or set reuses, without touching the arena |
| HashMaps.FreshNodeAllocation | src/arkin_core.c:524-531 | with no free node, the node record, key and value are pushed: 32 bytes plus the key and value sizes |
| HashMaps.SameBytesIsEquivalence | tests/hash_map.c:11-15 | exact string match is an equivalence |
| HashMaps.TestDesc | tests/hash_map.c:23-33 | the test map has 16 buckets, FNV-1a hashed string keys and exact-match equality |
| HashMaps.InsertTestCase | tests/hash_map.c:35-52 | the insert test case: both inserts succeed, removing "foo" keeps "bar", a second remove fails |
| HashMaps.SetTestCase | tests/hash_map.c:76-86 | the set test case: a first set is new, a second overwrites |
| HashMaps.HasGetTestCase | tests/hash_map.c:132-168 | the has and get test cases: the inserted key is found with its value, any other key reads as the null value |

## Left out

- The mmap, madvise, mprotect and munmap calls (src/arkin_core.c:672-718) are OS effects; only the three header counters are modelled. So is the base address of the decommit mprotect.
- `ar_os_mem_release`, `ar_arena_destroy` and `ar_thread_ctx_destroy` only release memory; nothing about the counters changes.
- Threads, the thread-local current context, `ar_thread_ctx_set`, OS init and the clock are OS plumbing or floating point; the context is an explicit parameter instead.
- `ar_str_format` depends on `vsnprintf`.
- The allocator hooks, `arkin_init` and `arkin_terminate` wrap malloc and global state.
- Logging, the test harness and the demo program are I/O.
- The generational pool, the linked-list macros (`ar_dll_*`, `ar_sll_stack_*`), `ArStr`, `ar_str_chop_*`, and the hash map's `get_ptr` and `iter` are not part of this model: their definitions are not in the modelled files. The chops are modelled from what tests/strings.c:99-103 expects.
- Byte contents: the zeroing in `ar_arena_push` and the copies in `push_copy` and the map operations are not modelled beyond the strings, keys and values they carry.
- `ar_hash_map_get_arena` is an accessor with nothing to state.
- StrLists.ListPush: the node layout of `ArStrList` is not in the modelled files, so the node size is a parameter.
- HashMaps.BucketOf: a map of capacity 0 is excluded (it and every map operation require `Fits`, which asks for at least one bucket), because the source divides by the capacity in every bucket lookup and a zero capacity is a division by zero.
- HashMaps.Init: the layout of `ArHashMapDesc` is not in the modelled files, so the size of the map record is a field of `Desc`.
- Split.SplitStr: the list nodes the source allocates for the pieces are not modelled; the result is the sequence of windows. The delimiter must be nonempty, because with an empty delimiter the source never leaves its loop.
- StrLists.ListPop, StrLists.ListPopFront: popping an empty list is excluded, because its behaviour is that of the list macros, which are not in the modelled files.
- StrLists.Join: the lengths must sum below 2^64; when the U64 sum wraps, the source copies past the end of its block.
- Fnv.Fnv1aHash: requires an input shorter than 2^32 bytes, because for longer inputs the source's loop does not terminate (see "## Findings").
- HashMaps.Remove: the source pushes the node on the free list before unlinking it from its bucket. The list macros that do this are not in the modelled files, so the model states the evident effect: the node leaves the bucket and heads the free list.
- HashMaps.SetKeepsOthers: assumes the equality callback is an equivalence, as exact string match is; the source does not demand it.
- HashMaps.SetKeepsWf: assumes the equality callback is an equivalence; with any other callback "no two equal keys in a bucket" is not a meaningful invariant.
- HashMaps.RemoveThenAbsent: assumes the equality callback is an equivalence; the source does not demand it.
- HashMaps.RemoveKeepsOthers: assumes the equality callback is an equivalence; the source does not demand it.
- HashMaps.RemoveTwice: assumes the equality callback is an equivalence; the source does not demand it.
- Strings.FindFirstOccurrence: holds only when a NUL follows the haystack and the needle has none; on a piece cut from a longer string the source can report a match that runs past the piece (see "## Findings" and Strings.FindIntended).
- Strings.FindLastOccurrence: the same NUL assumption as Strings.FindFirstOccurrence.
- Split.NextIsNextOccurrence: assumes a NUL after the string and a NUL-free delimiter, as find needs (see "## Findings"), and no LAST: with LAST the search lands on the last delimiter of the rest, so the pieces are not the fields.
- Split.FinderFindsOccurrences: the same NUL and no-LAST assumptions as Split.NextIsNextOccurrence.
- Split.SplitReadsFields: the same NUL and no-LAST assumptions as Split.NextIsNextOccurrence; split with LAST is not related to the fields.
- Split.CharFinderFindsOccurrences: without LAST only; with LAST the character search lands on the last delimiter of the rest.
- Split.SplitCharReadsFields: without LAST only, for the same reason.
- Split.SplitIntendedReadsFields: without LAST only; the corrected search needs no NUL after the string.
- Scratch.NonConflicting: excludes the case where both scratch arenas are the same arena and the first 256 conflicting entries are all that arena, because there the U8 loop counter wraps and the source never returns.
- Scratch.ScratchRelease: releasing the empty checkpoint dereferences a null arena in the source, so it is excluded.
- Arenas.TempEnd: ending a checkpoint with no arena dereferences a null arena in the source, so it is excluded.

## Findings

| source | as written | input that shows it | evidently intended | confidence | as-written member | corrected member |
|---|---|---|---|---|---|---|
| src/arkin_core.c:97 | the arena hands the new absolute boundary to `ar_os_mem_commit`, which adds it to its running total | an arena whose position equals its one-page boundary: push 1 byte, pop 1 byte; the arena is unchanged, but the header's requested total has grown by one page, and it grows again on every repetition | hand the commit only the pages being added, as pop already does for decommit | not executed | Arenas.RepeatedCommitDrift | Arenas.CorrectedCycleIsNeutral |
| include/arkin_core.h:139 | `ArTemp.pos` is a U32 | `temp_begin` on an arena at position 2^32 + 5, then `temp_end` at once: the arena drops to position 5 | save the full U64 position | not executed | Arenas.CheckpointTruncates | Arenas.WideCheckpointRestores |
| src/arkin_core.c:197-204 | the selection returns from inside the loop over `conflicting[0]`; later entries are never consulted | scratch arenas A and B, `conflicting = [A, B]`: B is returned, although the caller is using it | return a scratch arena in none of the conflicting entries, and nothing if there is none | not executed | Scratch.SecondConflictIgnored | Scratch.IntendedNeverAliases |
| src/arkin_core.c:363-365 | the second clamp assigns `start` instead of `end` | `ar_str_sub("foobar", 2, 9)`: the window starts at 5 and is 5 characters long, past the end | clamp `end` to the last index | not executed | Strings.SubOverrunsEnd | Strings.SubIntended |
| src/arkin_core.c:371 | `start + len - 1` underflows for a zero length | `ar_str_sub_len("foobar", 3, 0)` gives the 2-character window at 2 | an empty window | not executed | Strings.SubLenOfZero | Strings.SubLenIntended |
| src/arkin_core.c:441 | an empty field makes `next - 1 < start`, and `ar_str_sub` swaps its bounds | `ar_str_split("a,,b", ",")`: the second piece is ",," instead of the empty field | an empty piece for an empty field | not executed | Split.EmptyPieceExample | Split.SplitIntendedReadsFields |
| src/arkin_core.c:383-384 | the window at an index near the end is moved to the last character, runs on into the following memory, and the sloppy match compares only its length of the needle | "ab" cut from "abc": find of "bc" returns 1 | report an index only where the whole needle lies inside the haystack | not executed | Strings.FindPastEnd | Strings.FindIntended |
| src/arkin_core.c:475 | the loop counter is a U32 compared against the U64 length | any input of 2^32 bytes or more: the counter wraps before reaching the length and the loop never ends | a U64 counter | not executed | Fnv.ShortCounterNeverExits | Fnv.Fnv1aHashWide |

=== FILE: arena.dfy ===
/**
 * The linear arena of src/arkin_core.c (`ArArena`, `ar_arena_*`,
 * `ar_temp_*`). An arena lives in its own OS reservation: the 24-byte
 * allocation header comes first, then the 32-byte arena record, then the
 * bytes handed out by pushes. The record's three counters and the header's
 * three counters are modelled together, because every push and pop talks to
 * the header through `ar_os_mem_commit` / `ar_os_mem_decommit`.
 */
module Arenas {
  import opened Machine
  import opened Paging
  import opened OsMemory
  import opened Optional

  /** `sizeof(ArArena)`: three U64 counters and one pointer. */
  const ARENA_RECORD_SIZE: nat := 32

  /** `4 * 1llu << 30`, that is 4 GiB. */
  const DEFAULT_CAPACITY: u64 := 0x1_0000_0000

  /** Where the arena's first pushed byte sits, counted from the start of the reservation. */
  const DATA_START: nat := HEADER_SIZE + ARENA_RECORD_SIZE

  /** The identity (address) of an arena, as far as checkpoints and scratch selection need it. */
  type ArenaId = nat

  datatype Arena = Arena(capacity: u64, commited: u64, position: u64, info: AllocInfo)

  /** The pushed bytes lie below the committed boundary, which is a nonzero page multiple. */
  ghost predicate Valid(a: Arena, page: nat)
    requires IsPageSize(page)
  {
    && a.position <= a.commited
    && a.commited % page == 0
    && page <= a.commited <= MaxAlignable(page)
  }

  /**
   * The OS header has been asked for at least the header, the arena record
   * and every page the arena believes committed.
   */
  ghost predicate Backed(a: Arena, page: nat)
    requires IsPageSize(page)
  {
    && HeaderValid(a.info, page)
    && a.info.requestedCommited >= DATA_START + a.commited
  }

  /**
   * `ar_arena_create`: reserves room for the record plus `capacity`, commits
   * one page plus the record, and starts empty with one page committed.
   */
  function Create(capacity: u64, page: nat): (a: Arena)
    requires IsPageSize(page)
    ensures a.capacity == capacity && a.position == 0 && a.commited == page
    ensures a.info.requestedCommited == DATA_START + page
    ensures Valid(a, page) && Backed(a, page)
  {
    var reserved := Reserve(Add64(capacity, ARENA_RECORD_SIZE), page);
    CommitKeepsHeader(reserved, page + ARENA_RECORD_SIZE, page);
    ModMultiple(page, 1);
    Arena(capacity, page, 0, Commit(reserved, page + ARENA_RECORD_SIZE, page))
  }

  /** `ar_arena_create_default`: an arena of 4 GiB capacity. */
  function CreateDefault(page: nat): (a: Arena)
    requires IsPageSize(page)
    ensures a.capacity == 4 * 1024 * 1024 * 1024
    ensures a.position == 0 && Valid(a, page) && Backed(a, page)
  {
    Create(DEFAULT_CAPACITY, page)
  }

  /** What a push hands back: the offset of the new block and the updated arena. */
  datatype Allocation = Allocation(offset: u64, arena: Arena)

  /**
   * `ar_arena_push_no_zero`: the block starts at the old position and the
   * position moves by exactly `size` (no alignment rounding, no capacity
   * check). When the page ceiling of the new position passes the committed
   * boundary, that ceiling (an absolute size) is handed to the OS commit,
   * which adds it to its running total.
   */
  function PushNoZero(a: Arena, size: u64, page: nat): (r: Allocation)
    requires IsPageSize(page)
    ensures r.offset == a.position
    ensures r.arena.capacity == a.capacity
    ensures r.arena.position == Add64(a.position, size)
    ensures r.arena.commited >= a.commited
    ensures r.arena.commited == a.commited ==> r.arena.info == a.info
    ensures r.arena.commited > a.commited ==>
              && r.arena.commited == AlignToPage(r.arena.position, page)
              && r.arena.info == Commit(a.info, r.arena.commited, page)
  {
    var position := Add64(a.position, size);
    var aligned := AlignToPage(position, page);
    if aligned > a.commited then
      Allocation(a.position, Arena(a.capacity, aligned, position, Commit(a.info, aligned, page)))
    else
      Allocation(a.position, a.(position := position))
  }

  /**
   * `ar_arena_push`: the same bookkeeping as `PushNoZero`; the source then
   * clears the block, and byte contents are not part of this model.
   */
  function Push(a: Arena, size: u64, page: nat): (r: Allocation)
    requires IsPageSize(page)
    ensures r.offset == a.position
    ensures r.arena.position == Add64(a.position, size)
    ensures r.arena.commited >= a.commited
    ensures r == PushNoZero(a, size, page)
  {
    PushNoZero(a, size, page)
  }

  /** `ar_arena_push_arr(arena, T, n)`: pushes `sizeof(T) * n` bytes, the product taken in U64. */
  function PushArr(a: Arena, elemSize: u64, count: u64, page: nat): (r: Allocation)
    requires IsPageSize(page)
    ensures r.offset == a.position
    ensures r.arena.position == (a.position + elemSize * count) % TWO64
  {
    AddWrappedProduct(a.position, elemSize, count);
    Push(a, Mul64(elemSize, count), page)
  }

  /** `ar_arena_push_type(arena, T)`: pushes `sizeof(T)` bytes. */
  function PushType(a: Arena, typeSize: u64, page: nat): (r: Allocation)
    requires IsPageSize(page)
    ensures r == PushArr(a, typeSize, 1, page)
  {
    Push(a, typeSize, page)
  }

  /**
   * `ar_arena_pop`: a request larger than the position is clamped to it, so
   * the position never underflows. Committed pages are given back only when
   * the new page ceiling is below the boundary and not zero; the DIFFERENCE
   * is handed to the OS decommit.
   */
  function Pop(a: Arena, size: u64, page: nat): (r: Arena)
    requires IsPageSize(page)
    ensures r.position == a.position - Min(size, a.position)
    ensures r.capacity == a.capacity
    ensures r.commited <= a.commited
    ensures r.commited == a.commited ==> r.info == a.info
    ensures r.commited < a.commited ==>
              && r.commited != 0
              && r.commited == AlignToPage(r.position, page)
              && r.info == Decommit(a.info, a.commited - r.commited, page)
  {
    var clamped := if size > a.position then a.position else size;
    var position := a.position - clamped;
    var aligned := AlignToPage(position, page);
    if aligned < a.commited && aligned != 0 then
      Arena(a.capacity, aligned, position, Decommit(a.info, a.commited - aligned, page))
    else
      a.(position := position)
  }

  /** `ar_arena_reset`: pops everything; the committed pages stay committed. */
  function Reset(a: Arena, page: nat): (r: Arena)
    requires IsPageSize(page)
    ensures r.position == 0
    ensures r.commited == a.commited && r.info == a.info
  {
    AlignZero(page);
    Pop(a, a.position, page)
  }

  /** Blocks of the given sizes pushed one after another. */
  function PushAll(a: Arena, sizes: seq<u64>, page: nat): Arena
    requires IsPageSize(page)
    decreases |sizes|
  {
    if |sizes| == 0 then a else PushAll(PushNoZero(a, sizes[0], page).arena, sizes[1..], page)
  }

  function Sum(sizes: seq<u64>): nat
    decreases |sizes|
  {
    if |sizes| == 0 then 0 else sizes[0] + Sum(sizes[1..])
  }

  lemma SumOfThree(x: u64, y: u64, z: u64)
    ensures Sum([x, y, z]) == x + y + z
  {
    var s := [x, y, z];
    assert s[1..] == [y, z] && s[1..][1..] == [z] && s[1..][1..][1..] == [];
    assert Sum([z]) == z + Sum([]);
    assert Sum([y, z]) == y + Sum([z]);
  }

  /** A run of pushes moves the position by the total size, wrapping once at the end. */
  lemma {:induction false} PushAllPosition(a: Arena, sizes: seq<u64>, page: nat)
    requires IsPageSize(page)
    ensures PushAll(a, sizes, page).position == (a.position + Sum(sizes)) % TWO64
    decreases |sizes|
  {
    if |sizes| == 0 {
      DivModUnique(a.position, TWO64, 0, a.position);
    } else {
      var b := PushNoZero(a, sizes[0], page).arena;
      PushAllPosition(b, sizes[1..], page);
      Add64Wraps(a.position, sizes[0]);
      var k := (a.position + sizes[0]) / TWO64;
      assert b.position == a.position + sizes[0] - TWO64 * k;
      ModShift(b.position + Sum(sizes[1..]), TWO64, k);
    }
  }

  /** `ar_arena_used`: the number of bytes handed out and not popped. */
  function Used(a: Arena): u64 {
    a.position
  }

  /**
   * What `ar_arena_used` counts: nothing after create and reset, the size
   * more after a push that does not wrap, and the clamped size less after
   * a pop; a valid arena never uses more than it has committed.
   */
  lemma UsedTracksOperations(a: Arena, capacity: u64, size: u64, page: nat)
    requires IsPageSize(page)
    ensures Used(Create(capacity, page)) == 0
    ensures Used(Reset(a, page)) == 0
    ensures a.position + size < TWO64 ==> Used(PushNoZero(a, size, page).arena) == Used(a) + size
    ensures Used(Pop(a, size, page)) == if size <= Used(a) then Used(a) - size else 0
    ensures Valid(a, page) ==> Used(a) <= a.commited
  {
  }

  /** The no-wrap condition for a push: neither the position nor the header's total wraps. */
  ghost predicate PushFits(a: Arena, size: u64, page: nat)
    requires IsPageSize(page)
  {
    && a.position + size <= MaxAlignable(page)
    && a.info.requestedCommited + AlignToPage(a.position + size, page) <= MaxAlignable(page)
  }

  /** A push that does not wrap keeps the arena invariant and advances by exactly `size`. */
  lemma PushKeepsValid(a: Arena, size: u64, page: nat)
    requires IsPageSize(page) && Valid(a, page)
    requires a.position + size <= MaxAlignable(page)
    ensures PushNoZero(a, size, page).arena.position == a.position + size
    ensures Valid(PushNoZero(a, size, page).arena, page)
  {
    var r := PushNoZero(a, size, page).arena;
    var aligned := AlignToPage(a.position + size, page);
    if aligned > a.commited {
      AlignMonotone(a.position + size, MaxAlignable(page), page);
      TopMultiples(page);
      AlignOfMultiple(MaxAlignable(page), page);
    }
  }

  /** A push that does not wrap keeps the OS header ahead of the arena. */
  lemma PushKeepsBacked(a: Arena, size: u64, page: nat)
    requires IsPageSize(page) && Valid(a, page) && Backed(a, page)
    requires PushFits(a, size, page)
    ensures Backed(PushNoZero(a, size, page).arena, page)
  {
    var aligned := AlignToPage(a.position + size, page);
    if aligned > a.commited {
      CommitKeepsHeader(a.info, aligned, page);
    }
  }

  /** Pop keeps the arena invariant. */
  lemma PopKeepsValid(a: Arena, size: u64, page: nat)
    requires IsPageSize(page) && Valid(a, page)
    ensures Valid(Pop(a, size, page), page)
  {
    var r := Pop(a, size, page);
    if r.position == 0 {
      AlignZero(page);
    } else {
      AlignAtLeastPage(r.position, page);
    }
  }

  /** Pop keeps the OS header ahead of the arena: it decommits exactly what it gives up. */
  lemma PopKeepsBacked(a: Arena, size: u64, page: nat)
    requires IsPageSize(page) && Valid(a, page) && Backed(a, page)
    ensures Backed(Pop(a, size, page), page)
  {
    var r := Pop(a, size, page);
    if r.commited < a.commited {
      DecommitKeepsHeader(a.info, a.commited - r.commited, page);
    }
  }

  /**
   * Safety of the header arithmetic: every byte up to the arena's position
   * (header and record included) lies inside pages the OS has committed.
   */
  lemma BackedCoversUsed(a: Arena, page: nat)
    requires IsPageSize(page) && Valid(a, page) && Backed(a, page)
    ensures a.info.commited >= DATA_START + a.position
    ensures a.info.commited >= DATA_START + a.commited
  {
    HeaderKeepsFirstPage(a.info, page);
  }

  /** The operations that change an arena's counters. */
  datatype Op = PushOp(size: u64) | PopOp(size: u64) | ResetOp

  function Step(a: Arena, op: Op, page: nat): Arena
    requires IsPageSize(page)
  {
    match op
    case PushOp(size) => PushNoZero(a, size, page).arena
    case PopOp(size) => Pop(a, size, page)
    case ResetOp => Reset(a, page)
  }

  function Run(a: Arena, ops: seq<Op>, page: nat): Arena
    requires IsPageSize(page)
    decreases |ops|
  {
    if |ops| == 0 then a else Run(Step(a, ops[0], page), ops[1..], page)
  }

  /** No push in the sequence wraps a counter. */
  ghost predicate RunFits(a: Arena, ops: seq<Op>, page: nat)
    requires IsPageSize(page)
    decreases |ops|
  {
    |ops| > 0 ==>
      && (ops[0].PushOp? ==> PushFits(a, ops[0].size, page))
      && RunFits(Step(a, ops[0], page), ops[1..], page)
  }

  /**
   * Across any sequence of pushes, pops and resets, the position stays at
   * or below the committed boundary, that boundary stays a nonzero page
   * multiple, and the OS header stays ahead of it.
   */
  lemma {:induction false} RunKeepsInvariants(a: Arena, ops: seq<Op>, page: nat)
    requires IsPageSize(page) && Valid(a, page) && Backed(a, page)
    requires RunFits(a, ops, page)
    ensures Valid(Run(a, ops, page), page) && Backed(Run(a, ops, page), page)
    decreases |ops|
  {
    if |ops| > 0 {
      StepKeepsInvariants(a, ops[0], page);
      RunKeepsInvariants(Step(a, ops[0], page), ops[1..], page);
    }
  }

  lemma StepKeepsInvariants(a: Arena, op: Op, page: nat)
    requires IsPageSize(page) && Valid(a, page) && Backed(a, page)
    requires op.PushOp? ==> PushFits(a, op.size, page)
    ensures Valid(Step(a, op, page), page) && Backed(Step(a, op, page), page)
  {
    match op {
      case PushOp(size) =>
        PushKeepsValid(a, size, page);
        PushKeepsBacked(a, size, page);
      case PopOp(size) =>
        PopKeepsValid(a, size, page);
        PopKeepsBacked(a, size, page);
      case ResetOp =>
        PopKeepsValid(a, a.position, page);
        PopKeepsBacked(a, a.position, page);
    }
  }

  /** A checkpoint: which arena, and its position truncated to 32 bits. */
  datatype Temp = Temp(arena: Option<ArenaId>, pos: u32)

  /** `ar_temp_begin`: records the arena and its position in the 32-bit `pos` field. */
  function TempBegin(id: ArenaId, a: Arena): (t: Temp)
    ensures t.arena == Some(id)
    ensures t.pos == a.position % TWO32
    ensures a.position < TWO32 ==> t.pos == a.position
  {
    Temp(Some(id), Trunc32(a.position))
  }

  /**
   * `ar_temp_end`: pops `position - pos`, computed in U64. When the arena
   * has been popped below the checkpoint the subtraction wraps, the pop
   * clamps, and the arena ends up empty. The checkpoint is cleared.
   */
  function TempEnd(t: Temp, a: Arena, page: nat): (r: (Arena, Temp))
    requires IsPageSize(page)
    requires t.arena.Some?
    ensures r.1 == Temp(None, 0)
    ensures a.position >= t.pos ==> r.0.position == t.pos
    ensures a.position < t.pos ==> r.0.position == 0
  {
    (Pop(a, Sub64(a.position, t.pos), page), Temp(None, 0))
  }

  /** Ending a checkpoint is a pop, so it keeps both invariants. */
  lemma TempEndKeepsInvariants(t: Temp, a: Arena, page: nat)
    requires IsPageSize(page) && t.arena.Some?
    requires Valid(a, page) && Backed(a, page)
    ensures Valid(TempEnd(t, a, page).0, page) && Backed(TempEnd(t, a, page).0, page)
  {
    PopKeepsValid(a, Sub64(a.position, t.pos), page);
    PopKeepsBacked(a, Sub64(a.position, t.pos), page);
  }

  /**
   * Checkpoint neutrality: for an arena below 4 GiB, ending a checkpoint
   * after any pushes and pops that stayed at or above it restores exactly
   * the usage measured when it began.
   */
  lemma CheckpointRestores(id: ArenaId, a: Arena, b: Arena, page: nat)
    requires IsPageSize(page)
    requires a.position < TWO32 && b.position >= a.position
    ensures TempEnd(TempBegin(id, a), b, page).0.position == Used(a)
  {
  }

  /**
   * The 32-bit `pos` field loses the high bits: a checkpoint taken at or
   * beyond 4 GiB and ended at once does not restore the position but
   * truncates it to its low 32 bits, discarding live data.
   */
  lemma CheckpointTruncates(id: ArenaId, a: Arena, page: nat)
    requires IsPageSize(page)
    requires a.position >= TWO32
    ensures TempEnd(TempBegin(id, a), a, page).0.position == a.position % TWO32
    ensures TempEnd(TempBegin(id, a), a, page).0.position < Used(a)
  {
  }

  /** A checkpoint whose saved position is a full U64, as the arena's own counter is. */
  datatype WideTemp = WideTemp(arena: Option<ArenaId>, pos: u64)

  function WideTempBegin(id: ArenaId, a: Arena): (t: WideTemp)
    ensures t.arena == Some(id) && t.pos == Used(a)
  {
    WideTemp(Some(id), a.position)
  }

  function WideTempEnd(t: WideTemp, a: Arena, page: nat): (r: (Arena, WideTemp))
    requires IsPageSize(page)
    requires t.arena.Some?
    ensures r.1 == WideTemp(None, 0)
    ensures a.position >= t.pos ==> r.0.position == t.pos
    ensures a.position < t.pos ==> r.0.position == 0
  {
    (Pop(a, Sub64(a.position, t.pos), page), WideTemp(None, 0))
  }

  /** With a 64-bit saved position, rollback is exact at every position. */
  lemma WideCheckpointRestores(id: ArenaId, a: Arena, b: Arena, page: nat)
    requires IsPageSize(page)
    requires b.position >= a.position
    ensures WideTempEnd(WideTempBegin(id, a), b, page).0.position == Used(a)
  {
  }

  /** One push of a byte across a page boundary followed by the matching pop. */
  function Cycle(a: Arena, page: nat): Arena
    requires IsPageSize(page)
  {
    Pop(PushNoZero(a, 1, page).arena, 1, page)
  }

  /** The next page multiple after a page multiple is one page further on. */
  lemma AlignPastBoundary(c: u64, page: nat)
    requires IsPageSize(page)
    requires c % page == 0 && c + page <= MaxAlignable(page)
    ensures AlignToPage(c + 1, page) == c + page
  {
    var r := AlignToPage(c + 1, page);
    ModShift(c, page, 1);
    MultipleOrder(r, c + page, page);
    MultipleOrder(c + page, r, page);
  }

  /**
   * The arena hands an ABSOLUTE size to `ar_os_mem_commit`, which treats it
   * as an increment, while `ar_arena_pop` hands a difference to decommit.
   * So a push across a page boundary and the matching pop leave the arena
   * exactly as it was, yet the header's requested total has grown by the
   * arena's whole committed size.
   */
  lemma CommitDrift(a: Arena, page: nat)
    requires IsPageSize(page) && Valid(a, page) && Backed(a, page)
    requires a.position == a.commited
    requires a.info.requestedCommited + a.commited + page <= MaxAlignable(page)
    ensures Cycle(a, page).position == a.position
    ensures Cycle(a, page).commited == a.commited
    ensures Cycle(a, page).info.requestedCommited == a.info.requestedCommited + a.commited
    ensures Valid(Cycle(a, page), page) && Backed(Cycle(a, page), page)
  {
    var c := a.commited;
    AlignPastBoundary(c, page);
    var pushed := PushNoZero(a, 1, page).arena;
    CommitKeepsHeader(a.info, c + page, page);
    assert pushed.commited == c + page;
    assert pushed.info.requestedCommited == a.info.requestedCommited + c + page;
    AlignOfMultiple(c, page);
    PopKeepsValid(pushed, 1, page);
    PopKeepsBacked(pushed, 1, page);
  }

  function Cycles(a: Arena, n: nat, page: nat): Arena
    requires IsPageSize(page)
    decreases n
  {
    if n == 0 then a else Cycles(Cycle(a, page), n - 1, page)
  }

  /**
   * Repeating the cycle `n` times grows the requested total, and with it
   * the pages the OS keeps committed, by `n` times the arena's committed
   * size, although the arena itself never grows.
   */
  lemma {:induction false} RepeatedCommitDrift(a: Arena, n: nat, page: nat)
    requires IsPageSize(page) && Valid(a, page) && Backed(a, page)
    requires a.position == a.commited
    requires a.info.requestedCommited + n * a.commited + page <= MaxAlignable(page)
    ensures Cycles(a, n, page).position == a.position
    ensures Cycles(a, n, page).commited == a.commited
    ensures Cycles(a, n, page).info.requestedCommited == a.info.requestedCommited + n * a.commited
    ensures HeaderValid(Cycles(a, n, page).info, page)
    decreases n, 1
  {
    if n == 0 {
      assert n * a.commited == 0;
    } else {
      RepeatedCommitDriftStep(a, n, page);
    }
  }

  /** The inductive step: one cycle, then the remaining `n - 1`. */
  lemma {:induction false} RepeatedCommitDriftStep(a: Arena, n: nat, page: nat)
    requires IsPageSize(page) && Valid(a, page) && Backed(a, page)
    requires a.position == a.commited && n > 0
    requires a.info.requestedCommited + n * a.commited + page <= MaxAlignable(page)
    ensures Cycles(a, n, page).position == a.position
    ensures Cycles(a, n, page).commited == a.commited
    ensures Cycles(a, n, page).info.requestedCommited == a.info.requestedCommited + n * a.commited
    ensures HeaderValid(Cycles(a, n, page).info, page)
    decreases n, 0
  {
    var c, req := a.commited, a.info.requestedCommited;
    PeelProduct(n, c);
    CommitDrift(a, page);
    var b := Cycle(a, page);
    RepeatedCommitDrift(b, n - 1, page);
    assert Cycles(a, n, page) == Cycles(b, n - 1, page);
  }

  /** So the pages the OS keeps committed grow with every cycle as well. */
  lemma RepeatedDriftCommitsMore(a: Arena, n: nat, page: nat)
    requires IsPageSize(page) && Valid(a, page) && Backed(a, page)
    requires a.position == a.commited
    requires a.info.requestedCommited + n * a.commited + page <= MaxAlignable(page)
    ensures Cycles(a, n, page).info.commited >= a.info.requestedCommited + n * a.commited
  {
    RepeatedCommitDrift(a, n, page);
    HeaderKeepsFirstPage(Cycles(a, n, page).info, page);
  }

  /**
   * The evidently intended push: commit only the pages being added, the
   * same difference convention `Pop` already uses for decommit.
   */
  function PushNoZeroIncrement(a: Arena, size: u64, page: nat): (r: Allocation)
    requires IsPageSize(page)
    ensures r.offset == a.position
    ensures r.arena.position == Add64(a.position, size)
    ensures r.arena.commited >= a.commited
  {
    var position := Add64(a.position, size);
    var aligned := AlignToPage(position, page);
    if aligned > a.commited then
      Allocation(a.position, Arena(a.capacity, aligned, position, Commit(a.info, aligned - a.commited, page)))
    else
      Allocation(a.position, a.(position := position))
  }

  /** The header's requested total is exactly the header, the record and the arena's pages. */
  ghost predicate ExactlyBacked(a: Arena, page: nat)
    requires IsPageSize(page)
  {
    HeaderValid(a.info, page) && a.info.requestedCommited == DATA_START + a.commited
  }

  /** The corrected push keeps the header exact: it asks for exactly the pages it adds. */
  lemma IncrementPushKeepsExact(a: Arena, size: u64, page: nat)
    requires IsPageSize(page) && Valid(a, page) && ExactlyBacked(a, page)
    requires a.position + size <= MaxAlignable(page)
    requires DATA_START + AlignToPage(a.position + size, page) <= MaxAlignable(page)
    ensures ExactlyBacked(PushNoZeroIncrement(a, size, page).arena, page)
  {
    var aligned := AlignToPage(a.position + size, page);
    if aligned > a.commited {
      CommitKeepsHeader(a.info, aligned - a.commited, page);
    }
  }

  /** The existing pop keeps the header exact: it gives back exactly the pages it drops. */
  lemma PopKeepsExact(a: Arena, size: u64, page: nat)
    requires IsPageSize(page) && Valid(a, page) && ExactlyBacked(a, page)
    ensures ExactlyBacked(Pop(a, size, page), page)
  {
    var r := Pop(a, size, page);
    if r.commited < a.commited {
      DecommitKeepsHeader(a.info, a.commited - r.commited, page);
      assert r.info.requestedCommited == Max(HEADER_SIZE, a.info.requestedCommited - (a.commited - r.commited));
    }
  }

  /** With the corrected push, the boundary-crossing cycle returns the arena unchanged. */
  lemma CorrectedCycleIsNeutral(a: Arena, page: nat)
    requires IsPageSize(page) && Valid(a, page) && ExactlyBacked(a, page)
    requires a.position == a.commited && a.commited + page + DATA_START <= MaxAlignable(page)
    ensures Pop(PushNoZeroIncrement(a, 1, page).arena, 1, page) == a
  {
    var c := a.commited;
    AlignPastBoundary(c, page);
    var pushed := PushNoZeroIncrement(a, 1, page).arena;
    assert pushed == Arena(a.capacity, c + page, c + 1, Commit(a.info, page, page));
    AlignOfMultiple(c, page);
    DecommitUndoesCommit(a.info, page, page);
    assert Pop(pushed, 1, page) == Arena(a.capacity, c, c, Decommit(pushed.info, page, page));
  }
}

=== FILE: chars.dfy ===
/**
 * The ASCII character helpers of src/arkin_core.c (`ar_char_is_*`,
 * `ar_char_to_lower`, `ar_char_to_upper`). Only the ASCII letters are
 * cased; every other character maps to itself.
 */
module Chars {

  /** `'a' - 'A'`. */
  const CASE_OFFSET: int := 32

  /** `ar_char_is_numeric`: one of the ten decimal digits. */
  predicate IsNumeric(c: char): (r: bool)
    ensures r <==> 48 <= c as int <= 57
  {
    '0' <= c <= '9'
  }

  /** `ar_char_is_lower`: one of the 26 lower-case ASCII letters. */
  predicate IsLower(c: char): (r: bool)
    ensures r <==> 97 <= c as int <= 122
  {
    'a' <= c <= 'z'
  }

  /** `ar_char_is_upper`: one of the 26 upper-case ASCII letters. */
  predicate IsUpper(c: char): (r: bool)
    ensures r <==> 65 <= c as int <= 90
  {
    'A' <= c <= 'Z'
  }

  /** `ar_char_is_alpha`: an ASCII letter of either case, that is, exactly a character the two case maps send apart. */
  predicate IsAlpha(c: char): (r: bool)
    ensures r <==> ToLower(c) != ToUpper(c)
  {
    IsLower(c) || IsUpper(c)
  }

  /**
   * `ar_char_is_whitespace`: space, horizontal tab, newline, carriage
   * return, vertical tab, form feed; that is, the space and the control
   * characters from tab (9) to carriage return (13).
   */
  predicate IsWhitespace(c: char): (r: bool)
    ensures r <==> c == ' ' || 9 <= c as int <= 13
  {
    c == ' ' || c == '\t' || c == '\n' || c == '\r' || c == '\U{000B}' || c == '\U{000C}'
  }

  /** The classes by enumeration: the digits, and the letters of the alphabet in each case. */
  lemma ClassesEnumerated(c: char)
    ensures IsNumeric(c) <==> c in "0123456789"
    ensures IsLower(c) <==> c in "abcdefghijklmnopqrstuvwxyz"
    ensures IsUpper(c) <==> c in "ABCDEFGHIJKLMNOPQRSTUVWXYZ"
  {
  }

  /** `ar_char_to_lower`: an upper-case letter moves to its lower-case partner. */
  function ToLower(c: char): (r: char)
    ensures IsUpper(c) ==> IsLower(r)
    ensures !IsUpper(c) ==> r == c
  {
    if IsUpper(c) then (c as int + CASE_OFFSET) as char else c
  }

  /** `ar_char_to_upper`: a lower-case letter moves to its upper-case partner. */
  function ToUpper(c: char): (r: char)
    ensures IsLower(c) ==> IsUpper(r)
    ensures !IsLower(c) ==> r == c
  {
    if IsLower(c) then (c as int - CASE_OFFSET) as char else c
  }

  /** The two case maps undo each other on the letters they move, and are idempotent. */
  lemma CaseRoundTrip(c: char)
    ensures IsUpper(c) ==> ToUpper(ToLower(c)) == c
    ensures IsLower(c) ==> ToLower(ToUpper(c)) == c
    ensures ToLower(ToLower(c)) == ToLower(c)
    ensures ToUpper(ToUpper(c)) == ToUpper(c)
  {
  }

  /**
   * Lower-casing keeps the letters letters and leaves the rest alone: a
   * character is a letter exactly when its lower-case form is lower case,
   * and `ToLower` changes a character exactly when it is upper case.
   */
  lemma ToLowerClasses(c: char)
    ensures IsAlpha(c) <==> IsLower(ToLower(c))
    ensures ToLower(c) != c <==> IsUpper(c)
    ensures IsNumeric(ToLower(c)) <==> IsNumeric(c)
    ensures IsWhitespace(ToLower(c)) <==> IsWhitespace(c)
  {
  }

  /**
   * Case-insensitive equality as `ar_str_match` uses it: two characters
   * lower-case to the same character exactly when they are equal or are
   * the two cases of one letter.
   */
  lemma FoldEqual(a: char, b: char)
    ensures ToLower(a) == ToLower(b) <==>
              (a == b || (IsAlpha(a) && IsAlpha(b) && ToUpper(a) == ToUpper(b)))
  {
  }

  /** The NUL terminator is no letter and lower-cases only from itself. */
  lemma FoldNul(c: char)
    ensures ToLower(c) == '\0' <==> c == '\0'
  {
  }

  /** Digits, lower case, upper case and whitespace are pairwise disjoint classes. */
  lemma ClassesDisjoint(c: char)
    ensures IsNumeric(c) ==> !IsAlpha(c) && !IsWhitespace(c)
    ensures IsLower(c) ==> !IsUpper(c) && !IsWhitespace(c)
    ensures IsUpper(c) ==> !IsWhitespace(c)
  {
  }

  /** The expectations of the character test case. */
  lemma CaseExamples()
    ensures ToLower('a') == 'a' && ToLower('A') == 'a'
    ensures ToUpper('a') == 'A' && ToUpper('A') == 'A'
  {
  }
}

=== FILE: hash.dfy ===
/**
 * `ar_fvn1a_hash` of src/arkin_core.c: an FNV-1a style byte hash. The
 * accumulator is 64 bits wide but is seeded with the 32-bit FNV offset
 * basis and multiplied by the 32-bit FNV prime, so the result is not the
 * 64-bit FNV-1a hash; its low 32 bits are exactly the 32-bit FNV-1a hash.
 */
module Fnv {
  import opened Machine

  /** The 32-bit FNV offset basis the source seeds with. */
  const FNV_BASIS: u64 := 2166136261
  /** The 32-bit FNV prime the source multiplies by. */
  const FNV_PRIME: u64 := 16777619

  /** The bitwise exclusive or of two bytes. */
  function Xor8(a: u8, b: u8): u8 {
    (a as bv8 ^ b as bv8) as u8
  }

  /**
   * `hash ^= byte` on a wide accumulator: the byte only reaches the low
   * eight bits, the upper bits are kept.
   */
  function XorLow(h: nat, b: u8): (r: nat)
    ensures r / 256 == h / 256 && r % 256 == Xor8(h % 256, b)
  {
    var r := 256 * (h / 256) + Xor8(h % 256, b);
    DivModUnique(r, 256, h / 256, Xor8(h % 256, b));
    r
  }

  /** One step of the source's loop: xor the byte in, then multiply, in U64. */
  function Step(h: u64, b: u8): u64 {
    Mul64(XorLow(h, b), FNV_PRIME)
  }

  /** The hash of `data` continued from accumulator `h`, byte by byte from the front. */
  function HashFrom(h: u64, data: seq<u8>): u64
    decreases |data|
  {
    if |data| == 0 then h else HashFrom(Step(h, data[0]), data[1..])
  }

  /** The value the source computes for `data`. */
  function Fnv1a(data: seq<u8>): u64 {
    HashFrom(FNV_BASIS, data)
  }

  /**
   * `ar_fvn1a_hash` as written: the counter is a U32 compared against the
   * U64 length, so it reaches the end only of inputs shorter than 2^32
   * bytes; longer inputs never leave the loop (see `ShortCounterNeverExits`).
   */
  method Fnv1aHash(data: seq<u8>) returns (hash: u64)
    requires |data| < TWO32
    ensures hash == Fnv1a(data)
  {
    hash := FNV_BASIS;
    var i: u32 := 0;
    while i < |data|
      invariant i <= |data|
      invariant HashFrom(hash, data[i..]) == Fnv1a(data)
    {
      assert data[i..][1..] == data[i + 1..];
      hash := Step(hash, data[i]);
      i := i + 1;
    }
  }

  /** `i++` on the U32 counter. */
  function CounterNext(i: u32): (r: u32)
    ensures i + 1 < TWO32 ==> r == i + 1
    ensures i + 1 == TWO32 ==> r == 0
  {
    (i + 1) % TWO32
  }

  /** The U32 counter of the loop after `n` rounds from 0. */
  function CounterAfter(n: nat): (i: u32)
    decreases n
  {
    if n == 0 then 0 else CounterNext(CounterAfter(n - 1))
  }

  /** After `n` rounds the counter holds `n` modulo 2^32. */
  lemma {:induction false} CounterAfterWraps(n: nat)
    ensures CounterAfter(n) == n % TWO32
  {
    if n > 0 {
      CounterAfterWraps(n - 1);
      var q := (n - 1) / TWO32;
      assert n - 1 == TWO32 * q + CounterAfter(n - 1);
      if CounterAfter(n - 1) + 1 < TWO32 {
        DivModUnique(n, TWO32, q, CounterAfter(n - 1) + 1);
      } else {
        DivModUnique(n, TWO32, q + 1, 0);
      }
    }
  }

  /**
   * For a length of 2^32 or more the loop never leaves: after any number
   * of rounds the guard `i < len` still holds, and 2^32 rounds later the
   * counter is back where it was.
   */
  lemma ShortCounterNeverExits(len: u64, n: nat)
    requires len >= TWO32
    ensures CounterAfter(n) < len
    ensures CounterAfter(n + TWO32) == CounterAfter(n)
  {
    CounterAfterWraps(n);
    CounterAfterWraps(n + TWO32);
    ModShift(n, TWO32, 1);
  }

  /** The loop with a U64 counter, as evidently intended: it hashes every length. */
  method Fnv1aHashWide(data: seq<u8>) returns (hash: u64)
    requires |data| < TWO64
    ensures hash == Fnv1a(data)
  {
    hash := FNV_BASIS;
    var i: u64 := 0;
    while i < |data|
      invariant i <= |data|
      invariant HashFrom(hash, data[i..]) == Fnv1a(data)
    {
      assert data[i..][1..] == data[i + 1..];
      hash := Step(hash, data[i]);
      i := i + 1;
    }
  }

  /** The standard 32-bit FNV-1a step: xor the byte in, multiply, keep 32 bits. */
  function Step32(h: u32, b: u8): u32 {
    (XorLow(h, b) * FNV_PRIME) % TWO32
  }

  /** The standard 32-bit FNV-1a hash of `data` continued from `h`. */
  function Hash32From(h: u32, data: seq<u8>): u32
    decreases |data|
  {
    if |data| == 0 then h else Hash32From(Step32(h, data[0]), data[1..])
  }

  /** The xor touches only the low byte, so it commutes with keeping the low 32 bits. */
  lemma XorLowLow32(h: nat, b: u8)
    ensures XorLow(h, b) % TWO32 == XorLow(h % TWO32, b)
  {
    var r, q := h % TWO32, h / TWO32;
    assert r % 256 == h % 256 by {
      ModMod(h, 256, 0x100_0000);
    }
    assert XorLow(h, b) == XorLow(r, b) + TWO32 * q by {
      assert h == TWO32 * q + r;
      assert h == 256 * (h / 256) + h % 256;
      assert r == 256 * (r / 256) + r % 256;
    }
    ModShift(XorLow(r, b), TWO32, q);
    DivModUnique(XorLow(r, b), TWO32, 0, XorLow(r, b));
  }

  /** Multiplying in U64 and keeping 32 bits is multiplying the low 32 bits modulo 2^32. */
  lemma MulLow32(x: nat, p: nat)
    ensures ((x * p) % TWO64) % TWO32 == ((x % TWO32) * p) % TWO32
  {
    ModMod(x * p, TWO32, TWO32);
    var q, r := x / TWO32, x % TWO32;
    assert x == TWO32 * q + r;
    assert x * p == r * p + TWO32 * (q * p);
    ModShift(r * p, TWO32, q * p);
  }

  /** One U64 step seen through the low 32 bits is one 32-bit FNV-1a step. */
  lemma StepLow32(h: u64, b: u8)
    ensures Step(h, b) % TWO32 == Step32(h % TWO32, b)
  {
    MulLow32(XorLow(h, b), FNV_PRIME);
    XorLowLow32(h, b);
  }

  /** Continuing the hash commutes with keeping its low 32 bits. */
  lemma {:induction false} HashFromLow32(h: u64, data: seq<u8>)
    ensures HashFrom(h, data) % TWO32 == Hash32From(h % TWO32, data)
    decreases |data|
  {
    if |data| > 0 {
      StepLow32(h, data[0]);
      HashFromLow32(Step(h, data[0]), data[1..]);
    }
  }

  /** The low 32 bits of the source's hash are the standard 32-bit FNV-1a hash. */
  lemma Low32IsFnv1a32(data: seq<u8>)
    ensures Fnv1a(data) % TWO32 == Hash32From(FNV_BASIS as u32, data)
  {
    HashFromLow32(FNV_BASIS, data);
  }

  /** The bytes of an ASCII string. */
  function Bytes(s: seq<char>): (r: seq<u8>)
    requires forall k :: 0 <= k < |s| ==> s[k] as int < TWO8
    ensures |r| == |s| && forall k :: 0 <= k < |r| ==> r[k] == s[k] as int
  {
    if |s| == 0 then [] else [s[0] as int as u8] + Bytes(s[1..])
  }

  /** A three-byte input takes three steps. */
  lemma HashOfThree(h: u64, d: seq<u8>)
    requires |d| == 3
    ensures HashFrom(h, d) == Step(Step(Step(h, d[0]), d[1]), d[2])
  {
    var h1 := Step(h, d[0]);
    var h2 := Step(h1, d[1]);
    assert d[1..][1..] == d[2..] && d[2..][1..] == [];
    assert HashFrom(h2, d[2..]) == HashFrom(Step(h2, d[2]), []);
    assert HashFrom(h1, d[1..]) == HashFrom(h2, d[2..]);
  }

  /** A step whose xor and wrapped product are known. */
  lemma StepAt(h: u64, b: u8, x: nat, q: nat, v: u64)
    requires h / 256 == x / 256 && Xor8(h % 256, b) == x % 256
    requires x * FNV_PRIME == q * TWO64 + v
    ensures Step(h, b) == v
  {
    assert h / 256 * 256 + Xor8(h % 256, b) == x;
    DivModUnique(x * FNV_PRIME, TWO64, q, v);
  }

  /** The accumulator after each byte of "foo". */
  lemma FooSteps()
    ensures Step(FNV_BASIS, 102) == 36342608318703513
    ensures Step(36342608318703513, 111) == 3757225044156278850
    ensures Step(3757225044156278850, 111) == 6528275667714539223
  {
    StepAt(FNV_BASIS, 102, 2166136227, 0, 36342608318703513);
    StepAt(36342608318703513, 111, 36342608318703606, 33054, 3757225044156278850);
    StepAt(3757225044156278850, 111, 3757225044156278829, 3417258, 6528275667714539223);
  }

  /** The key "foo" of the hash-map test cases; its low 32 bits are the published 0xa9f37ed7. */
  lemma FooHash()
    ensures Fnv1a(Bytes("foo")) == 6528275667714539223
    ensures Fnv1a(Bytes("foo")) % 16 == 7 && Fnv1a(Bytes("foo")) % TWO32 == 0xa9f3_7ed7
  {
    assert Bytes("foo") == [102, 111, 111];
    HashOfThree(FNV_BASIS, [102, 111, 111]);
    FooSteps();
  }

  /** The accumulator after each byte of "bar". */
  lemma BarSteps()
    ensures Step(FNV_BASIS, 98) == 36342608385813989
    ensures Step(36342608385813989, 97) == 3758350994965767884
    ensures Step(3758350994965767884, 114) == 7836038537848257818
  {
    StepAt(FNV_BASIS, 98, 2166136231, 0, 36342608385813989);
    StepAt(36342608385813989, 97, 36342608385813892, 33054, 3758350994965767884);
    StepAt(3758350994965767884, 114, 3758350994965767870, 3418282, 7836038537848257818);
  }

  /**
   * The key "bar": it lands in bucket 10 of a 16-bucket map while "foo"
   * lands in bucket 7, which the insert test case relies on.
   */
  lemma BarHash()
    ensures Fnv1a(Bytes("bar")) == 7836038537848257818
    ensures Fnv1a(Bytes("bar")) % 16 == 10
  {
    assert Bytes("bar") == [98, 97, 114];
    HashOfThree(FNV_BASIS, [98, 97, 114]);
    BarSteps();
  }
}

=== FILE: hash_map.dfy ===
/**
 * The chained hash map of src/arkin_core.c (`ArHashMap`, `ar_hash_map_*`).
 * Each bucket is the sequence of its nodes in chain order; a node is named
 * by the arena offset it was allocated at, so that the LIFO free list of
 * removed nodes can be followed. The hash and equality callbacks of the map
 * descriptor are function parameters; key and value bytes are the values
 * of the type parameters `K` and `V`.
 */
module HashMaps {
  import opened Machine
  import opened Paging
  import opened Arenas
  import Fnv

  /** `sizeof(ArHashMapNode)`: four pointers. */
  const NODE_SIZE: u64 := 32
  /** `sizeof(ArHashMapBucket)`: two pointers. */
  const BUCKET_SIZE: u64 := 16

  /**
   * The parts of `ArHashMapDesc` the operations consult. The descriptor's
   * own layout is not declared in include/arkin_core.h or
   * src/arkin_core.c, so the size of the map record that embeds it is a
   * field too.
   */
  datatype Desc<!K> = Desc(
    capacity: u64,
    hash: K -> u64,
    eq: (K, K) -> bool,
    keySize: u64,
    valueSize: u64,
    recordSize: u64)

  /** A node of a bucket chain: where it lives in the arena, its key and its value. */
  datatype Node<K, V> = Node(id: u64, key: K, value: V)

  datatype HashMap<K, V> = HashMap(buckets: seq<seq<Node<K, V>>>, freeList: seq<u64>, nullValue: V)

  /** What a modifying operation returns: the source's boolean, the map, and the arena. */
  datatype Outcome<K, V> = Outcome(ok: bool, table: HashMap<K, V>, arena: Arena)

  /** The map has one bucket per unit of capacity, and at least one. */
  predicate Fits<K, V>(d: Desc<K>, m: HashMap<K, V>) {
    d.capacity >= 1 && |m.buckets| == d.capacity
  }

  /** `eq_func` behaves as an equivalence on keys. */
  ghost predicate IsEquivalence<K(!new)>(eq: (K, K) -> bool) {
    && (forall k :: eq(k, k))
    && (forall k, l :: eq(k, l) ==> eq(l, k))
    && (forall k, l, n :: eq(k, l) && eq(l, n) ==> eq(k, n))
  }

  /** No two nodes of a bucket hold equal keys. */
  ghost predicate Distinct<K, V>(b: seq<Node<K, V>>, eq: (K, K) -> bool) {
    forall i, j :: 0 <= i < j < |b| ==> !eq(b[i].key, b[j].key)
  }

  ghost predicate Wf<K, V>(d: Desc<K>, m: HashMap<K, V>) {
    Fits(d, m) && forall i :: 0 <= i < |m.buckets| ==> Distinct(m.buckets[i], d.eq)
  }

  /**
   * `ar_hash_map_init`: the map record (uncleared), the zeroed bucket array
   * and a copy of the null value are pushed, and the arena moves by the sum
   * of their sizes; the map starts with every bucket empty and no free nodes.
   */
  function Init<K, V>(d: Desc<K>, nullValue: V, a: Arena, page: nat): (r: (HashMap<K, V>, Arena))
    requires IsPageSize(page)
    ensures |r.0.buckets| == d.capacity && r.0.freeList == [] && r.0.nullValue == nullValue
    ensures forall i :: 0 <= i < |r.0.buckets| ==> r.0.buckets[i] == []
  {
    (HashMap(seq(d.capacity, _ => []), [], nullValue), InitArena(d, a, page))
  }

  /** The three pushes of `ar_hash_map_init`: the map record, the bucket array, the null value. */
  function InitArena<K>(d: Desc<K>, a: Arena, page: nat): Arena
    requires IsPageSize(page)
  {
    PushAll(a, [d.recordSize, Mul64(BUCKET_SIZE, d.capacity), d.valueSize], page)
  }

  /** Initialising moves the arena position past the three blocks, modulo 2^64. */
  lemma InitArenaPosition<K>(d: Desc<K>, a: Arena, page: nat)
    requires IsPageSize(page)
    ensures InitArena(d, a, page).position ==
            (a.position + d.recordSize + BUCKET_SIZE * d.capacity + d.valueSize) % TWO64
  {
    var y := Mul64(BUCKET_SIZE, d.capacity);
    var sizes := [d.recordSize, y, d.valueSize];
    PushAllPosition(a, sizes, page);
    SumOfThree(d.recordSize, y, d.valueSize);
    var k := (BUCKET_SIZE * d.capacity) / TWO64;
    assert BUCKET_SIZE * d.capacity == y + TWO64 * k;
    ModShift(a.position + d.recordSize + y + d.valueSize, TWO64, k);
  }

  /**
   * `hash_map_get_bucket`: the hash modulo the capacity, stored in a U32;
   * the truncation never leaves the bucket array.
   */
  function BucketOf<K>(d: Desc<K>, key: K): (i: nat)
    requires d.capacity >= 1
    ensures i < d.capacity
    ensures d.capacity <= TWO32 ==> i == d.hash(key) % d.capacity
  {
    Trunc32(d.hash(key) % d.capacity)
  }

  /** The position in the chain of the first node whose key equals `key`, or the chain length. */
  function FindIn<K, V>(b: seq<Node<K, V>>, key: K, eq: (K, K) -> bool): (i: nat)
    ensures i <= |b|
    ensures i < |b| ==> eq(key, b[i].key)
    ensures forall j :: 0 <= j < i ==> !eq(key, b[j].key)
  {
    if |b| == 0 then 0 else if eq(key, b[0].key) then 0 else 1 + FindIn(b[1..], key, eq)
  }

  /**
   * `hash_map_get_node`: the most recently freed node when there is one,
   * otherwise a fresh node record plus room for its key and its value,
   * pushed in that order, the node at the old arena position.
   */
  function GetNode<K, V>(d: Desc<K>, m: HashMap<K, V>, key: K, value: V, a: Arena, page: nat): (r: (Node<K, V>, seq<u64>, Arena))
    requires IsPageSize(page)
    ensures r.0.key == key && r.0.value == value
    ensures |m.freeList| > 0 ==> r.0.id == m.freeList[0] && r.1 == m.freeList[1..] && r.2 == a
    ensures |m.freeList| == 0 ==> r.0.id == a.position && r.1 == []
  {
    if |m.freeList| > 0 then
      (Node(m.freeList[0], key, value), m.freeList[1..], a)
    else
      (Node(a.position, key, value), [], PushAll(a, [NODE_SIZE, d.keySize, d.valueSize], page))
  }

  /** `_ar_hash_map_has`: some node of the key's bucket holds an equal key. */
  function Has<K, V>(d: Desc<K>, m: HashMap<K, V>, key: K): (r: bool)
    requires Fits(d, m)
    ensures r <==> exists j :: 0 <= j < |m.buckets[BucketOf(d, key)]| &&
                             d.eq(key, m.buckets[BucketOf(d, key)][j].key)
  {
    var b := m.buckets[BucketOf(d, key)];
    FindIn(b, key, d.eq) < |b|
  }

  /** `_ar_hash_map_get`: the value of the first node with an equal key, else the null value. */
  function Get<K, V>(d: Desc<K>, m: HashMap<K, V>, key: K): (r: V)
    requires Fits(d, m)
    ensures !Has(d, m, key) ==> r == m.nullValue
  {
    var b := m.buckets[BucketOf(d, key)];
    var i := FindIn(b, key, d.eq);
    if i < |b| then b[i].value else m.nullValue
  }

  /**
   * `_ar_hash_map_insert`: refuses, changing nothing, as soon as the key's
   * bucket holds any node at all, whatever its key; otherwise the bucket
   * becomes the one new node.
   */
  function Insert<K, V>(d: Desc<K>, m: HashMap<K, V>, key: K, value: V, a: Arena, page: nat): (r: Outcome<K, V>)
    requires IsPageSize(page) && Fits(d, m)
    ensures Fits(d, r.table) && r.table.nullValue == m.nullValue
    ensures r.ok <==> m.buckets[BucketOf(d, key)] == []
    ensures !r.ok ==> r.table == m && r.arena == a
    ensures r.ok ==> r.table.buckets[BucketOf(d, key)] == [GetNode(d, m, key, value, a, page).0]
    ensures forall i :: 0 <= i < |m.buckets| && i != BucketOf(d, key) ==> r.table.buckets[i] == m.buckets[i]
  {
    var i := BucketOf(d, key);
    if m.buckets[i] != [] then Outcome(false, m, a)
    else
      var (node, free, arena) := GetNode(d, m, key, value, a, page);
      Outcome(true, HashMap(m.buckets[i := [node]], free, m.nullValue), arena)
  }

  /**
   * `_ar_hash_map_set`: overwrites the value of the first node with an equal
   * key (its stored key stays) and answers false; otherwise appends a node
   * to the bucket and answers true.
   */
  function Set<K, V>(d: Desc<K>, m: HashMap<K, V>, key: K, value: V, a: Arena, page: nat): (r: Outcome<K, V>)
    requires IsPageSize(page) && Fits(d, m)
    ensures r.ok <==> !Has(d, m, key)
    ensures !r.ok ==> r.arena == a && r.table.freeList == m.freeList
    ensures Fits(d, r.table) && r.table.nullValue == m.nullValue
    ensures forall i :: 0 <= i < |m.buckets| && i != BucketOf(d, key) ==> r.table.buckets[i] == m.buckets[i]
  {
    var i := BucketOf(d, key);
    var b := m.buckets[i];
    var j := FindIn(b, key, d.eq);
    if j < |b| then
      Outcome(false, m.(buckets := m.buckets[i := b[j := b[j].(value := value)]]), a)
    else
      var (node, free, arena) := GetNode(d, m, key, value, a, page);
      Outcome(true, HashMap(m.buckets[i := b + [node]], free, m.nullValue), arena)
  }

  /**
   * `_ar_hash_map_remove`: unlinks the first node with an equal key, pushes
   * it on the free list and answers true; answers false, changing nothing,
   * when there is none. The source pushes the node on the free list before
   * unlinking it; this models the evident intent of the pair.
   */
  function Remove<K, V>(d: Desc<K>, m: HashMap<K, V>, key: K): (r: (bool, HashMap<K, V>))
    requires Fits(d, m)
    ensures r.0 <==> Has(d, m, key)
    ensures !r.0 ==> r.1 == m
    ensures Fits(d, r.1) && r.1.nullValue == m.nullValue
    ensures r.0 ==> |r.1.freeList| == |m.freeList| + 1 && r.1.freeList[1..] == m.freeList
    ensures forall i :: 0 <= i < |m.buckets| && i != BucketOf(d, key) ==> r.1.buckets[i] == m.buckets[i]
  {
    var i := BucketOf(d, key);
    var b := m.buckets[i];
    var j := FindIn(b, key, d.eq);
    if j < |b| then
      (true, HashMap(m.buckets[i := b[..j] + b[j + 1..]], [b[j].id] + m.freeList, m.nullValue))
    else
      (false, m)
  }

  // Facts about one chain

  /** Overwriting a value leaves every key where it was. */
  lemma {:induction false} FindInSetValue<K, V>(b: seq<Node<K, V>>, j: nat, v: V, key: K, eq: (K, K) -> bool)
    requires j < |b|
    ensures FindIn(b[j := b[j].(value := v)], key, eq) == FindIn(b, key, eq)
    decreases |b|
  {
    if j > 0 && !eq(key, b[0].key) {
      assert b[j := b[j].(value := v)][1..] == b[1..][j - 1 := b[j].(value := v)];
      FindInSetValue(b[1..], j - 1, v, key, eq);
    }
  }

  /** A node appended to a chain is found only when no earlier node matches. */
  lemma {:induction false} FindInAppend<K, V>(b: seq<Node<K, V>>, n: Node<K, V>, key: K, eq: (K, K) -> bool)
    ensures var i := FindIn(b, key, eq);
            FindIn(b + [n], key, eq) == if i < |b| then i else if eq(key, n.key) then |b| else |b| + 1
    decreases |b|
  {
    if |b| > 0 && !eq(key, b[0].key) {
      assert (b + [n])[1..] == b[1..] + [n];
      FindInAppend(b[1..], n, key, eq);
    }
  }

  /**
   * Unlinking the node at `j` keeps every other key's first match, shifted
   * down by one when it lay past `j`.
   */
  lemma {:induction false} FindInUnlink<K, V>(b: seq<Node<K, V>>, j: nat, key: K, eq: (K, K) -> bool)
    requires j < |b| && FindIn(b, key, eq) != j
    ensures var i := FindIn(b, key, eq);
            FindIn(b[..j] + b[j + 1..], key, eq) == if i < j then i else i - 1
    decreases |b|
  {
    if j == 0 {
      assert b[..j] + b[j + 1..] == b[1..];
    } else if !eq(key, b[0].key) {
      assert (b[..j] + b[j + 1..])[1..] == b[1..][..j - 1] + b[1..][j..];
      FindInUnlink(b[1..], j - 1, key, eq);
    }
  }

  // What the operations promise

  /** After a successful insert the key is present with the inserted value. */
  lemma InsertThenGet<K, V>(d: Desc<K>, m: HashMap<K, V>, key: K, value: V, a: Arena, page: nat)
    requires IsPageSize(page) && Fits(d, m) && d.eq(key, key)
    requires m.buckets[BucketOf(d, key)] == []
    ensures var r := Insert(d, m, key, value, a, page);
            r.ok && Has(d, r.table, key) && Get(d, r.table, key) == value
  {
  }

  /** A successful insert changes no answer about a key that is not equal to the inserted one. */
  lemma InsertKeepsOthers<K, V>(d: Desc<K>, m: HashMap<K, V>, key: K, value: V, a: Arena, page: nat, other: K)
    requires IsPageSize(page) && Fits(d, m) && !d.eq(other, key)
    ensures var r := Insert(d, m, key, value, a, page).table;
            Has(d, r, other) == Has(d, m, other) && Get(d, r, other) == Get(d, m, other)
  {
  }

  /** After a set the key is present with the value set, whether it was new or overwritten. */
  lemma SetThenGet<K, V>(d: Desc<K>, m: HashMap<K, V>, key: K, value: V, a: Arena, page: nat)
    requires IsPageSize(page) && Fits(d, m) && d.eq(key, key)
    ensures var r := Set(d, m, key, value, a, page).table;
            Has(d, r, key) && Get(d, r, key) == value
  {
    var i := BucketOf(d, key);
    var b := m.buckets[i];
    var j := FindIn(b, key, d.eq);
    if j < |b| {
      FindInSetValue(b, j, value, key, d.eq);
    } else {
      FindInAppend(b, GetNode(d, m, key, value, a, page).0, key, d.eq);
    }
  }

  /** A set changes no answer about a key that is not equal to the key set. */
  lemma SetKeepsOthers<K(!new), V>(d: Desc<K>, m: HashMap<K, V>, key: K, value: V, a: Arena, page: nat, other: K)
    requires IsPageSize(page) && Fits(d, m) && IsEquivalence(d.eq) && !d.eq(other, key)
    ensures var r := Set(d, m, key, value, a, page).table;
            Has(d, r, other) == Has(d, m, other) && Get(d, r, other) == Get(d, m, other)
  {
    var i := BucketOf(d, key);
    if BucketOf(d, other) == i {
      var b := m.buckets[i];
      var j := FindIn(b, key, d.eq);
      if j < |b| {
        FindInSetValue(b, j, value, other, d.eq);
      } else {
        FindInAppend(b, GetNode(d, m, key, value, a, page).0, other, d.eq);
      }
    }
  }

  /** After removing a key from a well-formed map, the key is absent and reads as the null value. */
  lemma RemoveThenAbsent<K(!new), V>(d: Desc<K>, m: HashMap<K, V>, key: K)
    requires Wf(d, m) && IsEquivalence(d.eq)
    ensures var r := Remove(d, m, key).1;
            !Has(d, r, key) && Get(d, r, key) == m.nullValue
  {
    var i := BucketOf(d, key);
    var b := m.buckets[i];
    var j := FindIn(b, key, d.eq);
    if j < |b| {
      var rest := b[..j] + b[j + 1..];
      forall l | 0 <= l < |rest|
        ensures !d.eq(key, rest[l].key)
      {
        if l >= j {
          assert rest[l] == b[l + 1];
          assert Distinct(b, d.eq);
        }
      }
    }
  }

  /** A remove changes no answer about a key that is not equal to the removed one. */
  lemma RemoveKeepsOthers<K(!new), V>(d: Desc<K>, m: HashMap<K, V>, key: K, other: K)
    requires Fits(d, m) && IsEquivalence(d.eq) && !d.eq(other, key)
    ensures var r := Remove(d, m, key).1;
            Has(d, r, other) == Has(d, m, other) && Get(d, r, other) == Get(d, m, other)
  {
    var i := BucketOf(d, key);
    var b := m.buckets[i];
    var j := FindIn(b, key, d.eq);
    if BucketOf(d, other) == i && j < |b| {
      assert d.eq(other, b[j].key) ==> d.eq(other, key) by {
        assert d.eq(key, b[j].key);
        assert d.eq(b[j].key, key);
      }
      FindInUnlink(b, j, other, d.eq);
    }
  }

  /** Removing answers true exactly for a present key, and a second remove of it answers false. */
  lemma RemoveTwice<K(!new), V>(d: Desc<K>, m: HashMap<K, V>, key: K)
    requires Wf(d, m) && IsEquivalence(d.eq)
    ensures Remove(d, m, key).0 == Has(d, m, key)
    ensures !Remove(d, Remove(d, m, key).1, key).0
  {
    RemoveThenAbsent(d, m, key);
  }

  // The invariant and the free list

  /** A successful insert keeps every bucket free of equal keys. */
  lemma InsertKeepsWf<K, V>(d: Desc<K>, m: HashMap<K, V>, key: K, value: V, a: Arena, page: nat)
    requires IsPageSize(page) && Wf(d, m)
    ensures Wf(d, Insert(d, m, key, value, a, page).table)
  {
  }

  /** A set keeps every bucket free of equal keys: it appends only a key no node holds. */
  lemma SetKeepsWf<K(!new), V>(d: Desc<K>, m: HashMap<K, V>, key: K, value: V, a: Arena, page: nat)
    requires IsPageSize(page) && Wf(d, m) && IsEquivalence(d.eq)
    ensures Wf(d, Set(d, m, key, value, a, page).table)
  {
    var i := BucketOf(d, key);
    var b := m.buckets[i];
    var j := FindIn(b, key, d.eq);
    var r := Set(d, m, key, value, a, page).table;
    assert Distinct(b, d.eq);
    if j < |b| {
      var nb := b[j := b[j].(value := value)];
      assert forall l :: 0 <= l < |nb| ==> nb[l].key == b[l].key;
      assert Distinct(nb, d.eq);
    } else {
      var nb := b + [GetNode(d, m, key, value, a, page).0];
      assert r.buckets[i] == nb;
      forall l, n | 0 <= l < n < |nb|
        ensures !d.eq(nb[l].key, nb[n].key)
      {
        if n == |b| {
          assert !d.eq(key, b[l].key);
        }
      }
    }
  }

  /** A remove keeps every bucket free of equal keys. */
  lemma RemoveKeepsWf<K, V>(d: Desc<K>, m: HashMap<K, V>, key: K)
    requires Wf(d, m)
    ensures Wf(d, Remove(d, m, key).1)
  {
    var i := BucketOf(d, key);
    var b := m.buckets[i];
    var j := FindIn(b, key, d.eq);
    if j < |b| {
      var rest := b[..j] + b[j + 1..];
      assert Distinct(b, d.eq);
      forall l, n | 0 <= l < n < |rest|
        ensures !d.eq(rest[l].key, rest[n].key)
      {
        var l', n' := if l < j then l else l + 1, if n < j then n else n + 1;
        assert rest[l] == b[l'] && rest[n] == b[n'];
      }
    }
  }

  /**
   * The free list is a stack: the node a remove unlinks is the very node
   * the next insert or set reuses, without touching the arena, and taking
   * it restores the free list.
   */
  lemma RemovedNodeReusedFirst<K, V>(d: Desc<K>, m: HashMap<K, V>, key: K, newKey: K, value: V, a: Arena, page: nat)
    requires IsPageSize(page) && Fits(d, m) && Has(d, m, key)
    ensures var b := m.buckets[BucketOf(d, key)];
            var g := GetNode(d, Remove(d, m, key).1, newKey, value, a, page);
            g.0.id == b[FindIn(b, key, d.eq)].id && g.1 == m.freeList && g.2 == a
  {
  }

  /** With no free node, a fresh node record, key and value are pushed: 32 bytes plus the key and value sizes. */
  lemma FreshNodeAllocation<K, V>(d: Desc<K>, m: HashMap<K, V>, key: K, value: V, a: Arena, page: nat)
    requires IsPageSize(page) && m.freeList == []
    ensures var g := GetNode(d, m, key, value, a, page);
            g.0.id == a.position &&
            g.2.position == (a.position + NODE_SIZE + d.keySize + d.valueSize) % TWO64
  {
    PushAllPosition(a, [NODE_SIZE, d.keySize, d.valueSize], page);
    SumOfThree(NODE_SIZE, d.keySize, d.valueSize);
  }

  // The test cases

  /** `str_cmp` of the test cases: exact string match, that is, equality of the key bytes. */
  function SameBytes(x: seq<u8>, y: seq<u8>): bool {
    x == y
  }

  lemma SameBytesIsEquivalence()
    ensures IsEquivalence(SameBytes)
  {
  }

  /** The descriptor of the test cases: 16 buckets, string keys hashed with FNV-1a, U32 values. */
  function TestDesc(recordSize: u64): (d: Desc<seq<u8>>)
    ensures d.capacity == 16 && d.hash == Fnv.Fnv1a && d.eq == SameBytes
  {
    Desc(16, Fnv.Fnv1a, SameBytes, 16, 4, recordSize)
  }

  /** `~0` as a U32. */
  const NULL_U32: u32 := 0xFFFF_FFFF

  /**
   * The insert test case: "foo" and "bar" go to different buckets, so both
   * inserts succeed; removing "foo" leaves "bar" alone, and a second remove
   * of "foo" fails.
   */
  lemma InsertTestCase(recordSize: u64, a: Arena, page: nat)
    requires IsPageSize(page)
    ensures var d := TestDesc(recordSize);
            var foo, bar := Fnv.Bytes("foo"), Fnv.Bytes("bar");
            var (m0, a0) := Init(d, NULL_U32 as nat, a, page);
            var r1 := Insert(d, m0, foo, 42, a0, page);
            var r2 := Insert(d, r1.table, bar, 24, r1.arena, page);
            var (gone, m3) := Remove(d, r2.table, foo);
            && r1.ok && r2.ok
            && Get(d, r2.table, foo) == 42 && Get(d, r2.table, bar) == 24
            && gone && Get(d, m3, foo) == NULL_U32 && Get(d, m3, bar) == 24
            && !Remove(d, m3, foo).0
  {
    var d := TestDesc(recordSize);
    var foo, bar := Fnv.Bytes("foo"), Fnv.Bytes("bar");
    Fnv.FooHash();
    Fnv.BarHash();
    assert BucketOf(d, foo) == 7 && BucketOf(d, bar) == 10;
    var (m0, a0) := Init(d, NULL_U32 as nat, a, page);
    var r1 := Insert(d, m0, foo, 42, a0, page);
    InsertThenGet(d, m0, foo, 42, a0, page);
    var r2 := Insert(d, r1.table, bar, 24, r1.arena, page);
    InsertThenGet(d, r1.table, bar, 24, r1.arena, page);
    assert foo != bar;
    InsertKeepsOthers(d, r1.table, bar, 24, r1.arena, page, foo);
    SameBytesIsEquivalence();
    InsertKeepsWf(d, m0, foo, 42, a0, page);
    InsertKeepsWf(d, r1.table, bar, 24, r1.arena, page);
    RemoveThenAbsent(d, r2.table, foo);
    RemoveKeepsOthers(d, r2.table, foo, bar);
    RemoveKeepsWf(d, r2.table, foo);
    RemoveTwice(d, r2.table, foo);
  }

  /** The set test case: a first set of "foobar" is new, a second overwrites. */
  lemma SetTestCase(recordSize: u64, a: Arena, page: nat)
    requires IsPageSize(page)
    ensures var d := TestDesc(recordSize);
            var key := Fnv.Bytes("foobar");
            var (m0, a0) := Init(d, NULL_U32 as nat, a, page);
            var r1 := Set(d, m0, key, 42, a0, page);
            var r2 := Set(d, r1.table, key, 24, r1.arena, page);
            && r1.ok && Get(d, r1.table, key) == 42
            && !r2.ok && Get(d, r2.table, key) == 24
  {
    var d := TestDesc(recordSize);
    var key := Fnv.Bytes("foobar");
    var (m0, a0) := Init(d, NULL_U32 as nat, a, page);
    SetThenGet(d, m0, key, 42, a0, page);
    var r1 := Set(d, m0, key, 42, a0, page);
    SetThenGet(d, r1.table, key, 24, r1.arena, page);
  }

  /**
   * The has and get test cases: an inserted key is found with its value;
   * any other key ("something else", "qux") is not found and reads as the
   * null value.
   */
  lemma HasGetTestCase(recordSize: u64, a: Arena, page: nat, other: seq<u8>)
    requires IsPageSize(page) && other != Fnv.Bytes("foobar")
    ensures var d := TestDesc(recordSize);
            var key := Fnv.Bytes("foobar");
            var (m0, a0) := Init(d, NULL_U32 as nat, a, page);
            var m1 := Insert(d, m0, key, 42, a0, page).table;
            && Has(d, m1, key) && Get(d, m1, key) == 42
            && !Has(d, m1, other) && Get(d, m1, other) == NULL_U32
  {
    var d := TestDesc(recordSize);
    var key := Fnv.Bytes("foobar");
    var (m0, a0) := Init(d, NULL_U32 as nat, a, page);
    InsertThenGet(d, m0, key, 42, a0, page);
    InsertKeepsOthers(d, m0, key, 42, a0, page, other);
  }
}

=== FILE: machine.dfy ===
/**
 * Fixed-width unsigned arithmetic of the C source (U8, U32, U64), written out
 * explicitly over Dafny's unbounded integers, and the few facts about
 * Euclidean division the rest of the model needs.
 */
module Machine {

  const TWO8: nat := 0x100
  const TWO32: nat := 0x1_0000_0000
  const TWO64: nat := 0x1_0000_0000_0000_0000

  type u8 = x: nat | x < TWO8
  type u32 = x: nat | x < TWO32
  type u64 = x: nat | x < TWO64

  /** `a + b` in U64: wraps once past 2^64. */
  function Add64(a: u64, b: u64): (r: u64)
    ensures a + b < TWO64 ==> r == a + b
    ensures a + b >= TWO64 ==> r == a + b - TWO64
  {
    if a + b < TWO64 then a + b else a + b - TWO64
  }

  /** The U64 sum is the exact sum modulo 2^64. */
  lemma Add64Wraps(x: u64, y: u64)
    ensures Add64(x, y) == (x + y) % TWO64
  {
    if x + y < TWO64 {
      DivModUnique(x + y, TWO64, 0, x + y);
    } else {
      DivModUnique(x + y, TWO64, 1, x + y - TWO64);
    }
  }

  /** `a - b` in U64: an underflow wraps to the top of the range. */
  function Sub64(a: u64, b: u64): (r: u64)
    ensures a >= b ==> r == a - b
    ensures a < b ==> r == a - b + TWO64 && r > a
  {
    if a >= b then a - b else a - b + TWO64
  }

  /** `a * b` in U64. */
  function Mul64(a: u64, b: u64): (r: u64)
    ensures a * b < TWO64 ==> r == a * b
  {
    (a * b) % TWO64
  }

  /** Assigning a U64 to a U32 keeps the low 32 bits. */
  function Trunc32(x: u64): (r: u32)
    ensures x < TWO32 ==> r == x
  {
    x % TWO32
  }

  /** Adding a wrapped product is adding the exact product, then wrapping once at the end. */
  lemma AddWrappedProduct(p: u64, a: u64, b: u64)
    ensures Add64(p, Mul64(a, b)) == (p + a * b) % TWO64
  {
    var m := Mul64(a, b);
    var q := (a * b) / TWO64;
    assert a * b == TWO64 * q + m;
    ModShift(p + m, TWO64, q);
    if p + m < TWO64 {
      DivModUnique(p + m, TWO64, 0, p + m);
    } else {
      DivModUnique(p + m, TWO64, 1, p + m - TWO64);
    }
  }

  function Min(a: int, b: int): int { if a <= b then a else b }
  function Max(a: int, b: int): int { if a <= b then b else a }

  /** Quotient and remainder are unique: the facts Dafny's `/` and `%` obey. */
  lemma DivModUnique(x: int, p: int, q: int, r: int)
    requires p > 0 && 0 <= r < p && x == p * q + r
    ensures x % p == r && x / p == q
  {
    var q', r' := x / p, x % p;
    assert x == p * q' + r';
    assert p * (q - q') == r' - r;
    if q > q' {
      MulAtLeast(p, q - q');
    } else if q < q' {
      MulAtLeast(p, q' - q);
    }
  }

  lemma MulAtLeast(p: int, k: int)
    requires p > 0 && k >= 1
    ensures p * k >= p
  {
  }

  /** Peeling one factor off a product of naturals. */
  lemma PeelProduct(n: nat, c: nat)
    requires n > 0
    ensures n * c == (n - 1) * c + c
    ensures (n - 1) * c >= 0
  {
  }

  /** Adding a multiple of `p` does not change the remainder modulo `p`. */
  lemma ModShift(a: int, p: int, k: int)
    requires p > 0
    ensures (a + p * k) % p == a % p
  {
    assert a + p * k == p * (a / p + k) + a % p;
    DivModUnique(a + p * k, p, a / p + k, a % p);
  }

  /** A multiple of `p` leaves no remainder. */
  lemma ModMultiple(p: int, k: int)
    requires p > 0
    ensures (p * k) % p == 0
  {
    DivModUnique(p * k, p, k, 0);
  }

  /** Two multiples of `p` less than `p` apart are ordered like their quotients. */
  lemma MultipleOrder(r: int, m: int, p: int)
    requires p > 0 && r % p == 0 && m % p == 0
    requires r - p < m
    ensures r <= m
  {
    var i, j := r / p, m / p;
    assert r == p * i && m == p * j;
    if i > j {
      MulAtLeast(p, i - j);
    }
  }

  /** Reducing modulo a multiple `p * q` and then modulo `p` is reducing modulo `p`. */
  lemma ModMod(x: int, p: int, q: int)
    requires p > 0 && q > 0
    ensures (x % (p * q)) % p == x % p
  {
    var n := p * q;
    MulAtLeast(p, q);
    assert x == n * (x / n) + x % n;
    assert x % n == x + p * (-(q * (x / n)));
    ModShift(x, p, -(q * (x / n)));
  }
}

=== FILE: option.dfy ===
/** The nullable result of the C source (a pointer that may be NULL), as a value. */
module Optional {
  datatype Option<+T> = None | Some(value: T)
}

=== FILE: os_memory.dfy ===
/**
 * The bookkeeping of the hidden allocation header that `ar_os_mem_reserve`
 * places in front of every reservation (`_ArOsAllocInfo` in
 * src/arkin_core.c). The mmap, madvise, mprotect and munmap calls are not
 * modelled; only the three counters and how each call changes them.
 */
module OsMemory {
  import opened Machine
  import opened Paging

  /** Three U64 fields, so the header occupies 24 bytes. */
  const HEADER_SIZE: nat := 24

  datatype AllocInfo = AllocInfo(size: u64, requestedCommited: u64, commited: u64)

  /**
   * The header invariant the three calls keep: the committed size is the
   * page ceiling of the accumulated requests, the requests never drop below
   * the header itself, and nothing has wrapped.
   */
  ghost predicate HeaderValid(info: AllocInfo, page: nat)
    requires IsPageSize(page)
  {
    && HEADER_SIZE <= info.requestedCommited <= MaxAlignable(page)
    && info.commited == AlignToPage(info.requestedCommited, page)
  }

  /**
   * `ar_os_mem_reserve`: the recorded size is the request plus the header,
   * rounded up to a page; only the first page is committed, and it holds
   * exactly the header's own 24 bytes of demand.
   */
  function Reserve(size: u64, page: nat): (info: AllocInfo)
    requires IsPageSize(page)
    ensures size + HEADER_SIZE <= MaxAlignable(page) ==>
              IsPageCeiling(info.size, size + HEADER_SIZE, page)
    ensures info.requestedCommited == HEADER_SIZE
    ensures info.commited == page
    ensures HeaderValid(info, page)
  {
    AlignAtLeastPage(HEADER_SIZE, page);
    AlignFirstPage(page);
    AllocInfo(AlignToPage(Add64(size, HEADER_SIZE), page), HEADER_SIZE, page)
  }

  /** The header's 24 bytes round up to exactly one page. */
  lemma AlignFirstPage(page: nat)
    requires IsPageSize(page)
    ensures AlignToPage(HEADER_SIZE, page) == page
  {
    var a := AlignToPage(HEADER_SIZE, page);
    ModMultiple(page, 1);
    MultipleOrder(a, page, page);
    AlignAtLeastPage(HEADER_SIZE, page);
  }

  /**
   * `ar_os_mem_commit`: `size` is ADDED to the requested total (it is an
   * increment, not a target), and the committed size grows to the page
   * ceiling of the new total if that is larger; it never shrinks.
   */
  function Commit(info: AllocInfo, size: u64, page: nat): (r: AllocInfo)
    requires IsPageSize(page)
    ensures r.size == info.size
    ensures r.commited >= info.commited
    ensures r.requestedCommited == Add64(info.requestedCommited, size)
    ensures r.commited == Max(info.commited, AlignToPage(r.requestedCommited, page))
  {
    var requested := Add64(info.requestedCommited, size);
    var aligned := AlignToPage(requested, page);
    if aligned > info.commited then
      AllocInfo(info.size, requested, aligned)
    else
      AllocInfo(info.size, requested, info.commited)
  }

  /** A commit that does not wrap keeps the header invariant and adds exactly `size`. */
  lemma CommitKeepsHeader(info: AllocInfo, size: u64, page: nat)
    requires IsPageSize(page) && HeaderValid(info, page)
    requires info.requestedCommited + size <= MaxAlignable(page)
    ensures Commit(info, size, page).requestedCommited == info.requestedCommited + size
    ensures HeaderValid(Commit(info, size, page), page)
  {
    AlignMonotone(info.requestedCommited, info.requestedCommited + size, page);
  }

  /**
   * `ar_os_mem_decommit`: subtracts `size` from the requested total,
   * clamping at zero and then flooring at the header size; the committed
   * size shrinks to the new page ceiling if that is smaller, and never grows.
   */
  function Decommit(info: AllocInfo, size: u64, page: nat): (r: AllocInfo)
    requires IsPageSize(page)
    ensures r.size == info.size
    ensures r.commited <= info.commited
    ensures r.requestedCommited == Max(HEADER_SIZE, info.requestedCommited - size)
    ensures r.commited == Min(info.commited, AlignToPage(r.requestedCommited, page))
  {
    var clamped := if size > info.requestedCommited then info.requestedCommited else size;
    var lowered := info.requestedCommited - clamped;
    var requested := if lowered < HEADER_SIZE then HEADER_SIZE else lowered;
    var aligned := AlignToPage(requested, page);
    if aligned < info.commited then
      AllocInfo(info.size, requested, aligned)
    else
      AllocInfo(info.size, requested, info.commited)
  }

  /**
   * Decommit keeps the header invariant; since the request floor is the
   * header size, at least one page always stays committed.
   */
  lemma DecommitKeepsHeader(info: AllocInfo, size: u64, page: nat)
    requires IsPageSize(page) && HeaderValid(info, page)
    ensures HeaderValid(Decommit(info, size, page), page)
    ensures Decommit(info, size, page).commited >= page
  {
    var r := Decommit(info, size, page);
    AlignMonotone(r.requestedCommited, info.requestedCommited, page);
    AlignAtLeastPage(r.requestedCommited, page);
  }

  /**
   * Decommitting what was just committed restores the header exactly:
   * the requested total returns, and with it the committed size.
   */
  lemma DecommitUndoesCommit(info: AllocInfo, size: u64, page: nat)
    requires IsPageSize(page) && HeaderValid(info, page)
    requires info.requestedCommited + size <= MaxAlignable(page)
    ensures Decommit(Commit(info, size, page), size, page) == info
  {
    var grown := Commit(info, size, page);
    AlignMonotone(info.requestedCommited, info.requestedCommited + size, page);
    assert grown.requestedCommited == info.requestedCommited + size;
    assert grown.commited == AlignToPage(info.requestedCommited + size, page);
  }

  /** Under the header invariant at least one page is committed. */
  lemma HeaderKeepsFirstPage(info: AllocInfo, page: nat)
    requires IsPageSize(page) && HeaderValid(info, page)
    ensures info.commited >= page
    ensures info.commited >= info.requestedCommited
  {
    AlignAtLeastPage(info.requestedCommited, page);
  }
}

=== FILE: paging.dfy ===
/**
 * Page rounding shared by the arena and the OS allocation header
 * (`align_to_page_size` in src/arkin_core.c).
 */
module Paging {
  import opened Machine

  /**
   * A page size as `sysconf` reports it: stored in a U32, a power of two
   * (for values below 2^32 that is the same as dividing 2^64), and at least
   * 64 bytes, so the 24-byte allocation header and the 32-byte arena record
   * fit in the first page.
   */
  predicate IsPageSize(page: nat) {
    64 <= page < TWO32 && TWO64 % page == 0
  }

  /** The least multiple of `page` that is at least `v`, as an exact integer. */
  ghost predicate IsPageCeiling(r: int, v: int, page: nat)
    requires page > 0
  {
    r % page == 0 && v <= r < v + page
  }

  /** The largest value whose page ceiling still fits in a U64. */
  function MaxAlignable(page: nat): nat
    requires IsPageSize(page)
  {
    TWO64 - page
  }

  /**
   * `value + (page_size - value) % page_size` computed in U64: the
   * subtraction wraps whenever `value > page`, and since the page size
   * divides 2^64 the wrap does not disturb the remainder. The sum itself
   * wraps to 0 only for values within one page of 2^64.
   */
  function AlignToPage(value: u64, page: nat): (r: u64)
    requires IsPageSize(page)
    ensures value <= MaxAlignable(page) ==> IsPageCeiling(r, value, page)
    ensures value > MaxAlignable(page) ==> r == 0
  {
    var pad := Sub64(page, value) % page;
    AlignPad(value, page, pad);
    Add64(value, pad)
  }

  /** The padding `(page - value) mod 2^64 mod page` is `(-value) mod page`. */
  lemma AlignPad(value: u64, page: nat, pad: nat)
    requires IsPageSize(page)
    requires pad == Sub64(page, value) % page
    ensures pad < page
    ensures (value + pad) % page == 0
    ensures value <= MaxAlignable(page) ==> value + pad < TWO64
    ensures value > MaxAlignable(page) ==> value + pad == TWO64
  {
    PadIsNegatedRemainder(value, page);
    PadCompletesMultiple(value, page, pad);
    TopMultiples(page);
    CeilingBelowTop(value, value + pad, page);
  }

  /** Where a page multiple less than one page above `value` lies relative to 2^64. */
  lemma CeilingBelowTop(value: int, w: int, page: nat)
    requires IsPageSize(page) && 0 <= value < TWO64
    requires w % page == 0 && value <= w < value + page
    requires TWO64 % page == 0 && (TWO64 - page) % page == 0
    ensures value <= TWO64 - page ==> w <= TWO64 - page
    ensures value > TWO64 - page ==> w == TWO64
  {
    if value <= TWO64 - page {
      MultipleOrder(w, TWO64 - page, page);
    } else {
      MultipleOrder(TWO64, w, page);
      MultipleOrder(w, TWO64, page);
    }
  }

  /** 2^64 and 2^64 - page are both page multiples. */
  lemma TopMultiples(page: nat)
    requires IsPageSize(page)
    ensures TWO64 % page == 0 && (TWO64 - page) % page == 0
  {
    var q := TWO64 / page;
    assert TWO64 == page * q;
    assert TWO64 - page == page * (q - 1);
    ModMultiple(page, q - 1);
  }

  /** The U64 wrap of `page - value` adds a multiple of the page size. */
  lemma PadIsNegatedRemainder(value: u64, page: nat)
    requires IsPageSize(page)
    ensures Sub64(page, value) % page == (page - value) % page
  {
    if value > page {
      var q := TWO64 / page;
      assert TWO64 == page * q;
      assert Sub64(page, value) == (page - value) + page * q;
      ModShift(page - value, page, q);
    }
  }

  lemma PadCompletesMultiple(value: int, page: nat, pad: int)
    requires page > 0
    requires pad == (page - value) % page
    ensures (value + pad) % page == 0
  {
    var d := page - value;
    assert d == page * (d / page) + pad;
    var k := 1 - d / page;
    assert value + pad == page * k;
    ModMultiple(page, k);
  }

  /** Rounding up is monotone while no wrap occurs. */
  lemma AlignMonotone(v: u64, w: u64, page: nat)
    requires IsPageSize(page)
    requires v <= w <= MaxAlignable(page)
    ensures AlignToPage(v, page) <= AlignToPage(w, page)
  {
    var a, b := AlignToPage(v, page), AlignToPage(w, page);
    MultipleOrder(a, b, page);
  }

  /** A value that is already a page multiple is left alone. */
  lemma AlignOfMultiple(v: u64, page: nat)
    requires IsPageSize(page)
    requires v % page == 0 && v <= MaxAlignable(page)
    ensures AlignToPage(v, page) == v
  {
    var a := AlignToPage(v, page);
    MultipleOrder(a, v, page);
  }

  /** Zero is already aligned. */
  lemma AlignZero(page: nat)
    requires IsPageSize(page)
    ensures AlignToPage(0, page) == 0
  {
    assert Sub64(page, 0) == page;
  }

  /** Any nonzero value rounds up to at least one page. */
  lemma AlignAtLeastPage(v: u64, page: nat)
    requires IsPageSize(page)
    requires 0 < v <= MaxAlignable(page)
    ensures AlignToPage(v, page) >= page
  {
    var a := AlignToPage(v, page);
    ModMultiple(page, 1);
    MultipleOrder(page, a, page);
  }
}

=== FILE: scratch.dfy ===
/**
 * Per-thread scratch arenas (`ArThreadCtx`, `ar_thread_ctx_create`,
 * `get_non_conflicting_scratch_arena`, `ar_scratch_get`,
 * `ar_scratch_release` in src/arkin_core.c and include/arkin_core.h).
 * Arenas are named by their identity; the thread-local "current context"
 * is passed in explicitly as an `Option<ThreadCtx>`.
 */
module Scratch {
  import opened Machine
  import opened Paging
  import opened OsMemory
  import opened Optional
  import opened Arenas

  /** `SCRATCH_ARENA_COUNT`. */
  const SCRATCH_ARENA_COUNT: nat := 2

  /** `sizeof(ArThreadCtx)`: two arena pointers. */
  const THREAD_CTX_SIZE: u64 := 16

  type ScratchArenas = s: seq<ArenaId> | |s| == SCRATCH_ARENA_COUNT witness [0, 0]

  datatype ThreadCtx = ThreadCtx(scratch: ScratchArenas)

  /**
   * The inner loop over `j`: the first scratch arena from index `j` on that
   * is not `conflict`, if any.
   */
  function FirstOther(scratch: ScratchArenas, conflict: ArenaId, j: nat): (r: Option<ArenaId>)
    requires j <= |scratch|
    ensures r.Some? <==> exists k :: j <= k < |scratch| && scratch[k] != conflict
    ensures r.Some? ==> r.value != conflict && r.value in scratch
    ensures r.Some? ==> exists k :: j <= k < |scratch| && scratch[k] == r.value &&
                                    forall m :: j <= m < k ==> scratch[m] == conflict
    decreases |scratch| - j
  {
    if j == |scratch| then None
    else if scratch[j] == conflict then FirstOther(scratch, conflict, j + 1)
    else Some(scratch[j])
  }

  /**
   * The U8 outer loop counter would wrap at 256 and spin forever if both
   * scratch arenas are the same arena and each of the first 256 conflicting
   * entries is that arena. The source never returns in that case.
   */
  ghost predicate Terminates(ctx: Option<ThreadCtx>, conflicting: seq<ArenaId>) {
    || ctx.None?
    || |conflicting| < TWO8
    || ctx.value.scratch[0] != ctx.value.scratch[1]
    || exists i :: 0 <= i < TWO8 && conflicting[i] != ctx.value.scratch[0]
  }

  /**
   * `get_non_conflicting_scratch_arena` as written: with no context there
   * is nothing; with no conflicting arenas the first scratch arena is
   * chosen; otherwise, for each conflicting entry in turn, the first scratch
   * arena that differs from THAT entry alone is returned.
   */
  function NonConflicting(ctx: Option<ThreadCtx>, conflicting: seq<ArenaId>): (r: Option<ArenaId>)
    requires |conflicting| < TWO32
    requires Terminates(ctx, conflicting)
    ensures ctx.None? ==> r.None?
    ensures ctx.Some? && |conflicting| == 0 ==> r == Some(ctx.value.scratch[0])
    ensures r.Some? ==> ctx.Some? && r.value in ctx.value.scratch
  {
    if ctx.None? then None
    else if |conflicting| == 0 then Some(ctx.value.scratch[0])
    else Scan(ctx.value.scratch, conflicting, 0)
  }

  /** The outer loop over `i`, without the U8 wrap (excluded by `Terminates`). */
  function Scan(scratch: ScratchArenas, conflicting: seq<ArenaId>, i: nat): (r: Option<ArenaId>)
    requires i <= |conflicting|
    ensures r.Some? ==> r.value in scratch
    ensures r.Some? ==> exists k :: i <= k < |conflicting| && r.value != conflicting[k]
    ensures r.None? <==> forall k :: i <= k < |conflicting| ==>
                                       scratch[0] == conflicting[k] && scratch[1] == conflicting[k]
    decreases |conflicting| - i
  {
    if i == |conflicting| then None
    else
      match FirstOther(scratch, conflicting[i], 0)
      case Some(s) => Some(s)
      case None => Scan(scratch, conflicting, i + 1)
  }

  /**
   * With two distinct scratch arenas the choice is made on the first
   * conflicting entry alone: the result is always a scratch arena other
   * than `conflicting[0]`, preferring the first.
   */
  lemma DistinctScratchAvoidsFirst(ctx: ThreadCtx, conflicting: seq<ArenaId>)
    requires |conflicting| < TWO32 && |conflicting| > 0
    requires ctx.scratch[0] != ctx.scratch[1]
    ensures NonConflicting(Some(ctx), conflicting).Some?
    ensures NonConflicting(Some(ctx), conflicting).value != conflicting[0]
    ensures NonConflicting(Some(ctx), conflicting) ==
              if ctx.scratch[0] != conflicting[0] then Some(ctx.scratch[0]) else Some(ctx.scratch[1])
  {
  }

  /**
   * ... so later entries are never consulted: asking to avoid both scratch
   * arenas hands back the second of them, which the caller is still using.
   */
  lemma SecondConflictIgnored(a: ArenaId, b: ArenaId)
    requires a != b
    ensures NonConflicting(Some(ThreadCtx([a, b])), [a, b]) == Some(b)
  {
    assert FirstOther([a, b], a, 0) == Some(b);
  }

  /**
   * The evidently intended selection: the first scratch arena that is in
   * none of the conflicting entries, and nothing when every scratch arena
   * conflicts.
   */
  function NonConflictingIntended(ctx: Option<ThreadCtx>, conflicting: seq<ArenaId>): (r: Option<ArenaId>)
    ensures ctx.None? ==> r.None?
    ensures r.Some? ==> ctx.Some? && r.value in ctx.value.scratch && r.value !in conflicting
    ensures ctx.Some? ==> (r.None? <==> forall k :: 0 <= k < |ctx.value.scratch| ==> ctx.value.scratch[k] in conflicting)
  {
    if ctx.None? then None else FirstFree(ctx.value.scratch, conflicting, 0)
  }

  function FirstFree(scratch: ScratchArenas, conflicting: seq<ArenaId>, j: nat): (r: Option<ArenaId>)
    requires j <= |scratch|
    ensures r.Some? ==> exists k :: j <= k < |scratch| && scratch[k] == r.value
    ensures r.Some? ==> r.value !in conflicting
    ensures r.None? <==> forall k :: j <= k < |scratch| ==> scratch[k] in conflicting
    decreases |scratch| - j
  {
    if j == |scratch| then None
    else if scratch[j] in conflicting then FirstFree(scratch, conflicting, j + 1)
    else Some(scratch[j])
  }

  /** With at most one conflicting arena the source's selection is already the intended one. */
  lemma IntendedAgreesOnOneConflict(ctx: Option<ThreadCtx>, conflicting: seq<ArenaId>)
    requires |conflicting| <= 1
    requires ctx.Some? ==> ctx.value.scratch[0] != ctx.value.scratch[1]
    ensures NonConflicting(ctx, conflicting) == NonConflictingIntended(ctx, conflicting)
  {
    if ctx.Some? && |conflicting| == 1 {
      var s := ctx.value.scratch;
      assert s[0] in conflicting <==> s[0] == conflicting[0];
      assert s[1] in conflicting <==> s[1] == conflicting[0];
    }
  }

  /** The arena the intended selection returns aliases no conflicting arena. */
  lemma IntendedNeverAliases(ctx: ThreadCtx, conflicting: seq<ArenaId>, k: nat)
    requires k < |conflicting|
    requires NonConflictingIntended(Some(ctx), conflicting).Some?
    ensures NonConflictingIntended(Some(ctx), conflicting).value != conflicting[k]
  {
  }

  /**
   * `ar_scratch_get`: a checkpoint on the chosen scratch arena, or the
   * empty checkpoint when there is none.
   */
  function ScratchGet(ctx: Option<ThreadCtx>, conflicting: seq<ArenaId>, arenas: map<ArenaId, Arena>): (t: Temp)
    requires |conflicting| < TWO32 && Terminates(ctx, conflicting)
    requires ctx.Some? ==> forall k :: 0 <= k < |ctx.value.scratch| ==> ctx.value.scratch[k] in arenas
    ensures t.arena == NonConflicting(ctx, conflicting)
    ensures t.arena.None? ==> t.pos == 0
    ensures t.arena.Some? ==> t.pos == arenas[t.arena.value].position % TWO32
  {
    match NonConflicting(ctx, conflicting)
    case None => Temp(None, 0)
    case Some(id) => TempBegin(id, arenas[id])
  }

  /**
   * `ar_scratch_release`: ends the checkpoint on its arena. Releasing the
   * empty checkpoint dereferences a null arena in the source, so it is
   * excluded here.
   */
  function ScratchRelease(t: Temp, arenas: map<ArenaId, Arena>, page: nat): (r: (map<ArenaId, Arena>, Temp))
    requires IsPageSize(page)
    requires t.arena.Some? && t.arena.value in arenas
    ensures r.1 == Temp(None, 0)
    ensures r.0.Keys == arenas.Keys
    ensures forall id :: id in arenas && id != t.arena.value ==> r.0[id] == arenas[id]
    ensures arenas[t.arena.value].position >= t.pos ==> r.0[t.arena.value].position == t.pos
  {
    var id := t.arena.value;
    var ended := TempEnd(t, arenas[id], page);
    (arenas[id := ended.0], ended.1)
  }

  /**
   * Scratch use is neutral: getting a scratch arena below 4 GiB, using it
   * in a nested way, and releasing it restores its usage and leaves every
   * other arena alone.
   */
  lemma ScratchRoundTrip(ctx: ThreadCtx, conflicting: seq<ArenaId>, before: map<ArenaId, Arena>,
                         after: map<ArenaId, Arena>, page: nat)
    requires IsPageSize(page)
    requires |conflicting| < TWO32 && Terminates(Some(ctx), conflicting)
    requires forall k :: 0 <= k < |ctx.scratch| ==> ctx.scratch[k] in before
    requires ScratchGet(Some(ctx), conflicting, before).arena.Some?
    requires after.Keys == before.Keys
    requires var id := ScratchGet(Some(ctx), conflicting, before).arena.value;
             before[id].position < TWO32 && after[id].position >= before[id].position
    ensures var t := ScratchGet(Some(ctx), conflicting, before);
            ScratchRelease(t, after, page).0[t.arena.value].position == before[t.arena.value].position
    ensures var t := ScratchGet(Some(ctx), conflicting, before);
            var released := ScratchRelease(t, after, page).0;
            released.Keys == after.Keys && forall id :: id in after && id != t.arena.value ==> released[id] == after[id]
  {
  }

  /**
   * `ar_thread_ctx_create`: two default arenas (their identities are
   * supplied, as the addresses the OS hands out), with the context record
   * pushed onto the first one at its very start.
   */
  function CtxCreate(first: ArenaId, second: ArenaId, page: nat): (r: (ThreadCtx, u64, Arena, Arena))
    requires IsPageSize(page)
    ensures r.0.scratch == [first, second]
    ensures r.1 == 0
    ensures r.2.position == THREAD_CTX_SIZE && r.3.position == 0
    ensures Valid(r.2, page) && Backed(r.2, page) && Valid(r.3, page) && Backed(r.3, page)
  {
    var a0 := CreateDefault(page);
    var a1 := CreateDefault(page);
    TopMultiples(page);
    AlignAtLeastPage(THREAD_CTX_SIZE, page);
    AlignMonotone(THREAD_CTX_SIZE, page, page);
    ModMultiple(page, 1);
    AlignOfMultiple(page, page);
    PushKeepsValid(a0, THREAD_CTX_SIZE, page);
    PushKeepsBacked(a0, THREAD_CTX_SIZE, page);
    var pushed := PushType(a0, THREAD_CTX_SIZE, page);
    (ThreadCtx([first, second]), pushed.offset, pushed.arena, a1)
  }

  /**
   * The context lives at the start of the first scratch arena: a scratch
   * checkpoint taken on that arena (below 4 GiB) after the context was
   * pushed never rolls back over the context record.
   */
  lemma ContextSurvivesRelease(first: ArenaId, a: Arena, later: Arena, page: nat)
    requires IsPageSize(page)
    requires THREAD_CTX_SIZE <= a.position < TWO32
    requires later.position >= a.position
    ensures TempEnd(TempBegin(first, a), later, page).0.position >= THREAD_CTX_SIZE
  {
  }
}

=== FILE: split.dfy ===
/**
 * `ar_str_split` and `ar_str_split_char` of src/arkin_core.c, and the
 * field decomposition they evidently aim at. Both functions run the same
 * loop and differ only in how the next delimiter is found and how long it
 * is; the loop is modelled once, over the "find the next delimiter from
 * here" function. The result is the sequence of pieces, each a `Slice` of
 * the input string; the list nodes the source pushes for them are the
 * subject of module StrLists.
 */
module Split {
  import opened Machine
  import opened Chars
  import opened Strings

  /** A finder for a string of length `n`: from each index it lands at or after it, within the string. */
  predicate InRange(n: nat, next: nat -> nat) {
    forall i :: 0 <= i < n ==> i <= next(i) <= n
  }

  /**
   * The split loop from `start` on: take `ar_str_sub(str, start, next - 1)`
   * as the piece and continue `step` characters after the delimiter found
   * at `next`. Every piece starts inside the string, and there is at most
   * one piece per remaining character.
   */
  function SplitLoop(n: nat, step: nat, next: nat -> nat, start: nat): (pieces: seq<Slice>)
    requires n + step < TWO64 && step >= 1 && start <= n + step
    requires InRange(n, next)
    ensures forall k :: 0 <= k < |pieces| ==> pieces[k].start < n
    ensures |pieces| > 0 ==> start + |pieces| <= n
    decreases n + step - start
  {
    if start >= n then []
    else [Sub(n, start, Sub64(next(start), 1))] + SplitLoop(n, step, next, next(start) + step)
  }

  /**
   * What `ar_str_split` needs: a non-empty delimiter (an empty one is
   * found at `start` again and again, and the loop never ends), a
   * delimiter the match test can read past the string's end, and a
   * `next + |delim|` that does not wrap.
   */
  predicate SplitArgs(s: seq<char>, tail: seq<char>, delim: seq<char>) {
    |delim| >= 1 && |s| + |tail| < TWO64 && |delim| <= |tail| + 1 && |s| + |delim| < TWO64
  }

  /** How `ar_str_split` finds the next delimiter: `ar_str_find` on the rest of the string. */
  function Finder(s: seq<char>, tail: seq<char>, delim: seq<char>, flags: MatchFlags): (next: nat -> nat)
    requires SplitArgs(s, tail, delim)
    ensures InRange(|s|, next)
  {
    (i: nat) => if i < |s| then i + Find(ChopStart(s, i), tail, delim, flags) else |s|
  }

  /** `ar_str_split`: the pieces, in order. */
  function SplitStr(s: seq<char>, tail: seq<char>, delim: seq<char>, flags: MatchFlags): (pieces: seq<Slice>)
    requires SplitArgs(s, tail, delim)
    ensures forall k :: 0 <= k < |pieces| ==> pieces[k].start < |s|
    ensures |pieces| <= |s|
  {
    SplitLoop(|s|, |delim|, Finder(s, tail, delim, flags), 0)
  }

  /** How `ar_str_split_char` finds the next delimiter: `ar_str_find_char` on the rest of the string. */
  function CharFinder(s: seq<char>, c: char, flags: MatchFlags): (next: nat -> nat)
    ensures InRange(|s|, next)
  {
    (i: nat) => if i < |s| then i + FindChar(ChopStart(s, i), c, flags) else |s|
  }

  /** `ar_str_split_char`: the same loop, stepping one character past each delimiter. */
  function SplitChar(s: seq<char>, c: char, flags: MatchFlags): (pieces: seq<Slice>)
    requires |s| + 1 < TWO64
    ensures forall k :: 0 <= k < |pieces| ==> pieces[k].start < |s|
    ensures |pieces| <= |s|
  {
    SplitLoop(|s|, 1, CharFinder(s, c, flags), 0)
  }

  /** Two finders that agree on the string give the same pieces. */
  lemma {:induction false} SplitLoopAgrees(n: nat, step: nat, f: nat -> nat, g: nat -> nat, start: nat)
    requires n + step < TWO64 && step >= 1 && start <= n + step
    requires InRange(n, f) && InRange(n, g)
    requires forall i :: 0 <= i < n ==> f(i) == g(i)
    ensures SplitLoop(n, step, f, start) == SplitLoop(n, step, g, start)
    decreases n + step - start
  {
    if start < n {
      var after := f(start) + step;
      assert f(start) == g(start) && after <= n + step;
      SplitLoopAgrees(n, step, f, g, after);
      SplitLoopStepAgrees(n, step, f, g, start);
    }
  }

  /** Finders that agree at `start`, and whose loops agree after it, agree from `start`. */
  lemma SplitLoopStepAgrees(n: nat, step: nat, f: nat -> nat, g: nat -> nat, start: nat)
    requires n + step < TWO64 && step >= 1 && start < n
    requires InRange(n, f) && InRange(n, g) && f(start) == g(start)
    requires SplitLoop(n, step, f, f(start) + step) == SplitLoop(n, step, g, f(start) + step)
    ensures SplitLoop(n, step, f, start) == SplitLoop(n, step, g, start)
  {
    var piece := Sub(n, start, Sub64(f(start), 1));
    assert SplitLoop(n, step, f, start) == [piece] + SplitLoop(n, step, f, f(start) + step);
    assert SplitLoop(n, step, g, start) == [piece] + SplitLoop(n, step, g, g(start) + step);
  }

  /** `ar_str_split_char` is `ar_str_split` with the one-character delimiter. */
  lemma SplitCharIsSplit(s: seq<char>, tail: seq<char>, c: char, flags: MatchFlags)
    requires |s| + |tail| < TWO64 && |s| + 1 < TWO64
    ensures SplitChar(s, c, flags) == SplitStr(s, tail, [c], flags)
  {
    var f, g := CharFinder(s, c, flags), Finder(s, tail, [c], flags);
    forall i | 0 <= i < |s|
      ensures f(i) == g(i)
    {
      FindCharIsFind(ChopStart(s, i), tail, c, flags);
    }
    SplitLoopAgrees(|s|, 1, f, g, 0);
  }

  /** The first occurrence of `delim` in `s` at or after `from`, and `|s|` when there is none. */
  function NextOccurrence(s: seq<char>, delim: seq<char>, ci: bool, from: nat): (r: nat)
    requires from <= |s|
    ensures from <= r <= |s|
    decreases |s| - from
  {
    if from == |s| then |s|
    else if Occurs(s, delim, from, ci) then from
    else NextOccurrence(s, delim, ci, from + 1)
  }

  /** It is an occurrence, and no index before it from `from` on is one. */
  lemma {:induction false} NextOccurrenceIsFirst(s: seq<char>, delim: seq<char>, ci: bool, from: nat)
    requires from <= |s|
    ensures var r := NextOccurrence(s, delim, ci, from);
            && (r < |s| ==> Occurs(s, delim, r, ci))
            && (forall j :: from <= j < r ==> !Occurs(s, delim, j, ci))
    decreases |s| - from
  {
    if from < |s| && !Occurs(s, delim, from, ci) {
      NextOccurrenceIsFirst(s, delim, ci, from + 1);
    }
  }

  /** Conversely, an index that is an occurrence (or the end) with none before it is the next occurrence. */
  lemma NextOccurrenceUnique(s: seq<char>, delim: seq<char>, ci: bool, from: nat, r: nat)
    requires from <= r <= |s|
    requires r < |s| ==> Occurs(s, delim, r, ci)
    requires forall j :: from <= j < r ==> !Occurs(s, delim, j, ci)
    ensures NextOccurrence(s, delim, ci, from) == r
  {
    NextOccurrenceIsFirst(s, delim, ci, from);
  }

  /** The reference search as a finder: from each index, the next occurrence of `delim`. */
  function NextFinder(s: seq<char>, delim: seq<char>, ci: bool): (next: nat -> nat)
    ensures InRange(|s|, next)
  {
    (i: nat) => if i <= |s| then NextOccurrence(s, delim, ci, i) else |s|
  }

  /**
   * The text the loop means to cut out: from `start` up to the delimiter
   * the finder lands on, then on from `step` characters after it.
   */
  function Cuts(s: seq<char>, step: nat, next: nat -> nat, start: nat): (cuts: seq<seq<char>>)
    requires step >= 1 && start <= |s| + step && InRange(|s|, next)
    ensures start >= |s| <==> cuts == []
    decreases |s| + step - start
  {
    if start >= |s| then []
    else [s[start..next(start)]] + Cuts(s, step, next, next(start) + step)
  }

  /**
   * The fields of `s` from `start` on: the text up to the next occurrence
   * of the delimiter, then the fields after that occurrence. A string that
   * ends with the delimiter has no empty last field.
   */
  function FieldsFrom(s: seq<char>, delim: seq<char>, ci: bool, start: nat): (fields: seq<seq<char>>)
    requires |delim| >= 1 && start <= |s| + |delim|
  {
    Cuts(s, |delim|, NextFinder(s, delim, ci), start)
  }

  function Fields(s: seq<char>, delim: seq<char>, ci: bool): seq<seq<char>>
    requires |delim| >= 1
  {
    FieldsFrom(s, delim, ci, 0)
  }

  /** The pieces joined back together with the delimiter between them. */
  function JoinWith(pieces: seq<seq<char>>, delim: seq<char>): seq<char> {
    if |pieces| == 0 then []
    else if |pieces| == 1 then pieces[0]
    else pieces[0] + delim + JoinWith(pieces[1..], delim)
  }

  /** Exact folding is equality. */
  lemma FoldEqExact(a: seq<char>, b: seq<char>)
    ensures FoldEq(a, b, false) <==> a == b
  {
    if FoldEq(a, b, false) {
      assert forall i :: 0 <= i < |a| ==> a[i] == b[i];
    }
  }

  /** An occurrence in a suffix is an occurrence in the whole string, shifted. */
  lemma OccursShift(s: seq<char>, delim: seq<char>, start: nat, j: nat, ci: bool)
    requires start <= |s|
    ensures Occurs(s[start..], delim, j, ci) <==> Occurs(s, delim, start + j, ci)
  {
    if start + j + |delim| <= |s| {
      assert s[start..][j..j + |delim|] == s[start + j..start + j + |delim|];
    }
  }

  /** An occurrence in a prefix is an occurrence in the whole string. */
  lemma OccursInPrefix(s: seq<char>, delim: seq<char>, start: nat, end: nat, j: nat, ci: bool)
    requires start <= end <= |s|
    requires Occurs(s[start..end], delim, j, ci)
    ensures Occurs(s, delim, start + j, ci)
  {
    var t := s[start..end];
    var n := |delim|;
    assert j + n <= |t|;
    assert forall i :: j <= i < j + n ==> t[i] == s[start + i];
    assert t[j..j + n] == s[start + j..start + j + n];
  }

  /** No field contains the delimiter. */
  lemma FieldsDelimiterFree(s: seq<char>, delim: seq<char>, ci: bool, start: nat, k: nat, j: nat)
    requires |delim| >= 1 && start <= |s| + |delim|
    requires k < |FieldsFrom(s, delim, ci, start)|
    ensures !Occurs(FieldsFrom(s, delim, ci, start)[k], delim, j, ci)
  {
    var i := CutsAt(s, |delim|, NextFinder(s, delim, ci), start, k);
    FirstFieldDelimiterFree(s, delim, ci, i, j);
  }

  /** Every cut is the text from some index of the string up to where the finder lands from it. */
  lemma {:induction false} CutsAt(s: seq<char>, step: nat, next: nat -> nat, start: nat, k: nat) returns (i: nat)
    requires step >= 1 && start <= |s| + step && InRange(|s|, next)
    requires k < |Cuts(s, step, next, start)|
    ensures start <= i < |s| && Cuts(s, step, next, start)[k] == s[i..next(i)]
    decreases |s| + step - start
  {
    if k == 0 {
      i := start;
    } else {
      i := CutsAt(s, step, next, next(start) + step, k - 1);
    }
  }

  /** The text before the next occurrence does not contain the delimiter. */
  lemma FirstFieldDelimiterFree(s: seq<char>, delim: seq<char>, ci: bool, start: nat, j: nat)
    requires |delim| >= 1 && start <= |s|
    ensures !Occurs(s[start..NextOccurrence(s, delim, ci, start)], delim, j, ci)
  {
    var next := NextOccurrence(s, delim, ci, start);
    if Occurs(s[start..next], delim, j, ci) {
      OccursInPrefix(s, delim, start, next, j, ci);
      NextOccurrenceMisses(s, delim, ci, start, start + j);
    }
  }

  /** No index between `from` and the next occurrence is an occurrence. */
  lemma NextOccurrenceMisses(s: seq<char>, delim: seq<char>, ci: bool, from: nat, j: nat)
    requires from <= |s| && from <= j < NextOccurrence(s, delim, ci, from)
    ensures !Occurs(s, delim, j, ci)
  {
    NextOccurrenceIsFirst(s, delim, ci, from);
  }

  /**
   * Joining the exact fields with the delimiter gives back the string, or
   * the string without its final delimiter when it ends with one.
   */
  lemma {:induction false} FieldsRejoin(s: seq<char>, delim: seq<char>, start: nat)
    requires |delim| >= 1 && start < |s|
    ensures var j := JoinWith(FieldsFrom(s, delim, false, start), delim);
            j == s[start..] || j + delim == s[start..]
    decreases |s| - start
  {
    var next := ExactFieldsHead(s, delim, start);
    var x, after := s[start..next], next + |delim|;
    var rest := FieldsFrom(s, delim, false, after);
    var j := JoinWith(FieldsFrom(s, delim, false, start), delim);
    if next == |s| {
      assert j == s[start..] by {
        JoinCons(x, rest, delim);
      }
    } else if after == |s| {
      assert j + delim == s[start..] by {
        JoinCons(x, rest, delim);
      }
    } else {
      FieldsRejoin(s, delim, after);
      var j' := JoinWith(rest, delim);
      assert j == x + delim + j' by {
        JoinCons(x, rest, delim);
      }
      assert s[start..] == x + delim + s[after..];
      RejoinPrepend(x, delim, j', s[after..]);
    }
  }

  /** Putting the same piece and delimiter in front of both sides keeps a rejoin a rejoin. */
  lemma RejoinPrepend(x: seq<char>, delim: seq<char>, j: seq<char>, t: seq<char>)
    requires j == t || j + delim == t
    ensures x + delim + j == x + delim + t || x + delim + j + delim == x + delim + t
  {
    if j != t {
      assert x + delim + j + delim == x + delim + (j + delim);
    }
  }

  /**
   * The first exact field from `start`, and what follows it: the
   * delimiter itself, or the end of the string.
   */
  lemma ExactFieldsHead(s: seq<char>, delim: seq<char>, start: nat) returns (next: nat)
    requires |delim| >= 1 && start < |s|
    ensures start <= next <= |s|
    ensures FieldsFrom(s, delim, false, start) == [s[start..next]] + FieldsFrom(s, delim, false, next + |delim|)
    ensures next == |s| ==> FieldsFrom(s, delim, false, next + |delim|) == [] && s[start..next] == s[start..]
    ensures next < |s| ==> next + |delim| <= |s| &&
                           s[start..] == s[start..next] + delim + s[next + |delim|..]
  {
    next := NextOccurrence(s, delim, false, start);
    FieldsFromUnfold(s, delim, false, start);
    if next < |s| {
      NextOccurrenceHits(s, delim, false, start);
      var m := next + |delim|;
      assert s[next..m] == delim by {
        FoldEqExact(s[next..m], delim);
      }
      assert s[start..] == s[start..next] + s[next..] by {
        SliceSplit(s, start, next);
      }
      assert s[next..] == s[next..m] + s[m..] by {
        SliceSplit(s, next, m);
      }
    }
  }

  /** One step of the field recursion. */
  lemma FieldsFromUnfold(s: seq<char>, delim: seq<char>, ci: bool, start: nat)
    requires |delim| >= 1 && start < |s|
    ensures var next := NextOccurrence(s, delim, ci, start);
            FieldsFrom(s, delim, ci, start) == [s[start..next]] + FieldsFrom(s, delim, ci, next + |delim|)
  {
  }

  /** The next occurrence, when there is one, is an occurrence. */
  lemma NextOccurrenceHits(s: seq<char>, delim: seq<char>, ci: bool, from: nat)
    requires from <= |s|
    ensures NextOccurrence(s, delim, ci, from) < |s| ==> Occurs(s, delim, NextOccurrence(s, delim, ci, from), ci)
  {
    NextOccurrenceIsFirst(s, delim, ci, from);
  }

  /** A suffix is cut in two at any index inside it. */
  lemma SliceSplit(s: seq<char>, i: nat, j: nat)
    requires i <= j <= |s|
    ensures s[i..] == s[i..j] + s[j..]
  {
  }

  /** Joining a list with one more piece in front. */
  lemma JoinCons(x: seq<char>, rest: seq<seq<char>>, delim: seq<char>)
    ensures JoinWith([x] + rest, delim) == if rest == [] then x else x + delim + JoinWith(rest, delim)
  {
    assert ([x] + rest)[1..] == rest;
  }

  /**
   * Without LAST, the split loop's `next` is the next occurrence of the
   * delimiter: a window that would run past the string meets the NUL.
   */
  lemma NextIsNextOccurrence(s: seq<char>, tail: seq<char>, delim: seq<char>, flags: MatchFlags, start: nat)
    requires SplitArgs(s, tail, delim) && start < |s|
    requires NulTerminated(tail) && '\0' !in delim && !flags.last
    ensures start + Find(ChopStart(s, start), tail, delim, flags) ==
            NextOccurrence(s, delim, flags.caseInsensitive, start)
  {
    var h := ChopStart(s, start);
    assert h == s[start..];
    FindFirstOccurrence(h, tail, delim, flags);
    FirstInSuffix(s, delim, flags.caseInsensitive, start, Find(h, tail, delim, flags));
  }

  /** An index that is the first occurrence in the suffix from `start` is the next occurrence in `s`. */
  lemma FirstInSuffix(s: seq<char>, delim: seq<char>, ci: bool, start: nat, r: nat)
    requires start < |s| && r <= |s| - start
    requires r < |s| - start ==> Occurs(s[start..], delim, r, ci)
    requires forall j :: 0 <= j < r ==> !Occurs(s[start..], delim, j, ci)
    ensures start + r == NextOccurrence(s, delim, ci, start)
  {
    var m := NextOccurrence(s, delim, ci, start);
    NextOccurrenceIsFirst(s, delim, ci, start);
    if start + r < m {
      OccursShift(s, delim, start, r, ci);
    } else if m < start + r {
      OccursShift(s, delim, start, m - start, ci);
    }
  }

  /** Without LAST, the finder of `ar_str_split` lands on the next occurrence everywhere. */
  lemma FinderFindsOccurrences(s: seq<char>, tail: seq<char>, delim: seq<char>, flags: MatchFlags)
    requires SplitArgs(s, tail, delim)
    requires NulTerminated(tail) && '\0' !in delim && !flags.last
    ensures Finds(s, delim, flags.caseInsensitive, Finder(s, tail, delim, flags))
  {
    var f := Finder(s, tail, delim, flags);
    forall i | 0 <= i < |s|
      ensures f(i) == NextOccurrence(s, delim, flags.caseInsensitive, i)
    {
      NextIsNextOccurrence(s, tail, delim, flags, i);
    }
  }

  /** A finder that lands on the next occurrence of `delim` from every index of `s`. */
  predicate Finds(s: seq<char>, delim: seq<char>, ci: bool, next: nat -> nat) {
    forall i :: 0 <= i < |s| ==> next(i) == NextOccurrence(s, delim, ci, i)
  }

  /** The piece lies inside `s` and reads as `f`. */
  predicate PieceReads(s: seq<char>, p: Slice, f: seq<char>) {
    p.start + p.len <= |s| && s[p.start..p.start + p.len] == f
  }

  /** Piece by piece, the slices read as the strings. */
  predicate ReadsAs(s: seq<char>, pieces: seq<Slice>, fields: seq<seq<char>>)
    decreases |pieces|
  {
    && |pieces| == |fields|
    && (|pieces| > 0 ==> PieceReads(s, pieces[0], fields[0]) && ReadsAs(s, pieces[1..], fields[1..]))
  }

  /** ... that is, every piece reads as the string at its position. */
  lemma {:induction false} ReadsAsAt(s: seq<char>, pieces: seq<Slice>, fields: seq<seq<char>>, k: nat)
    requires ReadsAs(s, pieces, fields) && k < |pieces|
    ensures PieceReads(s, pieces[k], fields[k])
    decreases k
  {
    if k > 0 {
      ReadsAsAt(s, pieces[1..], fields[1..], k - 1);
    }
  }

  lemma ReadsAsCons(s: seq<char>, p: Slice, f: seq<char>, ps: seq<Slice>, fs: seq<seq<char>>)
    requires PieceReads(s, p, f) && ReadsAs(s, ps, fs)
    ensures ReadsAs(s, [p] + ps, [f] + fs)
  {
    assert ([p] + ps)[1..] == ps && ([f] + fs)[1..] == fs;
  }

  /**
   * As written, the loop yields the cuts whenever none of them is empty:
   * then `next - 1` never drops below `start`.
   */
  lemma {:induction false} LoopReadsCuts(s: seq<char>, step: nat, next: nat -> nat, start: nat)
    requires |s| + step < TWO64 && step >= 1 && start <= |s| + step && InRange(|s|, next)
    requires [] !in Cuts(s, step, next, start)
    ensures ReadsAs(s, SplitLoop(|s|, step, next, start), Cuts(s, step, next, start))
    decreases |s| + step - start
  {
    if start < |s| {
      var m := next(start);
      var rest := Cuts(s, step, next, m + step);
      assert Cuts(s, step, next, start) == [s[start..m]] + rest;
      assert s[start..m] in Cuts(s, step, next, start);
      assert start <= m <= |s|;
      assert s[start..m] != [];
      assert m > start;
      assert Sub(|s|, start, Sub64(m, 1)) == Slice(start, m - start);
      LoopReadsCuts(s, step, next, m + step);
      ReadsAsCons(s, Slice(start, m - start), s[start..m], SplitLoop(|s|, step, next, m + step), rest);
    }
  }

  /** Two finders that agree on the string cut it the same way. */
  lemma {:induction false} CutsAgree(s: seq<char>, step: nat, f: nat -> nat, g: nat -> nat, start: nat)
    requires step >= 1 && start <= |s| + step && InRange(|s|, f) && InRange(|s|, g)
    requires forall i :: 0 <= i < |s| ==> f(i) == g(i)
    ensures Cuts(s, step, f, start) == Cuts(s, step, g, start)
    decreases |s| + step - start
  {
    if start < |s| {
      CutsAgree(s, step, f, g, f(start) + step);
    }
  }

  /** Where a finder lands on each next occurrence, the cuts are the fields. */
  lemma CutsAreFields(s: seq<char>, delim: seq<char>, ci: bool, next: nat -> nat, start: nat)
    requires |delim| >= 1 && start <= |s| + |delim|
    requires InRange(|s|, next) && Finds(s, delim, ci, next)
    ensures Cuts(s, |delim|, next, start) == FieldsFrom(s, delim, ci, start)
  {
    CutsAgree(s, |delim|, next, NextFinder(s, delim, ci), start);
  }

  /**
   * Where no field is empty, `ar_str_split` without LAST yields exactly
   * the fields: the delimiter-free pieces, in order.
   */
  lemma SplitReadsFields(s: seq<char>, tail: seq<char>, delim: seq<char>, flags: MatchFlags)
    requires SplitArgs(s, tail, delim)
    requires NulTerminated(tail) && '\0' !in delim && !flags.last
    requires [] !in Fields(s, delim, flags.caseInsensitive)
    ensures ReadsAs(s, SplitStr(s, tail, delim, flags), Fields(s, delim, flags.caseInsensitive))
  {
    var f := Finder(s, tail, delim, flags);
    FinderFindsOccurrences(s, tail, delim, flags);
    CutsAreFields(s, delim, flags.caseInsensitive, f, 0);
    LoopReadsCuts(s, |delim|, f, 0);
  }

  /** A one-character delimiter occurs exactly where the character matches after folding. */
  lemma OccursChar(s: seq<char>, c: char, k: nat, ci: bool)
    ensures Occurs(s, [c], k, ci) <==> k < |s| && Fold(s[k], ci) == Fold(c, ci)
  {
    if k < |s| {
      assert s[k..k + 1] == [s[k]];
    }
  }

  /** Without LAST, the finder of `ar_str_split_char` lands on the next occurrence everywhere. */
  lemma CharFinderFindsOccurrences(s: seq<char>, c: char, flags: MatchFlags)
    requires !flags.last
    ensures Finds(s, [c], flags.caseInsensitive, CharFinder(s, c, flags))
  {
    var ci := flags.caseInsensitive;
    var f := CharFinder(s, c, flags);
    forall i | 0 <= i < |s|
      ensures f(i) == NextOccurrence(s, [c], ci, i)
    {
      var h := ChopStart(s, i);
      var r := FindChar(h, c, flags);
      var m := NextOccurrence(s, [c], ci, i);
      NextOccurrenceIsFirst(s, [c], ci, i);
      if i + r < m {
        OccursChar(s, c, i + r, ci);
      } else if m < i + r {
        OccursChar(s, c, m, ci);
      }
    }
  }

  /**
   * Where no field is empty, `ar_str_split_char` without LAST yields the
   * fields of the one-character delimiter.
   */
  lemma SplitCharReadsFields(s: seq<char>, c: char, flags: MatchFlags)
    requires |s| + 1 < TWO64 && !flags.last
    requires [] !in Fields(s, [c], flags.caseInsensitive)
    ensures ReadsAs(s, SplitChar(s, c, flags), Fields(s, [c], flags.caseInsensitive))
  {
    var f := CharFinder(s, c, flags);
    CharFinderFindsOccurrences(s, c, flags);
    CutsAreFields(s, [c], flags.caseInsensitive, f, 0);
    LoopReadsCuts(s, 1, f, 0);
  }

  /**
   * An empty field after the first is not empty in the output: with the
   * delimiter right at `start`, `next - 1` lies below `start`, the bounds
   * of `ar_str_sub` swap, and the piece is the two characters around the
   * field's position.
   */
  lemma EmptyCutPiece(s: seq<char>, step: nat, next: nat -> nat, start: nat)
    requires |s| + step < TWO64 && step >= 1 && 0 < start < |s| && InRange(|s|, next)
    requires next(start) == start
    ensures Cuts(s, step, next, start)[0] == []
    ensures SplitLoop(|s|, step, next, start)[0] == Slice(start - 1, 2)
  {
  }

  /** The reference fields of "a,,b" at ",": the middle one is empty. */
  lemma EmptyFieldExample()
    ensures Fields("a,,b", ",", false) == ["a", "", "b"]
  {
    var s, d := "a,,b", ",";
    assert d == [','];
    var f := NextFinder(s, d, false);
    assert f(3) == 4 by {
      OccursChar(s, ',', 3, false);
    }
    assert f(2) == 2 by {
      OccursChar(s, ',', 2, false);
    }
    assert f(0) == 1 by {
      OccursChar(s, ',', 0, false);
      OccursChar(s, ',', 1, false);
    }
    assert Cuts(s, 1, f, 3) == ["b"] by {
      assert Cuts(s, 1, f, 3) == [s[3..4]] + Cuts(s, 1, f, 5);
      assert s[3..4] == [s[3]] && s[3] == 'b';
    }
    assert Cuts(s, 1, f, 2) == ["", "b"] by {
      assert Cuts(s, 1, f, 2) == [s[2..2]] + Cuts(s, 1, f, 3);
      assert s[2..2] == "";
    }
    assert Cuts(s, 1, f, 0) == ["a", "", "b"] by {
      assert s[0..1] == "a";
    }
  }

  /** The finder of "a,,b" at "," lands on the delimiters at 1 and 2. */
  lemma CommaFinderExample()
    ensures var f := Finder("a,,b", "\0", ",", EXACT);
            f(0) == 1 && f(2) == 2
  {
    var s, d := "a,,b", ",";
    assert d == [','];
    OccursChar(s, ',', 0, false);
    OccursChar(s, ',', 1, false);
    OccursChar(s, ',', 2, false);
    FinderFindsOccurrences(s, "\0", d, EXACT);
    assert NextOccurrence(s, d, false, 2) == 2;
    assert NextOccurrence(s, d, false, 0) == 1;
  }

  /** On "a,,b" split at ",", the empty middle field comes out as the two delimiters ",,". */
  lemma EmptyPieceExample()
    ensures var p := SplitStr("a,,b", "\0", ",", EXACT);
            |p| >= 2 && p[1] == Slice(1, 2) && "a,,b"[1..3] == ",,"
  {
    var s, d := "a,,b", ",";
    var f := Finder(s, "\0", d, EXACT);
    CommaFinderExample();
    EmptyCutPiece(s, 1, f, 2);
    assert SplitStr(s, "\0", d, EXACT) == [Sub(4, 0, 0)] + SplitLoop(4, 1, f, 2);
  }

  /**
   * Without LAST, and with a NUL after the string, the finder of
   * `ar_str_split` lands on any index that is an occurrence (or the end)
   * with none between the start and it.
   */
  lemma FinderLandsAt(s: seq<char>, tail: seq<char>, delim: seq<char>, flags: MatchFlags, start: nat, r: nat)
    requires SplitArgs(s, tail, delim) && start < |s|
    requires NulTerminated(tail) && '\0' !in delim && !flags.last
    requires start <= r <= |s|
    requires r < |s| ==> Occurs(s, delim, r, flags.caseInsensitive)
    requires forall j :: start <= j < r ==> !Occurs(s, delim, j, flags.caseInsensitive)
    ensures Finder(s, tail, delim, flags)(start) == r
  {
    NextIsNextOccurrence(s, tail, delim, flags, start);
    NextOccurrenceUnique(s, delim, flags.caseInsensitive, start, r);
  }

  /** A window whose first character is not the delimiter's first is no occurrence. */
  lemma MissAtHead(s: seq<char>, delim: seq<char>, j: nat, ci: bool)
    requires |delim| >= 1 && j < |s| && Fold(s[j], ci) != Fold(delim[0], ci)
    ensures !Occurs(s, delim, j, ci)
  {
    if j + |delim| <= |s| {
      assert s[j..j + |delim|][0] == s[j];
    }
  }

  /** Find of ", " in "foo, bar, qux" from 0 lands on 3. */
  lemma CommaSpaceFirstLanding(tail: seq<char>)
    requires NulTerminated(tail) && 1 <= |tail| <= 16
    ensures Finder("foo, bar, qux", tail, ", ", EXACT)(0) == 3
  {
    var s, d := "foo, bar, qux", ", ";
    assert s[0] == 'f' && s[1] == 'o' && s[2] == 'o' && s[3] == ',' && s[4] == ' ';
    MissAtHead(s, d, 0, false);
    MissAtHead(s, d, 1, false);
    MissAtHead(s, d, 2, false);
    FinderLandsAt(s, tail, d, EXACT, 0, 3);
  }

  /** From 5 it lands on 8. */
  lemma CommaSpaceSecondLanding(tail: seq<char>)
    requires NulTerminated(tail) && 1 <= |tail| <= 16
    ensures Finder("foo, bar, qux", tail, ", ", EXACT)(5) == 8
  {
    var s, d := "foo, bar, qux", ", ";
    assert s[5] == 'b' && s[6] == 'a' && s[7] == 'r' && s[8] == ',' && s[9] == ' ';
    MissAtHead(s, d, 5, false);
    MissAtHead(s, d, 6, false);
    MissAtHead(s, d, 7, false);
    FinderLandsAt(s, tail, d, EXACT, 5, 8);
  }

  /** From 10 it finds nothing and lands on the end. */
  lemma CommaSpaceLastLanding(tail: seq<char>)
    requires NulTerminated(tail) && 1 <= |tail| <= 16
    ensures Finder("foo, bar, qux", tail, ", ", EXACT)(10) == 13
  {
    var s, d := "foo, bar, qux", ", ";
    assert s[10] == 'q' && s[11] == 'u' && s[12] == 'x';
    MissAtHead(s, d, 10, false);
    MissAtHead(s, d, 11, false);
    MissAtHead(s, d, 12, false);
    FinderLandsAt(s, tail, d, EXACT, 10, 13);
  }

  /** The split test case at ", ": "foo, bar, qux" gives exactly "foo", "bar" and "qux". */
  lemma SplitCommaSpaceExample(tail: seq<char>)
    requires NulTerminated(tail) && 1 <= |tail| <= 16
    ensures SplitStr("foo, bar, qux", tail, ", ", EXACT) == [Slice(0, 3), Slice(5, 3), Slice(10, 3)]
    ensures "foo, bar, qux"[0..3] == "foo" && "foo, bar, qux"[5..8] == "bar" && "foo, bar, qux"[10..13] == "qux"
  {
    var f := Finder("foo, bar, qux", tail, ", ", EXACT);
    CommaSpaceFirstLanding(tail);
    CommaSpaceSecondLanding(tail);
    CommaSpaceLastLanding(tail);
    assert SplitLoop(13, 2, f, 15) == [];
    assert SplitLoop(13, 2, f, 10) == [Slice(10, 3)];
    assert SplitLoop(13, 2, f, 5) == [Slice(5, 3), Slice(10, 3)];
  }

  /** An upper-case "SPLIT" at `r` is an occurrence of "split" when case is ignored. */
  lemma SplitWordAt(s: seq<char>, r: nat)
    requires r + 5 <= |s|
    requires s[r] == 'S' && s[r + 1] == 'P' && s[r + 2] == 'L' && s[r + 3] == 'I' && s[r + 4] == 'T'
    ensures Occurs(s, "split", r, true)
  {
    var w := s[r..r + 5];
    assert w[0] == 'S' && w[1] == 'P' && w[2] == 'L' && w[3] == 'I' && w[4] == 'T';
    assert ToLower('S') == 's' && ToLower('P') == 'p' && ToLower('L') == 'l' && ToLower('I') == 'i' && ToLower('T') == 't';
  }

  /** Three lower-case letters other than 's' and then "SPLIT": find of "split" ignoring case lands after the three. */
  lemma SplitWordAfterThree(s: seq<char>, tail: seq<char>, a: nat)
    requires SplitArgs(s, tail, "split") && NulTerminated(tail) && a + 8 <= |s|
    requires IsLower(s[a]) && IsLower(s[a + 1]) && IsLower(s[a + 2])
    requires s[a] != 's' && s[a + 1] != 's' && s[a + 2] != 's'
    requires s[a + 3] == 'S' && s[a + 4] == 'P' && s[a + 5] == 'L' && s[a + 6] == 'I' && s[a + 7] == 'T'
    ensures Finder(s, tail, "split", MatchFlags(true, false, false))(a) == a + 3
  {
    assert ToLower('s') == 's';
    MissAtHead(s, "split", a, true);
    MissAtHead(s, "split", a + 1, true);
    MissAtHead(s, "split", a + 2, true);
    SplitWordAt(s, a + 3);
    FinderLandsAt(s, tail, "split", MatchFlags(true, false, false), a, a + 3);
  }

  /** Find of "split" ignoring case in "fooSPLITbarSPLITqux" from 0 lands on 3. */
  lemma SplitWordFirstLanding(tail: seq<char>)
    requires NulTerminated(tail) && 4 <= |tail| <= 16
    ensures Finder("fooSPLITbarSPLITqux", tail, "split", MatchFlags(true, false, false))(0) == 3
  {
    var s := "fooSPLITbarSPLITqux";
    assert s[0] == 'f' && s[1] == 'o' && s[2] == 'o';
    assert s[3] == 'S' && s[4] == 'P' && s[5] == 'L' && s[6] == 'I' && s[7] == 'T';
    SplitWordAfterThree(s, tail, 0);
  }

  /** From 8 it lands on 11. */
  lemma SplitWordSecondLanding(tail: seq<char>)
    requires NulTerminated(tail) && 4 <= |tail| <= 16
    ensures Finder("fooSPLITbarSPLITqux", tail, "split", MatchFlags(true, false, false))(8) == 11
  {
    var s := "fooSPLITbarSPLITqux";
    assert s[8] == 'b' && s[9] == 'a' && s[10] == 'r';
    assert s[11] == 'S' && s[12] == 'P' && s[13] == 'L' && s[14] == 'I' && s[15] == 'T';
    SplitWordAfterThree(s, tail, 8);
  }

  /** From 16 it finds nothing and lands on the end. */
  lemma SplitWordLastLanding(tail: seq<char>)
    requires NulTerminated(tail) && 4 <= |tail| <= 16
    ensures Finder("fooSPLITbarSPLITqux", tail, "split", MatchFlags(true, false, false))(16) == 19
  {
    var s, d := "fooSPLITbarSPLITqux", "split";
    assert s[16] == 'q' && s[17] == 'u' && s[18] == 'x';
    MissAtHead(s, d, 16, true);
    MissAtHead(s, d, 17, true);
    MissAtHead(s, d, 18, true);
    FinderLandsAt(s, tail, d, MatchFlags(true, false, false), 16, 19);
  }

  /** The slices the split ignoring case returns for "fooSPLITbarSPLITqux" at "split". */
  lemma SplitIgnoringCasePieces(tail: seq<char>)
    requires NulTerminated(tail) && 4 <= |tail| <= 16
    ensures SplitStr("fooSPLITbarSPLITqux", tail, "split", MatchFlags(true, false, false)) == [Slice(0, 3), Slice(8, 3), Slice(16, 3)]
  {
    var f := Finder("fooSPLITbarSPLITqux", tail, "split", MatchFlags(true, false, false));
    SplitWordFirstLanding(tail);
    SplitWordSecondLanding(tail);
    SplitWordLastLanding(tail);
    assert SplitLoop(19, 5, f, 24) == [];
    assert SplitLoop(19, 5, f, 16) == [Slice(16, 3)];
  }

  /** The split test case ignoring case: "fooSPLITbarSPLITqux" at "split" gives exactly "foo", "bar" and "qux". */
  lemma SplitIgnoringCaseExample(tail: seq<char>)
    requires NulTerminated(tail) && 4 <= |tail| <= 16
    ensures SplitStr("fooSPLITbarSPLITqux", tail, "split", MatchFlags(true, false, false)) == [Slice(0, 3), Slice(8, 3), Slice(16, 3)]
    ensures "fooSPLITbarSPLITqux"[0..3] == "foo" && "fooSPLITbarSPLITqux"[8..11] == "bar" && "fooSPLITbarSPLITqux"[16..19] == "qux"
  {
    SplitIgnoringCasePieces(tail);
  }

  /** The character finder of "foo, bar, qux" at ' ' lands on 4, then 9, then the end. */
  lemma SpaceFinderExample()
    ensures var f := CharFinder("foo, bar, qux", ' ', EXACT);
            f(0) == 4 && f(5) == 9 && f(10) == 13
  {
    var s := "foo, bar, qux";
    assert s[4] == ' ' && s[9] == ' ';
    assert forall j :: 0 <= j < 4 ==> s[j] != ' ';
    assert forall j :: 5 <= j < 9 ==> s[j] != ' ';
    assert forall j :: 10 <= j < 13 ==> s[j] != ' ';
  }

  /** The split_char test case: "foo, bar, qux" at ' ' gives "foo,", "bar," and "qux". */
  lemma SplitCharExample()
    ensures SplitChar("foo, bar, qux", ' ', EXACT) == [Slice(0, 4), Slice(5, 4), Slice(10, 3)]
    ensures "foo, bar, qux"[0..4] == "foo," && "foo, bar, qux"[5..9] == "bar," && "foo, bar, qux"[10..13] == "qux"
  {
    var s := "foo, bar, qux";
    var f := CharFinder(s, ' ', EXACT);
    SpaceFinderExample();
    assert SplitLoop(13, 1, f, 14) == [];
    assert SplitLoop(13, 1, f, 10) == [Slice(10, 3)];
    assert SplitLoop(13, 1, f, 5) == [Slice(5, 4), Slice(10, 3)];
  }

  /**
   * The loop evidently intended: the piece is exactly the characters from
   * `start` up to (not including) the delimiter, possibly none.
   */
  function SplitLoopIntended(n: nat, step: nat, next: nat -> nat, start: nat): (pieces: seq<Slice>)
    requires n + step < TWO64 && step >= 1 && start <= n + step
    requires InRange(n, next)
    ensures forall k :: 0 <= k < |pieces| ==> pieces[k].start + pieces[k].len <= n
    decreases n + step - start
  {
    if start >= n then []
    else [Slice(start, next(start) - start)] + SplitLoopIntended(n, step, next, next(start) + step)
  }

  /** The corrected search: the intended find on the rest of the string, which never looks past its end. */
  function IntendedFinder(s: seq<char>, delim: seq<char>, flags: MatchFlags): (next: nat -> nat)
    ensures InRange(|s|, next)
  {
    (i: nat) => if i < |s| then i + FindIntended(ChopStart(s, i), delim, flags) else |s|
  }

  /**
   * The corrected `ar_str_split`: the corrected loop over the corrected
   * search. It needs no assumption about the memory after the string.
   */
  function SplitIntended(s: seq<char>, delim: seq<char>, flags: MatchFlags): (pieces: seq<Slice>)
    requires |delim| >= 1 && |s| + |delim| < TWO64
    ensures forall k :: 0 <= k < |pieces| ==> pieces[k].start + pieces[k].len <= |s|
  {
    SplitLoopIntended(|s|, |delim|, IntendedFinder(s, delim, flags), 0)
  }

  /** Without LAST, the corrected search lands on the next occurrence everywhere. */
  lemma IntendedFinderFindsOccurrences(s: seq<char>, delim: seq<char>, flags: MatchFlags)
    requires !flags.last
    ensures Finds(s, delim, flags.caseInsensitive, IntendedFinder(s, delim, flags))
  {
    var f := IntendedFinder(s, delim, flags);
    forall i | 0 <= i < |s|
      ensures f(i) == NextOccurrence(s, delim, flags.caseInsensitive, i)
    {
      var h := ChopStart(s, i);
      assert h == s[i..];
      FirstInSuffix(s, delim, flags.caseInsensitive, i, FindIntended(h, delim, flags));
    }
  }

  /** The intended loop yields the cuts, empty ones included. */
  lemma {:induction false} LoopIntendedReadsCuts(s: seq<char>, step: nat, next: nat -> nat, start: nat)
    requires |s| + step < TWO64 && step >= 1 && start <= |s| + step && InRange(|s|, next)
    ensures ReadsAs(s, SplitLoopIntended(|s|, step, next, start), Cuts(s, step, next, start))
    decreases |s| + step - start
  {
    if start < |s| {
      var m := next(start);
      LoopIntendedReadsCuts(s, step, next, m + step);
      ReadsAsCons(s, Slice(start, m - start), s[start..m],
                  SplitLoopIntended(|s|, step, next, m + step), Cuts(s, step, next, m + step));
    }
  }

  /**
   * Without LAST, the corrected `ar_str_split` yields the fields, empty
   * ones included, whatever follows the string in memory.
   */
  lemma SplitIntendedReadsFields(s: seq<char>, delim: seq<char>, flags: MatchFlags)
    requires |delim| >= 1 && |s| + |delim| < TWO64 && !flags.last
    ensures ReadsAs(s, SplitIntended(s, delim, flags), Fields(s, delim, flags.caseInsensitive))
  {
    var f := IntendedFinder(s, delim, flags);
    IntendedFinderFindsOccurrences(s, delim, flags);
    CutsAreFields(s, delim, flags.caseInsensitive, f, 0);
    LoopIntendedReadsCuts(s, |delim|, f, 0);
  }

  /** Where no cut is empty, the written and the intended loop agree. */
  lemma {:induction false} IntendedAgreesWithoutEmptyCuts(s: seq<char>, step: nat, next: nat -> nat, start: nat)
    requires |s| + step < TWO64 && step >= 1 && start <= |s| + step && InRange(|s|, next)
    requires [] !in Cuts(s, step, next, start)
    ensures SplitLoop(|s|, step, next, start) == SplitLoopIntended(|s|, step, next, start)
    decreases |s| + step - start
  {
    if start < |s| {
      var m := next(start);
      assert Cuts(s, step, next, start) == [s[start..m]] + Cuts(s, step, next, m + step);
      assert s[start..m] in Cuts(s, step, next, start);
      assert start <= m <= |s|;
      assert s[start..m] != [];
      assert m > start;
      IntendedAgreesWithoutEmptyCuts(s, step, next, m + step);
    }
  }
}

=== FILE: str_list.dfy ===
/**
 * The string list of src/arkin_core.c (`ArStrList`, `ar_str_list_*`). The
 * source keeps the strings in a doubly linked list of arena-allocated
 * nodes; here the list is the sequence of its strings, first to last, and
 * each push also returns the arena after the node's allocation. The node
 * layout is not declared in include/arkin_core.h or src/arkin_core.c, so
 * its size is a parameter.
 */
module StrLists {
  import opened Machine
  import opened Paging
  import opened Arenas

  datatype StrList = StrList(items: seq<seq<char>>)

  /** The list `ArStrList list = {0}` starts as. */
  const EMPTY: StrList := StrList([])

  /** The strings of `items` one after the other, in list order. */
  function Concat(items: seq<seq<char>>): seq<char>
  {
    if |items| == 0 then [] else Concat(items[..|items| - 1]) + items[|items| - 1]
  }

  /** The sum of the lengths of `items`, counted from the front as the source's first loop does. */
  function TotalLen(items: seq<seq<char>>): nat
  {
    if |items| == 0 then 0 else |items[0]| + TotalLen(items[1..])
  }

  /**
   * `ar_str_list_push`: one node of `nodeSize` bytes is pushed on the arena
   * and the string becomes the new last element; the earlier strings keep
   * their order.
   */
  function ListPush(a: Arena, l: StrList, s: seq<char>, nodeSize: u64, page: nat): (r: (Arena, StrList))
    requires IsPageSize(page)
    ensures |r.1.items| == |l.items| + 1
    ensures r.1.items[|l.items|] == s && r.1.items[..|l.items|] == l.items
    ensures r.0.position == Add64(a.position, nodeSize) && r.0.commited >= a.commited
  {
    (PushType(a, nodeSize, page).arena, StrList(l.items + [s]))
  }

  /** `ar_str_list_push_front`: as `ListPush`, but the string becomes the first element. */
  function ListPushFront(a: Arena, l: StrList, s: seq<char>, nodeSize: u64, page: nat): (r: (Arena, StrList))
    requires IsPageSize(page)
    ensures |r.1.items| == |l.items| + 1
    ensures r.1.items[0] == s && r.1.items[1..] == l.items
    ensures r.0.position == Add64(a.position, nodeSize) && r.0.commited >= a.commited
  {
    (PushType(a, nodeSize, page).arena, StrList([s] + l.items))
  }

  /** `ar_str_list_pop`: drops the last string. The node stays allocated in the arena. */
  function ListPop(l: StrList): (r: StrList)
    requires |l.items| > 0
    ensures |r.items| == |l.items| - 1
    ensures forall k :: 0 <= k < |r.items| ==> r.items[k] == l.items[k]
  {
    StrList(l.items[..|l.items| - 1])
  }

  /** `ar_str_list_pop_front`: drops the first string. */
  function ListPopFront(l: StrList): (r: StrList)
    requires |l.items| > 0
    ensures |r.items| == |l.items| - 1
    ensures forall k :: 0 <= k < |r.items| ==> r.items[k] == l.items[k + 1]
  {
    StrList(l.items[1..])
  }

  /** Popping undoes pushing, at either end, whatever the list held. */
  lemma PushPopRoundTrip(a: Arena, l: StrList, s: seq<char>, nodeSize: u64, page: nat)
    requires IsPageSize(page)
    ensures ListPop(ListPush(a, l, s, nodeSize, page).1) == l
    ensures ListPopFront(ListPushFront(a, l, s, nodeSize, page).1) == l
  {
    var back := ListPush(a, l, s, nodeSize, page).1;
    var front := ListPushFront(a, l, s, nodeSize, page).1;
    assert ListPop(back).items == l.items;
    assert ListPopFront(front).items == l.items;
  }

  /** Joining after a push appends the string to the join. */
  lemma JoinAfterPush(a: Arena, l: StrList, s: seq<char>, nodeSize: u64, page: nat)
    requires IsPageSize(page)
    ensures Concat(ListPush(a, l, s, nodeSize, page).1.items) == Concat(l.items) + s
  {
    var items := ListPush(a, l, s, nodeSize, page).1.items;
    assert items[..|items| - 1] == l.items;
  }

  /** Concatenation distributes over splitting the list in two. */
  lemma {:induction false} ConcatAppend(xs: seq<seq<char>>, ys: seq<seq<char>>)
    ensures Concat(xs + ys) == Concat(xs) + Concat(ys)
    decreases |ys|
  {
    if |ys| == 0 {
      assert xs + ys == xs;
    } else {
      var init := ys[..|ys| - 1];
      assert (xs + ys)[..|xs + ys| - 1] == xs + init;
      ConcatAppend(xs, init);
    }
  }

  /** Joining after a push to the front puts the string before the join. */
  lemma JoinAfterPushFront(a: Arena, l: StrList, s: seq<char>, nodeSize: u64, page: nat)
    requires IsPageSize(page)
    ensures Concat(ListPushFront(a, l, s, nodeSize, page).1.items) == s + Concat(l.items)
  {
    ConcatAppend([s], l.items);
    assert [s][..0] == [];
  }

  /** Lengths add up over a split of the list. */
  lemma {:induction false} TotalLenAppend(xs: seq<seq<char>>, ys: seq<seq<char>>)
    ensures TotalLen(xs + ys) == TotalLen(xs) + TotalLen(ys)
    decreases |xs|
  {
    if |xs| == 0 {
      assert xs + ys == ys;
    } else {
      assert (xs + ys)[1..] == xs[1..] + ys;
      TotalLenAppend(xs[1..], ys);
    }
  }

  /** The join is as long as all the strings together. */
  lemma {:induction false} ConcatLength(items: seq<seq<char>>)
    ensures |Concat(items)| == TotalLen(items)
    decreases |items|
  {
    if |items| > 0 {
      var init := items[..|items| - 1];
      ConcatLength(init);
      TotalLenAppend(init, [items[|items| - 1]]);
      assert init + [items[|items| - 1]] == items;
      assert [items[|items| - 1]][1..] == [];
    }
  }

  /**
   * The join holds the strings in list order: string `k` occupies the
   * characters from the total length of the strings before it on.
   */
  lemma JoinPlacesItems(items: seq<seq<char>>, k: nat)
    requires k < |items|
    ensures var off := TotalLen(items[..k]);
            off + |items[k]| <= |Concat(items)| &&
            Concat(items)[off..off + |items[k]|] == items[k]
  {
    var before, after := items[..k], items[k + 1..];
    assert items == before + [items[k]] + after;
    ConcatAppend(before + [items[k]], after);
    assert (before + [items[k]])[..k] == before;
    ConcatLength(before);
  }

  /**
   * `ar_str_list_join`: sums the lengths in U64, pushes that many bytes
   * without clearing them, and copies every string into place in list
   * order. The copy lands inside the block only when the sum did not wrap,
   * which is what the precondition states.
   */
  method Join(a: Arena, l: StrList, page: nat) returns (r: seq<char>, alloc: Allocation)
    requires IsPageSize(page)
    requires TotalLen(l.items) < TWO64
    ensures r == Concat(l.items)
    ensures |r| == TotalLen(l.items)
    ensures alloc == PushNoZero(a, |r|, page)
  {
    var items := l.items;
    var len: u64 := 0;
    var k := 0;
    while k < |items|
      invariant 0 <= k <= |items|
      invariant len == TotalLen(items[..k])
    {
      TotalLenAppend(items[..k + 1], items[k + 1..]);
      assert items[..k + 1] + items[k + 1..] == items;
      TotalLenAppend(items[..k], [items[k]]);
      assert items[..k] + [items[k]] == items[..k + 1];
      assert [items[k]][1..] == [];
      len := len + |items[k]|;
      k := k + 1;
    }
    assert items[..k] == items;
    alloc := PushNoZero(a, len, page);
    var data: seq<char> := [];
    k := 0;
    while k < |items|
      invariant 0 <= k <= |items|
      invariant data == Concat(items[..k])
    {
      var s := items[k];
      var j := 0;
      while j < |s|
        invariant 0 <= j <= |s|
        invariant data == Concat(items[..k]) + s[..j]
      {
        data := data + [s[j]];
        j := j + 1;
      }
      assert s[..j] == s;
      assert items[..k + 1][..k] == items[..k];
      k := k + 1;
    }
    assert items[..k] == items;
    ConcatLength(items);
    r := data;
  }

  /** The list test case: "foo", "bar", "qux" pushed, "lorem" pushed in front, joined. */
  lemma ListExample(a: Arena, nodeSize: u64, page: nat)
    requires IsPageSize(page)
    ensures var (a1, l1) := ListPush(a, EMPTY, "foo", nodeSize, page);
            var (a2, l2) := ListPush(a1, l1, "bar", nodeSize, page);
            var (a3, l3) := ListPush(a2, l2, "qux", nodeSize, page);
            var (a4, l4) := ListPushFront(a3, l3, "lorem", nodeSize, page);
            && l2.items[0] == "foo" && l2.items[|l2.items| - 1] == "bar"
            && Concat(l4.items) == "loremfoobarqux"
  {
    var (a1, l1) := ListPush(a, EMPTY, "foo", nodeSize, page);
    var (a2, l2) := ListPush(a1, l1, "bar", nodeSize, page);
    var (a3, l3) := ListPush(a2, l2, "qux", nodeSize, page);
    JoinAfterPush(a, EMPTY, "foo", nodeSize, page);
    JoinAfterPush(a1, l1, "bar", nodeSize, page);
    JoinAfterPush(a2, l2, "qux", nodeSize, page);
    JoinAfterPushFront(a3, l3, "lorem", nodeSize, page);
  }

  /** The push-front test case: the later push ends up first. */
  lemma PushFrontExample(a: Arena, nodeSize: u64, page: nat)
    requires IsPageSize(page)
    ensures var (a1, l1) := ListPushFront(a, EMPTY, "foo", nodeSize, page);
            var (a2, l2) := ListPushFront(a1, l1, "bar", nodeSize, page);
            l2.items == ["bar", "foo"]
  {
  }
}

=== FILE: strings.dfy ===
/**
 * The string functions of src/arkin_core.c: `ar_str_match`, `ar_str_sub`,
 * `ar_str_sub_len`, `ar_str_find`, `ar_str_find_char`, the chops and
 * trims, and `ar_str_push_copy`.
 *
 * An `ArStr` is a pointer and a U64 length. A string here is its contents
 * as a `seq<char>`; where the source may read past the end of a string,
 * the bytes that follow it in memory are passed as `tail`. A sub-string
 * is returned as a `Slice`: its offset from the original data pointer and
 * its length, both U64, exactly as the source computes them, whether or
 * not the window lies inside the string.
 */
module Strings {
  import opened Machine
  import opened Paging
  import opened Chars
  import opened Arenas

  /** `ArStrMatchFlag`: the three bits CASE_INSENSITIVE, SLOPPY_LENGTH and LAST. */
  datatype MatchFlags = MatchFlags(caseInsensitive: bool, sloppyLength: bool, last: bool)

  /** `AR_STR_MATCH_FLAG_EXACT`, the empty flag set. */
  const EXACT := MatchFlags(false, false, false)

  /** The character as compared: lower-cased under CASE_INSENSITIVE. */
  function Fold(c: char, caseInsensitive: bool): char {
    if caseInsensitive then ToLower(c) else c
  }

  /** Two strings of one length that agree character by character after folding. */
  predicate FoldEq(a: seq<char>, b: seq<char>, caseInsensitive: bool) {
    |a| == |b| && forall i :: 0 <= i < |a| ==> Fold(a[i], caseInsensitive) == Fold(b[i], caseInsensitive)
  }

  /** The comparison loop of `ar_str_match`, from index `i` up to `n`. */
  function CompareFrom(a: seq<char>, b: seq<char>, n: nat, i: nat, caseInsensitive: bool): (r: bool)
    requires i <= n <= |a| && n <= |b|
    ensures r <==> forall k :: i <= k < n ==> Fold(a[k], caseInsensitive) == Fold(b[k], caseInsensitive)
    decreases n - i
  {
    if i == n then true
    else if Fold(a[i], caseInsensitive) != Fold(b[i], caseInsensitive) then false
    else CompareFrom(a, b, n, i + 1, caseInsensitive)
  }

  /**
   * `ar_str_match`: unequal lengths fail unless SLOPPY_LENGTH is set; then
   * the common prefix is compared, lower-cased under CASE_INSENSITIVE.
   */
  function Match(a: seq<char>, b: seq<char>, flags: MatchFlags): (r: bool)
    ensures !flags.sloppyLength ==> (r <==> FoldEq(a, b, flags.caseInsensitive))
    ensures flags.sloppyLength ==>
              (r <==> FoldEq(a[..Min(|a|, |b|)], b[..Min(|a|, |b|)], flags.caseInsensitive))
  {
    if |a| != |b| && !flags.sloppyLength then false
    else CompareFrom(a, b, Min(|a|, |b|), 0, flags.caseInsensitive)
  }

  /** Without flags, matching is plain equality. */
  lemma MatchExactIsEquality(a: seq<char>, b: seq<char>)
    ensures Match(a, b, EXACT) <==> a == b
  {
    if Match(a, b, EXACT) {
      assert forall i :: 0 <= i < |a| ==> a[i] == b[i];
    }
  }

  /** Matching does not depend on the order of its arguments. */
  lemma MatchSymmetric(a: seq<char>, b: seq<char>, flags: MatchFlags)
    ensures Match(a, b, flags) == Match(b, a, flags)
  {
  }

  /** With SLOPPY_LENGTH alone, two strings match exactly when one is a prefix of the other. */
  lemma SloppyMatchIsPrefix(a: seq<char>, b: seq<char>)
    ensures Match(a, b, MatchFlags(false, true, false)) <==>
              (|a| <= |b| && a == b[..|a|]) || (|b| <= |a| && b == a[..|b|])
  {
    var m := Min(|a|, |b|);
    if Match(a, b, MatchFlags(false, true, false)) {
      assert forall i :: 0 <= i < m ==> a[i] == b[i];
      if |a| <= |b| {
        assert a == a[..m];
      } else {
        assert b == b[..m];
      }
    }
  }

  /** The expectations of the match test case. */
  lemma MatchExamples()
    ensures Match("arkin", "arkin", EXACT)
    ensures !Match("arkin", "arkinfoobar", EXACT)
    ensures Match("CaSe InSeNsItIvE", "case insensitive", MatchFlags(true, false, false))
    ensures Match("Sloppy length", "Sloppy", MatchFlags(false, true, false))
    ensures Match("Sloppy", "Sloppy length", MatchFlags(false, true, false))
    ensures Match("foo, bar", "foo, ", MatchFlags(false, true, false))
    ensures Match(",.", ",.", EXACT)
  {
    MatchExactIsEquality("arkin", "arkin");
    MatchExactIsEquality(",.", ",.");
    SloppyMatchIsPrefix("Sloppy length", "Sloppy");
    SloppyMatchIsPrefix("Sloppy", "Sloppy length");
    SloppyMatchIsPrefix("foo, bar", "foo, ");
    assert "Sloppy length"[..6] == "Sloppy";
    assert "foo, bar"[..5] == "foo, ";
  }

  /** An `ArStr` produced from another: offset from the data pointer, and length. */
  datatype Slice = Slice(start: u64, len: u64)

  /**
   * `ar_str_sub` as written: the bounds are swapped if given in reverse,
   * `start` is clamped to the last index, and then, when `end` is past the
   * string, `start` (not `end`) is set to the last index. The length is
   * `end - start + 1` in U64.
   */
  function Sub(n: u64, start: u64, end: u64): (r: Slice)
    ensures start <= end < n ==> r == Slice(start, end - start + 1)
    ensures end < start < n ==> r == Slice(end, start - end + 1)
    ensures n > 0 ==> r.start < n
    ensures n > 0 && (start >= n || end >= n) ==> r.start == n - 1
  {
    var lo := if start > end then end else start;
    var hi := if start > end then start else end;
    var lo1 := if lo >= n then Sub64(n, 1) else lo;
    var lo2 := if hi >= n then Sub64(n, 1) else lo1;
    Slice(lo2, Add64(Sub64(hi, lo2), 1))
  }

  /** The order of the two bounds does not matter. */
  lemma SubSymmetric(n: u64, a: u64, b: u64)
    ensures Sub(n, a, b) == Sub(n, b, a)
  {
  }

  /**
   * Because the second clamp moves `start`, an `end` past the string
   * yields a window that still runs to `end`: it reaches past the last
   * character of the string.
   */
  lemma SubOverrunsEnd(n: u64, start: u64, end: u64)
    requires 0 < n <= end < TWO64 - 1 && start <= end
    ensures Sub(n, start, end) == Slice(n - 1, end - n + 2)
    ensures Sub(n, start, end).start + Sub(n, start, end).len > n
  {
  }

  /** The clamp evidently intended: both bounds clamped to the last index. */
  function SubIntended(n: u64, start: u64, end: u64): (r: Slice)
    ensures r.start + r.len <= n
    ensures start <= end < n ==> r == Slice(start, end - start + 1)
    ensures end < start < n ==> r == Slice(end, start - end + 1)
    ensures start <= end && start < n <= end ==> r == Slice(start, n - start)
  {
    if n == 0 then Slice(0, 0)
    else
      var lo := if start > end then end else start;
      var hi := if start > end then start else end;
      var lo1 := if lo >= n then n - 1 else lo;
      var hi1 := if hi >= n then n - 1 else hi;
      Slice(lo1, hi1 - lo1 + 1)
  }

  /** Where both bounds are inside the string, the written and the intended clamp agree. */
  lemma SubIntendedAgrees(n: u64, start: u64, end: u64)
    requires start < n && end < n
    ensures Sub(n, start, end) == SubIntended(n, start, end)
  {
  }

  /** `ar_str_sub_len`: the window of `len` characters from `start`, as `ar_str_sub(start, start + len - 1)`. */
  function SubLen(n: u64, start: u64, len: u64): (r: Slice)
    ensures 0 < len && start + len <= n ==> r == Slice(start, len)
    ensures n > 0 ==> r.start < n
  {
    Sub(n, start, Sub64(Add64(start, len), 1))
  }

  /**
   * A zero length underflows `start + len - 1`: from a nonzero start the
   * bounds swap and a two-character window results, from start 0 the
   * window starts at the last character and is longer than the string.
   */
  lemma SubLenOfZero(n: u64, start: u64)
    requires start < n
    ensures start > 0 ==> SubLen(n, start, 0) == Slice(start - 1, 2)
    ensures start == 0 && n >= 2 ==> SubLen(n, 0, 0) == Slice(n - 1, TWO64 - n + 1)
  {
  }

  /**
   * The window evidently intended by `ar_str_sub_len`: `len` characters
   * from `start`, cut at the end of the string, and empty for a zero length.
   */
  function SubLenIntended(n: u64, start: u64, len: u64): (r: Slice)
    ensures r.start + r.len <= n
    ensures start + len <= n ==> r == Slice(start, len)
    ensures len == 0 ==> r.len == 0
  {
    if len == 0 || n == 0 then Slice(Min(start, n), 0)
    else SubIntended(n, start, Sub64(Add64(start, len), 1))
  }

  /** For a nonempty window inside the string the written and the intended `sub_len` agree. */
  lemma SubLenIntendedAgrees(n: u64, start: u64, len: u64)
    requires 0 < len && start + len <= n
    ensures SubLen(n, start, len) == SubLenIntended(n, start, len)
  {
  }

  /** The expectations of the sub-string test case, on "foobar". */
  lemma SubExamples()
    ensures Sub(6, 0, 2) == Slice(0, 3) && SubLen(6, 0, 3) == Slice(0, 3)
    ensures Sub(6, 3, 5) == Slice(3, 3) && SubLen(6, 3, 3) == Slice(3, 3)
    ensures Sub(6, 5, 3) == Slice(3, 3)
  {
  }

  /** The characters of the window, read from the string and the memory after it. */
  function Read(s: seq<char>, tail: seq<char>, w: Slice): (r: seq<char>)
    requires w.start + w.len <= |s| + |tail|
    ensures |r| == w.len
    ensures w.start + w.len <= |s| ==> r == s[w.start..w.start + w.len]
  {
    (s + tail)[w.start..w.start + w.len]
  }

  /**
   * The test in `ar_str_find` at one index: the sloppy match of the needle
   * against the `ar_str_sub_len` window there. A sloppy match compares only
   * the first `Min(|needle|, window length)` characters, so only those are
   * read; `tail` must hold enough of the memory after the haystack.
   */
  function MatchAt(h: seq<char>, tail: seq<char>, needle: seq<char>, index: nat, flags: MatchFlags): bool
    requires index < |h| && |h| + |tail| < TWO64 && |needle| <= |tail| + 1
  {
    var w := SubLen(|h|, index, |needle|);
    var k := Min(|needle|, w.len);
    Match(needle, Read(h, tail, Slice(w.start, k)), flags.(sloppyLength := true))
  }

  /**
   * The loop shared by `ar_str_find` and `ar_str_find_char`: step `i`
   * visits index `i`, or index `n - i - 1` under LAST; the first visited
   * index whose test holds is returned, and `n` when none does. `hits`
   * holds the outcome of the test at every index.
   */
  function Scan(hits: seq<bool>, last: bool, i: nat): (r: nat)
    requires i <= |hits|
    ensures r <= |hits|
    decreases |hits| - i
  {
    if i == |hits| then |hits|
    else
      var index := if last then |hits| - i - 1 else i;
      if hits[index] then index else Scan(hits, last, i + 1)
  }

  /**
   * The index found passes its test. Counting up from step `i`, no index
   * between `i` and the result passes its test; counting down, none
   * between the result and `n - i`.
   */
  lemma {:induction false} ScanSkipsMisses(hits: seq<bool>, last: bool, i: nat)
    requires i <= |hits|
    ensures var r := Scan(hits, last, i);
            && (r < |hits| ==> hits[r])
            && (!last ==> i <= r && forall idx :: i <= idx < r ==> !hits[idx])
            && (last && r < |hits| ==> r < |hits| - i && forall idx :: r < idx < |hits| - i ==> !hits[idx])
            && (last && r == |hits| ==> forall idx :: 0 <= idx < |hits| - i ==> !hits[idx])
    decreases |hits| - i
  {
    if i < |hits| {
      var index := if last then |hits| - i - 1 else i;
      if !hits[index] {
        ScanSkipsMisses(hits, last, i + 1);
      }
    }
  }

  /** The outcome of `ar_str_find`'s test at every index of the haystack. */
  function MatchTable(h: seq<char>, tail: seq<char>, needle: seq<char>, flags: MatchFlags): (t: seq<bool>)
    requires |h| + |tail| < TWO64 && |needle| <= |tail| + 1
    ensures |t| == |h|
  {
    seq(|h|, idx requires 0 <= idx < |h| => MatchAt(h, tail, needle, idx, flags))
  }

  /** Each entry of the table is the test at its index. */
  lemma MatchTableAt(h: seq<char>, tail: seq<char>, needle: seq<char>, flags: MatchFlags, idx: nat)
    requires |h| + |tail| < TWO64 && |needle| <= |tail| + 1 && idx < |h|
    ensures MatchTable(h, tail, needle, flags)[idx] == MatchAt(h, tail, needle, idx, flags)
  {
  }

  /** `ar_str_find`: the index of the match, or the haystack's length when there is none. */
  function Find(h: seq<char>, tail: seq<char>, needle: seq<char>, flags: MatchFlags): (r: nat)
    requires |h| + |tail| < TWO64 && |needle| <= |tail| + 1
    ensures r <= |h|
  {
    Scan(MatchTable(h, tail, needle, flags), flags.last, 0)
  }

  /** `needle` occurs in `h` at index `i` (modulo case folding), with `i` a valid index of `h`. */
  predicate Occurs(h: seq<char>, needle: seq<char>, i: nat, caseInsensitive: bool) {
    i < |h| && i + |needle| <= |h| && FoldEq(h[i..i + |needle|], needle, caseInsensitive)
  }

  /** The memory after the haystack starts with the terminating NUL. */
  predicate NulTerminated(tail: seq<char>) {
    |tail| > 0 && tail[0] == '\0'
  }

  /**
   * The match test at one index is an occurrence of the needle there: a
   * window that would run past the haystack starts at its last character,
   * so its second compared character is the NUL, which no needle character
   * folds to.
   */
  lemma MatchAtIffOccurs(h: seq<char>, tail: seq<char>, needle: seq<char>, index: nat, flags: MatchFlags)
    requires index < |h| && |h| + |tail| < TWO64 && |needle| <= |tail| + 1
    requires NulTerminated(tail) && '\0' !in needle
    ensures MatchAt(h, tail, needle, index, flags) <==> Occurs(h, needle, index, flags.caseInsensitive)
  {
    var n := |needle|;
    var ci := flags.caseInsensitive;
    var w := SubLen(|h|, index, n);
    var k := Min(n, w.len);
    var window := Read(h, tail, Slice(w.start, k));
    if n == 0 {
      assert window == [];
    } else if index + n <= |h| {
      assert w == Slice(index, n);
      assert window == h[index..index + n];
    } else {
      assert w.start == |h| - 1;
      assert k >= 2;
      assert window[1] == tail[0];
      FoldNul(needle[1]);
      assert Fold(window[1], ci) == '\0';
      assert Fold(needle[1], ci) != '\0';
    }
  }

  /**
   * `ar_str_find` without LAST returns the first occurrence of the needle,
   * and the haystack's length when it does not occur.
   */
  lemma FindFirstOccurrence(h: seq<char>, tail: seq<char>, needle: seq<char>, flags: MatchFlags)
    requires |h| + |tail| < TWO64 && |needle| <= |tail| + 1
    requires NulTerminated(tail) && '\0' !in needle && !flags.last
    ensures var r := Find(h, tail, needle, flags);
            && (r < |h| ==> Occurs(h, needle, r, flags.caseInsensitive))
            && (forall j :: 0 <= j < r ==> !Occurs(h, needle, j, flags.caseInsensitive))
  {
    var r := Find(h, tail, needle, flags);
    ScanSkipsMisses(MatchTable(h, tail, needle, flags), flags.last, 0);
    if r < |h| {
      MatchTableAt(h, tail, needle, flags, r);
      MatchAtIffOccurs(h, tail, needle, r, flags);
    }
    forall j | 0 <= j < r
      ensures !Occurs(h, needle, j, flags.caseInsensitive)
    {
      MatchTableAt(h, tail, needle, flags, j);
      MatchAtIffOccurs(h, tail, needle, j, flags);
    }
  }

  /**
   * With LAST it returns the last occurrence, and the haystack's length
   * when the needle does not occur.
   */
  lemma FindLastOccurrence(h: seq<char>, tail: seq<char>, needle: seq<char>, flags: MatchFlags)
    requires |h| + |tail| < TWO64 && |needle| <= |tail| + 1
    requires NulTerminated(tail) && '\0' !in needle && flags.last
    ensures var r := Find(h, tail, needle, flags);
            && (r < |h| ==> Occurs(h, needle, r, flags.caseInsensitive))
            && (r < |h| ==> forall j :: r < j < |h| ==> !Occurs(h, needle, j, flags.caseInsensitive))
            && (r == |h| ==> forall j :: 0 <= j < |h| ==> !Occurs(h, needle, j, flags.caseInsensitive))
  {
    var r := Find(h, tail, needle, flags);
    ScanSkipsMisses(MatchTable(h, tail, needle, flags), flags.last, 0);
    if r < |h| {
      MatchTableAt(h, tail, needle, flags, r);
      MatchAtIffOccurs(h, tail, needle, r, flags);
    }
    forall j | 0 <= j < |h| && (r == |h| || r < j)
      ensures !Occurs(h, needle, j, flags.caseInsensitive)
    {
      MatchTableAt(h, tail, needle, flags, j);
      MatchAtIffOccurs(h, tail, needle, j, flags);
    }
  }

  /**
   * As written, a window that would run past the haystack is moved to its
   * last character and read on into the memory that follows, and the
   * sloppy match accepts it. "ab" followed by "c" in memory (as in a piece
   * cut from "abc") has no "bc" in it, yet find reports one at index 1.
   */
  lemma FindPastEnd()
    ensures Find("ab", "c\0", "bc", EXACT) == 1
    ensures !Occurs("ab", "bc", 1, false)
  {
    var h, tail, needle := "ab", "c\0", "bc";
    assert MatchAt(h, tail, needle, 0, EXACT) == false by {
      assert SubLen(2, 0, 2) == Slice(0, 2);
      assert Read(h, tail, Slice(0, 2)) == h;
    }
    assert MatchAt(h, tail, needle, 1, EXACT) by {
      assert SubLen(2, 1, 2) == Slice(1, 2);
      assert Read(h, tail, Slice(1, 2)) == needle;
    }
    var t := MatchTable(h, tail, needle, EXACT);
    assert t[0] == false && t[1];
  }

  /** The occurrence test at every index of the haystack. */
  function OccursTable(h: seq<char>, needle: seq<char>, caseInsensitive: bool): (t: seq<bool>)
    ensures |t| == |h|
    ensures forall idx :: 0 <= idx < |h| ==> t[idx] == Occurs(h, needle, idx, caseInsensitive)
  {
    seq(|h|, idx requires 0 <= idx < |h| => Occurs(h, needle, idx, caseInsensitive))
  }

  /**
   * `ar_str_find` as evidently intended: an index counts only when the
   * whole needle lies inside the haystack there. It returns the first (or,
   * with LAST, the last) occurrence, else `|h|`, whatever follows the
   * haystack in memory.
   */
  function FindIntended(h: seq<char>, needle: seq<char>, flags: MatchFlags): (r: nat)
    ensures r <= |h|
    ensures r < |h| ==> Occurs(h, needle, r, flags.caseInsensitive)
    ensures !flags.last ==> forall j :: 0 <= j < r ==> !Occurs(h, needle, j, flags.caseInsensitive)
    ensures flags.last && r < |h| ==> forall j :: r < j < |h| ==> !Occurs(h, needle, j, flags.caseInsensitive)
    ensures flags.last && r == |h| ==> forall j :: 0 <= j < |h| ==> !Occurs(h, needle, j, flags.caseInsensitive)
  {
    var t := OccursTable(h, needle, flags.caseInsensitive);
    ScanSkipsMisses(t, flags.last, 0);
    Scan(t, flags.last, 0)
  }

  /** On "ab" followed by "c", the intended find reports no "bc". */
  lemma FindIntendedNotPastEnd()
    ensures FindIntended("ab", "bc", EXACT) == 2
  {
    assert !Occurs("ab", "bc", 0, false) by {
      assert "ab"[0..2] == "ab";
      assert Fold("ab"[0], false) != Fold("bc"[0], false);
    }
  }

  /** Where a NUL follows the haystack and not in the needle, the source's find is the intended one. */
  lemma FindIntendedAgrees(h: seq<char>, tail: seq<char>, needle: seq<char>, flags: MatchFlags)
    requires |h| + |tail| < TWO64 && |needle| <= |tail| + 1
    requires NulTerminated(tail) && '\0' !in needle
    ensures Find(h, tail, needle, flags) == FindIntended(h, needle, flags)
  {
    var ci := flags.caseInsensitive;
    var mt, ot := MatchTable(h, tail, needle, flags), OccursTable(h, needle, ci);
    forall idx | 0 <= idx < |h|
      ensures mt[idx] == ot[idx]
    {
      MatchTableAt(h, tail, needle, flags, idx);
      MatchAtIffOccurs(h, tail, needle, idx, flags);
    }
    assert mt == ot;
  }

  /** The outcome of `ar_str_find_char`'s test at every index: equal after folding. */
  function CharTable(h: seq<char>, c: char, caseInsensitive: bool): (t: seq<bool>)
    ensures |t| == |h|
    ensures forall idx :: 0 <= idx < |h| ==> t[idx] == (Fold(c, caseInsensitive) == Fold(h[idx], caseInsensitive))
  {
    seq(|h|, idx requires 0 <= idx < |h| => Fold(c, caseInsensitive) == Fold(h[idx], caseInsensitive))
  }

  /**
   * `ar_str_find_char`: the index of the character's first (or, with LAST,
   * last) occurrence, compared after folding, else `|h|`.
   */
  function FindChar(h: seq<char>, c: char, flags: MatchFlags): (r: nat)
    ensures r <= |h|
    ensures r < |h| ==> Fold(h[r], flags.caseInsensitive) == Fold(c, flags.caseInsensitive)
    ensures !flags.last ==>
              forall j :: 0 <= j < r ==> Fold(h[j], flags.caseInsensitive) != Fold(c, flags.caseInsensitive)
    ensures flags.last && r < |h| ==>
              forall j :: r < j < |h| ==> Fold(h[j], flags.caseInsensitive) != Fold(c, flags.caseInsensitive)
    ensures flags.last && r == |h| ==>
              forall j :: 0 <= j < |h| ==> Fold(h[j], flags.caseInsensitive) != Fold(c, flags.caseInsensitive)
  {
    var t := CharTable(h, c, flags.caseInsensitive);
    ScanSkipsMisses(t, flags.last, 0);
    Scan(t, flags.last, 0)
  }

  /**
   * A one-character needle never needs the memory after the haystack, so
   * `ar_str_find` with it is `ar_str_find_char`.
   */
  lemma FindCharIsFind(h: seq<char>, tail: seq<char>, c: char, flags: MatchFlags)
    requires |h| + |tail| < TWO64
    ensures FindChar(h, c, flags) == Find(h, tail, [c], flags)
  {
    var t := CharTable(h, c, flags.caseInsensitive);
    var u := MatchTable(h, tail, [c], flags);
    forall idx | 0 <= idx < |h|
      ensures t[idx] == u[idx]
    {
      MatchTableAt(h, tail, [c], flags, idx);
      var w := SubLen(|h|, idx, 1);
      assert w == Slice(idx, 1);
      assert Read(h, tail, Slice(w.start, 1)) == [h[idx]];
    }
    assert t == u;
  }

  /*
   * The expectations of the find test case. The test's literals are
   * NUL-terminated; what follows the NUL does not matter.
   */

  /** Find of "foo": the first occurrence is at 0. */
  lemma FindFirstExample(tail: seq<char>)
    requires NulTerminated(tail) && 2 <= |tail| <= 16
    ensures Find("foobarqux quxbarfoo", tail, "foo", EXACT) == 0
  {
    var h := "foobarqux quxbarfoo";
    FindFirstOccurrence(h, tail, "foo", EXACT);
    assert h[0..3] == "foo";
    assert Occurs(h, "foo", 0, false);
  }

  /** Find of "foo" with LAST: the last occurrence is at 16. */
  lemma FindLastExample(tail: seq<char>)
    requires NulTerminated(tail) && 2 <= |tail| <= 16
    ensures Find("foobarqux quxbarfoo", tail, "foo", MatchFlags(false, false, true)) == 16
  {
    var h := "foobarqux quxbarfoo";
    FindLastOccurrence(h, tail, "foo", MatchFlags(false, false, true));
    assert h[16..19] == "foo";
    assert Occurs(h, "foo", 16, false);
  }

  /** Find of "QUX" with LAST and CASE_INSENSITIVE: the last "qux" is at 10. */
  lemma FindIgnoringCaseExample(tail: seq<char>)
    requires NulTerminated(tail) && 2 <= |tail| <= 16
    ensures Find("foobarqux quxbarfoo", tail, "QUX", MatchFlags(true, false, true)) == 10
  {
    var h := "foobarqux quxbarfoo";
    assert Occurs(h, "QUX", 10, true) by {
      assert ToLower('Q') == 'q' && ToLower('U') == 'u' && ToLower('X') == 'x';
      assert h[10] == 'q' && h[11] == 'u' && h[12] == 'x';
      assert FoldEq(h[10..13], "QUX", true);
    }
    forall j | 10 < j < |h|
      ensures !Occurs(h, "QUX", j, true)
    {
      LowerHaystack();
      assert Fold(h[j], true) != Fold('Q', true) by {
        assert ToLower('Q') == 'q';
      }
      if j + 3 <= |h| {
        assert h[j..j + 3][0] == h[j];
      }
    }
    FindLastOccurrence(h, tail, "QUX", MatchFlags(true, false, true));
  }

  /** The expectation of the find test case for the two-character delimiter ", ". */
  lemma FindDelimiterExample(tail: seq<char>)
    requires NulTerminated(tail) && 1 <= |tail| <= 16
    ensures Find("foo, bar, qux", tail, ", ", EXACT) == 3
  {
    var g := "foo, bar, qux";
    FindFirstOccurrence(g, tail, ", ", EXACT);
    assert Occurs(g, ", ", 3, false) by {
      assert g[3] == ',' && g[4] == ' ';
    }
    forall j | 0 <= j < 3
      ensures !Occurs(g, ", ", j, false)
    {
      assert g[j..j + 2][0] == g[j] != ',';
    }
  }

  /** The haystack of the find test case has no upper-case letter, and its only 'q's are at 6 and 10. */
  lemma LowerHaystack()
    ensures var h := "foobarqux quxbarfoo";
            forall j :: 0 <= j < |h| ==> Fold(h[j], true) == h[j] && (h[j] == 'q' <==> j == 6 || j == 10)
  {
    var h := "foobarqux quxbarfoo";
    assert forall j :: 0 <= j < |h| ==> !IsUpper(h[j]);
  }

  /** Find of ' ': the first space is at 9. */
  lemma FindCharFirstExample()
    ensures FindChar("foobarqux quxbarfoo", ' ', EXACT) == 9
  {
    var h := "foobarqux quxbarfoo";
    assert h[9] == ' ';
    assert forall j :: 0 <= j < 9 ==> h[j] != ' ';
  }

  /** Find with LAST of 'b', of 'Q' ignoring case, and of the absent '1'. */
  lemma FindCharLastExamples()
    ensures FindChar("foobarqux quxbarfoo", 'b', MatchFlags(false, false, true)) == 13
    ensures FindChar("foobarqux quxbarfoo", 'Q', MatchFlags(true, false, true)) == 10
    ensures FindChar("foobarqux quxbarfoo", '1', MatchFlags(false, false, true)) == 19
  {
    var h := "foobarqux quxbarfoo";
    LowerHaystack();
    assert h[13] == 'b';
    assert forall j :: 0 <= j < |h| ==> h[j] != '1';
  }


  /** `ar_str_chop_start`: drops the first `n` characters. */
  function ChopStart(s: seq<char>, n: nat): (r: seq<char>)
    requires n <= |s|
    ensures |r| == |s| - n
    ensures forall i :: 0 <= i < |r| ==> r[i] == s[n + i]
  {
    s[n..]
  }

  /** `ar_str_chop_end`: drops the last `n` characters. */
  function ChopEnd(s: seq<char>, n: nat): (r: seq<char>)
    requires n <= |s|
    ensures |r| == |s| - n
    ensures forall i :: 0 <= i < |r| ==> r[i] == s[i]
  {
    s[..|s| - n]
  }

  /** Chopping the end and the start at the same point splits a string into two halves. */
  lemma ChopsSplit(s: seq<char>, n: nat)
    requires n <= |s|
    ensures ChopEnd(s, |s| - n) + ChopStart(s, n) == s
  {
    assert s[..n] + s[n..] == s;
  }

  /** The chop expectations of the sub-string test case. */
  lemma ChopExamples()
    ensures ChopStart("foobar", 3) == "bar"
    ensures ChopEnd("foobar", 3) == "foo"
  {
  }

  /** The loop of `ar_str_trim_front`: how many leading characters are whitespace. */
  function LeadingFrom(s: seq<char>, i: nat): (n: nat)
    requires i <= |s|
    requires forall k :: 0 <= k < i ==> IsWhitespace(s[k])
    ensures i <= n <= |s|
    ensures forall k :: 0 <= k < n ==> IsWhitespace(s[k])
    ensures n < |s| ==> !IsWhitespace(s[n])
    decreases |s| - i
  {
    if i < |s| && IsWhitespace(s[i]) then LeadingFrom(s, i + 1) else i
  }

  /** The loop of `ar_str_trim_back`: how many trailing characters are whitespace. */
  function TrailingFrom(s: seq<char>, i: nat): (n: nat)
    requires i <= |s|
    requires forall k :: |s| - i <= k < |s| ==> IsWhitespace(s[k])
    ensures i <= n <= |s|
    ensures forall k :: |s| - n <= k < |s| ==> IsWhitespace(s[k])
    ensures n < |s| ==> !IsWhitespace(s[|s| - n - 1])
    decreases |s| - i
  {
    if i < |s| && IsWhitespace(s[|s| - i - 1]) then TrailingFrom(s, i + 1) else i
  }

  /** `ar_str_trim_front`: the string without its leading whitespace. */
  function TrimFront(s: seq<char>): (r: seq<char>)
    ensures |r| <= |s| && r == s[|s| - |r|..]
    ensures forall k :: 0 <= k < |s| - |r| ==> IsWhitespace(s[k])
    ensures |r| > 0 ==> !IsWhitespace(r[0])
  {
    ChopStart(s, LeadingFrom(s, 0))
  }

  /** `ar_str_trim_back`: the string without its trailing whitespace. */
  function TrimBack(s: seq<char>): (r: seq<char>)
    ensures |r| <= |s| && r == s[..|r|]
    ensures forall k :: |r| <= k < |s| ==> IsWhitespace(s[k])
    ensures |r| > 0 ==> !IsWhitespace(r[|r| - 1])
  {
    ChopEnd(s, TrailingFrom(s, 0))
  }

  /**
   * `ar_str_trim`: the piece of the string that starts after its leading
   * whitespace, neither starting nor ending with whitespace, with only
   * whitespace cut away after it; empty exactly when the string is all
   * whitespace.
   */
  function Trim(s: seq<char>): (r: seq<char>)
    ensures LeadingFrom(s, 0) + |r| <= |s|
    ensures r == s[LeadingFrom(s, 0)..LeadingFrom(s, 0) + |r|]
    ensures forall k :: LeadingFrom(s, 0) + |r| <= k < |s| ==> IsWhitespace(s[k])
    ensures |r| > 0 ==> !IsWhitespace(r[0]) && !IsWhitespace(r[|r| - 1])
    ensures |r| == 0 <==> forall k :: 0 <= k < |s| ==> IsWhitespace(s[k])
  {
    TrimBothSides(s);
    TrimBack(TrimFront(s))
  }

  /** Trimming the back of the front-trimmed string cuts whitespace only, from both ends. */
  lemma TrimBothSides(s: seq<char>)
    ensures var i, r := LeadingFrom(s, 0), TrimBack(TrimFront(s));
            && i + |r| <= |s| && r == s[i..i + |r|]
            && (forall k :: i + |r| <= k < |s| ==> IsWhitespace(s[k]))
            && (|r| > 0 ==> !IsWhitespace(r[0]) && !IsWhitespace(r[|r| - 1]))
            && (|r| == 0 <==> forall k :: 0 <= k < |s| ==> IsWhitespace(s[k]))
  {
    var i := LeadingFrom(s, 0);
    var front := TrimFront(s);
    var r := TrimBack(front);
    assert front == s[i..];
    assert r == front[..|r|];
    assert r == s[i..i + |r|];
    forall k | i + |r| <= k < |s|
      ensures IsWhitespace(s[k])
    {
      assert s[k] == front[k - i];
    }
    if |r| > 0 {
      assert r[0] == front[0];
    }
    if |r| == 0 {
      assert |front| == 0;
    }
  }

  /** A string that neither starts nor ends with whitespace is its own trim. */
  lemma TrimOfTrimmed(t: seq<char>)
    requires |t| > 0 ==> !IsWhitespace(t[0]) && !IsWhitespace(t[|t| - 1])
    ensures Trim(t) == t
  {
    assert LeadingFrom(t, 0) == 0;
    assert TrimFront(t) == t;
    assert TrailingFrom(t, 0) == 0;
    assert TrimBack(t) == t;
  }

  /** Trimming twice trims nothing more. */
  lemma TrimIdempotent(s: seq<char>)
    ensures Trim(Trim(s)) == Trim(s)
  {
    TrimOfTrimmed(Trim(s));
  }

  /** The front trim stops exactly at the first character that is not whitespace. */
  lemma TrimFrontAt(s: seq<char>, n: nat)
    requires n <= |s| && forall k :: 0 <= k < n ==> IsWhitespace(s[k])
    requires n < |s| ==> !IsWhitespace(s[n])
    ensures TrimFront(s) == s[n..]
  {
  }

  /** The back trim stops exactly at the last character that is not whitespace. */
  lemma TrimBackAt(s: seq<char>, n: nat)
    requires n <= |s| && forall k :: n <= k < |s| ==> IsWhitespace(s[k])
    requires n > 0 ==> !IsWhitespace(s[n - 1])
    ensures TrimBack(s) == s[..n]
  {
  }

  /**
   * The expectations of the trim test case: both sides. The test string is
   * a parameter pinned by the precondition, because with the literal in
   * the statement the verifier unrolls every step of the trim on it.
   */
  lemma TrimExample(s: seq<char>)
    requires s == "   foobar     \n "
    ensures Trim(s) == "foobar"
  {
    var f := s[3..];
    TrimFrontAt(s, 3);
    TrimBackAt(f, 6);
    assert f[..6] == "foobar";
  }

  /** The expectations of the trim test case: the front only. */
  lemma TrimFrontExample()
    ensures TrimFront("   foobar   \n") == "foobar   \n"
  {
    TrimFrontAt("   foobar   \n", 3);
  }

  /** The expectations of the trim test case: the back only. */
  lemma TrimBackExample()
    ensures TrimBack("   foobar   \n") == "   foobar"
  {
    TrimBackAt("   foobar   \n", 9);
  }

  /**
   * `ar_str_push_copy`: the copy holds the same characters, placed at the
   * arena's old position, which moves by the string's length.
   */
  function PushCopy(a: Arena, s: seq<char>, page: nat): (r: (seq<char>, Allocation))
    requires IsPageSize(page) && |s| < TWO64
    ensures r.0 == s
    ensures r.1.offset == a.position
    ensures r.1.arena.position == (a.position + |s|) % TWO64
  {
    (s, PushArr(a, 1, |s|, page))
  }

  /**
   * The copy is an ordinary push of `|s|` bytes: its block is the one
   * `ar_arena_push_no_zero` would hand out, and when the string fits it
   * keeps the arena invariant and the OS header ahead of the arena.
   */
  lemma PushCopyIsPush(a: Arena, s: seq<char>, page: nat)
    requires IsPageSize(page) && |s| < TWO64
    ensures PushCopy(a, s, page).1 == PushNoZero(a, |s|, page)
    ensures Valid(a, page) && Backed(a, page) && PushFits(a, |s|, page) ==>
              var b := PushCopy(a, s, page).1.arena;
              Valid(b, page) && Backed(b, page) && b.position == a.position + |s|
  {
    assert Mul64(1, |s|) == |s|;
    if Valid(a, page) && Backed(a, page) && PushFits(a, |s|, page) {
      PushKeepsValid(a, |s|, page);
      PushKeepsBacked(a, |s|, page);
    }
  }
}
